=== FILE: README.md ===
# ralph-autocoder, modelled in Dafny

Ralph supervises long-running sessions with a coding agent. It runs the agent
in iterations toward the tasks of a PRD (a `PRD.json` task list). The operator
can pause, stop, rotate ("gutter") or intervene from the keyboard. Every path
given to the file tools (Read, Write, Edit, Glob, Grep) is checked against the
project or the workspace; other tools, such as Bash, pass without a path check.
A paused or failed run can be resumed later.

This project models the core of that system:

- **Agent** (`agent.dfy`, from `ralph/agent/client.py`)
  - the iteration executor, which consumes the engine's message stream, runs intervention sub-loops and classifies the outcome;
  - `run_loop` with its exit precedence, plus `run_once` and `run_spec`;
  - the keyboard handler that turns keys into latches.
- **Display** (`display.dfy`, from `ralph/agent/output.py`)
  - the display's latches, statistics and bounded activity log;
  - the text helpers that shorten tool inputs.
- **Permissions** (`permissions.dfy`, from `ralph/agent/permissions.py`)
  - the four permission handlers, as pure decisions over a tool name and its JSON input;
  - `Paths` (`paths.dfy`) models `pathlib` parsing, `resolve()` over an abstract symlink table, and `relative_to` as a component prefix test.
- **Registry** (`registry.dfy`, from `ralph/cli/registry.py`)
  - the project registry as a map, held by a class that stands for the registry file;
  - the saved loop state;
  - the ordering of `get_all_projects` and workspace-name sanitising.
- **Commands** (`commands.dfy`, from `ralph/cli/commands.py`)
  - what the end of a loop run does with the saved state;
  - resume selection in `cmd_run` and `_flow_existing_project`;
  - next-pending-task selection;
  - the sandbox command string.
- **SpecChat** (`spec_session.dfy`, from `ralph/agent/spec_session.py`): the interactive spec conversation's bookkeeping.
- **CliUtils** (`cli_utils.dfy`, from `ralph/cli/utils.py`): project-path resolution, project-name sanitising and choice-menu indexing.
- **Tui** (`tui.dfy`, from `ralph/cli/tui.py`): the bounded output buffer and the panel padding.
- **Prompts** (`prompts.dfy`, from `ralph/prompts/__init__.py`): the loop types, placeholder filling and the three prompt builders.
- **Config** (`config.dfy`, from `ralph/cli/config.py`): settings loaded as defaults overlaid with the settings file.

Shared modules model Python's string operations (`Text`), JSON values (`Json`)
and `Option` (`Wrappers`).

**Stateful parts are classes.** `AgentDisplay`, `KeyboardHandler`,
`ProjectRegistry`, `SpecSession`, `OutputBuffer` and `RalphTui` are classes
whose methods update fields, and their contracts are stated against
specification functions. Loops in the source are loops here, each with
invariants:

- the message loop of `_execute`;
- the iteration loop of `run_loop`;
- the next-task search;
- the settings merge;
- the spec query loop;
- the panel padding.

**Abstracted inputs.** The engine, the terminal, the clock and the filesystem
are not modelled directly; they become inputs:

- the engine's reply is a message sequence, with `Raise(e)` for an exception;
- keys the operator presses during an iteration are oracle functions;
- timestamps are string parameters;
- the existence of paths is a predicate;
- symlinks are a table.

## Model

| member | source | states |
|---|---|---|
| Agent.Classify | ralph/agent/client.py:627-660 | complete iff either completion sentinel is in the text; auto-gutter iff enabled and input tokens strictly exceed limit×threshold; user-gutter iff the latch was set; gutter iff the gutter sentinel, user- or auto-gutter; other fields carried over |
| Agent.AutoGutterIsStrict | ralph/agent/client.py:642 | with limit 200000 and threshold 0.8, 160000 input tokens do not rotate and 160001 do |
| Agent.InterventionQuery | ralph/agent/client.py:509-519 | non-empty text gives "[USER INTERVENTION] " + text; empty text gives "Continue with what you were doing." |
| Agent.ScanEnded | ralph/agent/client.py:494-618 | once a result or exception ends the iteration, later messages change nothing |
| Agent.ScanOpen | ralph/agent/client.py:494-621 | before the iteration ends, no exception has arrived and every result met so far was discarded by an intervention; the latch is then clear, except before the first message |
| Agent.ScanEnds | ralph/agent/client.py:494-621 | a stream holding an exception, or a result that no intervention discards, does end the iteration |
| Agent.Session.Observed | ralph/agent/client.py:499 | the latch is seen set before message j only with a display, when 'i' was pressed before that message or, for the first message, when it was set as the iteration began |
| Agent.Session.Ends | ralph/agent/client.py:494-621 | some message ends the iteration: an exception, or a result that no intervention discards |
| Agent.Scan | ralph/agent/client.py:494-621 | defines what the loop does with the first n messages: an exception ends the iteration before the latch is looked at and leaves it set or clear; an observed intervention clears the latch, discards the message and sends one query; a result ends the iteration; its properties are `ScanOpen`, `ScanEnds`, `ScanLatch`, `ScanShape` and `ScanQueries` |
| Agent.ScanLatch | ralph/agent/client.py:494-621 | the scan ends at one message, the last one processed, and leaves the latch set iff that message is an exception that arrived while the latch was seen set |
| Agent.IterationLatch | ralph/agent/client.py:497-621 | an iteration leaves the intervene latch set exactly when the exception that ends it arrived while the latch was set; without a display it is clear |
| Agent.ScanShape | ralph/agent/client.py:494-618 | processed messages are non-terminal except the last, once ended |
| Agent.ScanQueries | ralph/agent/client.py:499-519 | the k-th query after the prompt carries the k-th reply; without a display no query is sent |
| Agent.FoldProgress | ralph/agent/client.py:522-614 | the outcome gathered does not depend on the display's statistics or log |
| Agent.AbsorbedNonTerminal | ralph/agent/client.py:555-573 | before the terminal message only the text grows; tokens stay 0 and success stays true |
| Agent.Absorb | ralph/agent/client.py:522-625 | defines one message's effect on the outcome: text blocks append; a result sets success, duration, turns, the token sums, a non-zero cost and a non-empty result text; an exception sets failure with its text |
| Agent.Step | ralph/agent/client.py:522-614 | defines one message's effect on the outcome, the display statistics and the log; `Process` is proved to perform it |
| Agent.Fold | ralph/agent/client.py:497-614 | defines the view after the processed messages in order; `FoldProgress`, `FoldKeepsTotals` and `FoldKeepsIteration` state its properties |
| Agent.Outcome | ralph/agent/client.py:575-660 | defines the iteration's result: the processed messages absorbed from the initial outcome, then classified with the gutter latch; `OutcomeOfIteration` states it field by field |
| Agent.RunIteration | ralph/agent/client.py:480-660 | defines the whole iteration: its result, the queries sent, the display statistics and the log with the closing entries; `Execute` is proved to perform it |
| Agent.OutcomeOfIteration | ralph/agent/client.py:575-622 | an exception that arrives before the result gives failure with its text and no tokens; a result gives its error flag, the sum of the three input-token fields, and its `result` text if non-empty, else the concatenated text blocks |
| Agent.Pad3 | ralph/agent/client.py:646 | three decimal digits, leading zeros kept, whose value is n: one group of the `{:,}` rendering |
| Agent.RoundHalfEven | ralph/agent/client.py:646 | the `.0f` rendering of the threshold percentage: within one half of it, and even on a tie |
| Agent.IterationOutcome | ralph/agent/client.py:480-660 | an iteration ends on one terminal message: an exception that arrives before the result gives failure with its text and no tokens; a result gives its error flag, token sums, duration, turns and `result` text, else the text blocks before it |
| Agent.IterationQueries | ralph/agent/client.py:491-519 | the prompt is sent first, then one query per observed intervention with the operator's text in order |
| Agent.FoldKeepsTotals | ralph/agent/client.py:522-573 | before the terminal message the display's cumulative totals do not move |
| Agent.IterationTotals | ralph/agent/client.py:604-625 | the cumulative input total grows by the iteration's input tokens when a result ends the iteration, and not at all when an exception ends it |
| Agent.FoldKeepsIteration | ralph/agent/client.py:522-614 | processing messages never changes the display's iteration number or its task line |
| Agent.HandleBlocks | ralph/agent/client.py:555-573 | the text grows by the text blocks in order; text and thinking blocks are logged; stats and latches unchanged |
| Agent.Process | ralph/agent/client.py:522-614 | handling one message advances the outcome, stats and log by exactly one specified step |
| Agent.HandleNext | ralph/agent/client.py:497-618 | one turn of the message loop moves the scan from message j to j + 1; outcome, stats and log stay the fold of the processed messages; the intervene latch follows the scan |
| Agent.Take | ralph/agent/client.py:522-614 | processing one message advances the outcome, the stats and the log by one `Fold` step and leaves the latches alone |
| Agent.Consume | ralph/agent/client.py:494-621 | the loop processes exactly the scanned messages and sends the scanned queries; outcome, stats and log are the fold of those messages; the intervene latch ends as the iteration leaves it: cleared by each observed intervention, kept when an exception ends the iteration |
| Agent.Execute | ralph/agent/client.py:399-660 | `_execute` returns the specified iteration's result and sends its queries; the display ends with the specified stats and log, the gutter latch cleared and the intervene latch as the iteration leaves it |
| Agent.Close | ralph/agent/client.py:627-647 | the result is the classification with the gutter latch as read; only the gutter latch is cleared; the auto-gutter warning is logged |
| Agent.HandlerFor | ralph/agent/client.py:429-437 | interactive handler iff interactive and a question handler; else read-only iff plan mode; else the project handler |
| Agent.SpecTools | ralph/agent/client.py:372 | `AskUserQuestion` is offered iff there is a question handler; only the spec tool set is used |
| Agent.ModeHandlers | ralph/agent/client.py:429-437 | spec iterations never get the project handler nor a writing tool; default-mode runs always get the project handler |
| Agent.Iterate | ralph/agent/client.py:291-309 | one iteration's result is `Outcome` of its session; the status is set from success; pause and stop gain the iteration's keys, gutter is cleared, intervene is as the iteration leaves it; the task line is unchanged |
| Agent.Announce | ralph/agent/client.py:292-295 | the display shows iteration i; the pause, stop and gutter latches gain the keys pressed during the iteration; the task line is unchanged |
| Agent.Exit.Name | ralph/agent/client.py:280-289 | only "go on" has the empty name |
| Agent.Decide | ralph/agent/client.py:311-348 | exit precedence: complete, then rotate (go on), then gutter, then error, then with a display stop before pause; never `max_iterations` |
| Agent.Conclude | ralph/agent/client.py:311-348 | the exit checks return `Decide`'s reason and log its entry; a pause sets the status "paused"; the task line is unchanged |
| Agent.LatchedIff | ralph/agent/client.py:337-348 | a latch is set iff it was set before the run or a key was pressed in one of the iterations |
| Agent.LatchedShift | ralph/agent/client.py:337-348 | accumulating a latch from iteration lo equals accumulating from lo+1 after lo's key |
| Agent.LoopRunResults | ralph/agent/client.py:288-306 | a run appends the outcomes of start, start+1, … in order, one per visited iteration, at most one per planned iteration |
| Agent.LoopRunLength | ralph/agent/client.py:289-350 | "max_iterations" iff every iteration up to max ran without a decision (zero iterations included) |
| Agent.LoopRunLatches | ralph/agent/client.py:337-348 | the stop and pause latches at the end are the initial ones plus every key pressed in the iterations run |
| Agent.LoopRun | ralph/agent/client.py:288-350 | defines `run_loop` from iteration i: results in order, latches accumulating the keys, the first decided reason ending the run, else "max_iterations"; the `LoopRun*` lemmas state its properties |
| Agent.LoopRunKeys | ralph/agent/client.py:337-348 | the stop and pause latches at the end are the initial ones or-ed with every key pressed in the iterations run |
| Agent.LoopRunIntervene | ralph/agent/client.py:291-348 | the intervene latch at the end is the one handed from iteration to iteration, each iteration leaving what its session leaves |
| Agent.LoopRunNext | ralph/agent/client.py:291-348 | one step of `LoopRun`: the iteration's outcome and decision, then either the end of the run or the rest of it |
| Agent.OutcomesFollow | ralph/agent/client.py:291-309 | the outcomes, left latches and ends of each iteration's session are the ones the loop's contracts are stated with |
| Agent.TaskLine | ralph/agent/output.py:39-40 | defines the display's task line: the task text and its id |
| Agent.TaskLineAfter | ralph/agent/client.py:304-306 | defines the task line after the callback calls for a run's results: the last line a call set, else the line before |
| Agent.TaskLineUnfold | ralph/agent/client.py:304-306 | the line after a run is the last call's line, or the line after the earlier calls when the last call sets none |
| Agent.TaskLineUnset | ralph/agent/client.py:304-306 | when no call sets a line, the task line after the run is the one before it |
| Agent.TaskLineLastSet | ralph/agent/client.py:304-306 | the task line after a run is the one set by the last call that set one |
| Agent.TaskLineSnoc | ralph/agent/client.py:304-306 | one more iteration applies its call's line, if the call sets one |
| Agent.ApplyTaskLine | ralph/agent/output.py:168-172 | the callback's `set_task`, if it makes one, changes only the task and its id |
| Agent.Numbered | ralph/agent/client.py:305-306 | defines the callback calls for a run's results; `NumberedCalls` states what they are |
| Agent.NumberedCalls | ralph/agent/client.py:305-306 | the callback calls: one per result, in order, the `t`-th numbered `start + t` |
| Agent.LoopRunGoesOn | ralph/agent/client.py:311-348 | every check but the last said go on, with the latches accumulated by then |
| Agent.LoopRunLastDecision | ralph/agent/client.py:311-348 | a run that ended early ended on its last check's decision |
| Agent.LoopRunWithoutDisplay | ralph/agent/client.py:338 | without a display a run never ends "stopped" or "paused" |
| Agent.Round | ralph/agent/client.py:291-348 | iteration i's result is the specified outcome from the latch it begins with; the callback's line, if any, becomes the task line; a decided reason ends the run exactly as `LoopRun` ends it; otherwise the loop state moves on to i + 1 |
| Agent.RunLoop | ralph/agent/client.py:260-350 | results and exit reason are those of `LoopRun` over the iterations' outcomes, each from the intervene latch the previous one left; `on_iteration_complete(i, result)` is called once per result with consecutive numbers; the display keeps the accumulated latches; the task line is `TaskLineAfter` of the calls |
| Agent.Quiet | ralph/agent/client.py:231-258 | outside `run_loop` no key is ever pressed |
| Agent.RunOnce | ralph/agent/client.py:231-258 | one iteration numbered 1 whose result is `Outcome` of its session; the status is set from success; gutter is cleared and intervene is as the iteration leaves it |
| Agent.SpecRunResults | ralph/agent/client.py:369-386 | a spec run appends the outcomes of iterations 1, 2, … in order, at most `max` |
| Agent.SpecRunStops | ralph/agent/client.py:391-395 | a spec run stops right after the first result carrying the spec completion signal, or after `max` |
| Agent.RunSpec | ralph/agent/client.py:352-397 | the results are `SpecRun` of the outcomes, each from the intervene latch the previous iteration left; stop and pause are untouched |
| Agent.SpecRun | ralph/agent/client.py:369-397 | defines `run_spec`'s results: the outcomes in order, ending after the first carrying the completion signal, else after `max_iterations` |
| Agent.SpecRound | ralph/agent/client.py:369-397 | iteration i's result is the specified outcome; the run ends iff it carries the completion signal, as `SpecRun` ends it |
| Agent.KeyLatches | ralph/agent/client.py:84-97 | after lower-casing: 'p' pauses, 'g' gutters, 's' or 'q' stops, 'i' intervenes; other keys change nothing |
| Agent.KeyLatchesOne | ralph/agent/client.py:84-97 | a key never clears a latch, sets at most one, and pressing it again changes nothing |
| Agent.KeyLatchesCase | ralph/agent/client.py:90 | upper- and lower-case keys act alike |
| Agent.KeyEntry | ralph/agent/client.py:90-97 | a key logs an entry iff, lower-cased, it is one of p, g, s and q |
| Agent.KeyboardHandler.constructor | ralph/agent/client.py:49-53 | not running, nothing saved; supported iff termios is available and not on Windows |
| Agent.KeyboardHandler.Start | ralph/agent/client.py:55-68 | nothing without support or off a terminal; otherwise running with settings saved, unless cbreak mode fails |
| Agent.KeyboardHandler.Stop | ralph/agent/client.py:70-77 | stops; restores the settings iff some were saved and input is supported |
| Agent.KeyboardHandler.CheckInput | ralph/agent/client.py:79-100 | when running on a supported terminal the key read sets its latch (`KeyLatches`) and logs its entry; otherwise nothing changes |
| Agent.OutcomeAsWritten | ralph/agent/client.py:499-500 | as written, with a display the first message fails the iteration with no tokens: with its own text when it is an exception, else with the missing-attribute text |
| Agent.KeyLatchesAsWritten | ralph/agent/client.py:96-100 | as written, the 'i' key leaves every latch unchanged, so the intervene latch is never set |
| Agent.InterveneGapIteration | ralph/agent/output.py:179-216 | a displayed iteration answered by one successful result fails as written and succeeds with the latch present |
| Agent.InterveneGapKey | ralph/agent/output.py:179-216 | 'i' sets no latch as written, and sets the intervene latch once the display has it |
| Display.IconFor | ralph/agent/output.py:323 | the default icon "•" is returned iff the key is unknown |
| Display.ToolIcon | ralph/agent/output.py:357-368 | the key is "tool" iff the tool is not one of the seven known tools; every key has an icon |
| Display.PanelWidth | ralph/agent/output.py:120-124 | the panel width is always within [100, 140], and equals the terminal width minus 4 when that fits |
| Display.MaxDetailLen | ralph/agent/output.py:376 | for every panel width the detail limit lies in [40, 56] |
| Display.SplitTailIsSuffix | ralph/agent/output.py:405-407 | the last components of a split path, joined again, end the path |
| Display.TruncatePath | ralph/agent/output.py:399-412 | unchanged if it fits; else ".../" + the last two components if that fits; else "..." + the last `max_len - 3` characters; at most `max_len` long when `max_len > 3` |
| Display.LastTwo | ralph/agent/output.py:405-407 | the last two components joined by '/' are a suffix of the path |
| Display.Abbreviate | ralph/agent/output.py:346-354 | the whitespace-collapsed text, cut to the limit plus "..." when longer |
| Display.JoinWordsSingleLine | ralph/agent/output.py:346 | words joined by single spaces hold no other whitespace |
| Display.CollapsedIsSingleLine | ralph/agent/output.py:346 | collapsed text has no newline and no whitespace other than single spaces |
| Display.FormatToolInput | ralph/agent/output.py:370-397 | empty input gives ""; Read/Write/Edit truncate the path; Glob is cut to `max_len`; Bash is the collapsed command cut to `max_len`; Grep is the quoted pattern, cut inside the quotes; TodoWrite gives "(updating task list)"; any other tool gives "" |
| Display.Logged | ralph/agent/output.py:316-335 | the entry goes last after the newest earlier entries, in order; below the limit nothing is dropped, and at most 20 are kept |
| Display.LoggedCount | ralph/agent/output.py:316-335 | the log holds the old entries plus one while there are fewer than 20, and then exactly 20 |
| Display.Updated | ralph/agent/output.py:239-257 | a `None` argument leaves its field unchanged; context used takes the explicit value, else the input tokens, else stays |
| Display.Finished | ralph/agent/output.py:267-273 | cumulative totals grow by the per-iteration counts; nothing else changes |
| Display.TotalsSumInputs | ralph/agent/output.py:267-273 | over iterations that each reset, report once and finish, the cumulative input total is the sum of the reports |
| Display.AgentDisplay.constructor | ralph/agent/output.py:104-124 | all latches false, empty log, initial stats, clamped panel width |
| Display.AgentDisplay.LogActivity | ralph/agent/output.py:316-335 | the log becomes `Logged(log, entry)` with the icon looked up; stats and latches unchanged |
| Display.AgentDisplay.RequestPause | ralph/agent/output.py:179-182 | only the pause latch is set; its entry is logged |
| Display.AgentDisplay.RequestStop | ralph/agent/output.py:184-187 | only the stop latch is set; its entry is logged |
| Display.AgentDisplay.RequestGutter | ralph/agent/output.py:189-192 | only the gutter latch is set; its entry is logged |
| Display.AgentDisplay.RequestIntervene | ralph/agent/client.py:96-97 | only the intervene latch is set |
| Display.AgentDisplay.ClearPause | ralph/agent/output.py:206-208 | only the pause latch is cleared |
| Display.AgentDisplay.ClearStop | ralph/agent/output.py:210-212 | only the stop latch is cleared |
| Display.AgentDisplay.ClearGutter | ralph/agent/output.py:214-216 | only the gutter latch is cleared |
| Display.AgentDisplay.ClearIntervene | ralph/agent/client.py:500 | only the intervene latch is cleared |
| Display.AgentDisplay.IsPauseRequested | ralph/agent/output.py:194-196 | reads the pause latch |
| Display.AgentDisplay.IsStopRequested | ralph/agent/output.py:198-200 | reads the stop latch |
| Display.AgentDisplay.IsGutterRequested | ralph/agent/output.py:202-204 | reads the gutter latch |
| Display.AgentDisplay.IsInterveneRequested | ralph/agent/client.py:499 | reads the intervene latch |
| Display.AgentDisplay.SetIteration | ralph/agent/output.py:153-161 | sets the iteration and zeroes the per-iteration tokens and duration; nothing else changes |
| Display.AgentDisplay.SetTask | ralph/agent/output.py:168-172 | sets the task and task id only |
| Display.AgentDisplay.SetStatus | ralph/agent/output.py:174-177 | sets the status only |
| Display.AgentDisplay.UpdateStats | ralph/agent/output.py:218-257 | the stats become `Updated(...)`; log and latches unchanged |
| Display.AgentDisplay.FinishIteration | ralph/agent/output.py:267-273 | the stats become `Finished(stats)` |
| Display.AgentDisplay.LogToolUse | ralph/agent/output.py:337-341 | logs the tool's icon key, its name and the formatted input |
| Display.AgentDisplay.LogThinking | ralph/agent/output.py:343-348 | logs the collapsed text cut at 120 characters |
| Display.AgentDisplay.LogText | ralph/agent/output.py:350-355 | logs the collapsed text cut at 150 characters |
| Paths.Clean | ralph/agent/permissions.py:50 | parsing drops empty and "." components and keeps the rest in order |
| Paths.Parse | ralph/agent/permissions.py:50-51 | a path is absolute iff its text starts with "/"; its parts are names or ".." |
| Paths.ParseRender | ralph/agent/permissions.py:44-50 | printing an absolute path of names and parsing it back gives the same path |
| Paths.IsWithinIff | ralph/agent/permissions.py:56-63 | `relative_to` succeeds iff the root's components are a prefix of the path's |
| Paths.ResolveRelative | ralph/agent/permissions.py:51-53 | resolving the root joined with parts walks those parts from the root |
| Paths.ResolveIsReal | ralph/agent/permissions.py:53 | `resolve()` returns plain names, none of whose prefixes is a symlink |
| Paths.ResolveRealIdentity | ralph/agent/permissions.py:21 | resolving a resolved path gives it back |
| Paths.WalkReal | ralph/agent/permissions.py:53 | walking from a resolved directory ends in a resolved path |
| Paths.WalkNames | ralph/agent/permissions.py:53 | names with no symlink along the way are simply appended |
| Paths.WalkNamesUnder | ralph/agent/permissions.py:53-57 | below a symlink-free directory a path without ".." never leaves it |
| Paths.Walk | ralph/agent/permissions.py:53 | defines `resolve()`'s walk: `..` drops a component but never leaves the root, a name is appended and a symlink replaced by its target; `WalkReal` and `WalkNames` state its properties |
| Paths.Resolve | ralph/agent/permissions.py:51-53 | defines `resolve()`: a relative path is walked from the working directory |
| Paths.IsWithin | ralph/agent/permissions.py:56-63 | defines `relative_to` succeeding: the root's components are a prefix; `IsWithinIff` states it |
| Paths.JoinPath | ralph/agent/permissions.py:50-51 | `base / p`: an absolute p replaces the base, a relative one is appended |
| Permissions.PathArgument | ralph/agent/permissions.py:37-46 | Glob and Grep use a falsy `path` as the project root; Read, Write and Edit take `file_path` |
| Permissions.Confine | ralph/agent/permissions.py:48-65 | allowed iff the path is falsy or a string that resolves inside the root; allow keeps the input; deny never interrupts |
| Permissions.ProjectHandler | ralph/agent/permissions.py:12-67 | non-file tools are allowed with the input unchanged; allow keeps the input; deny never interrupts |
| Permissions.ReadOnlyHandler | ralph/agent/permissions.py:70-124 | any tool outside Read/Glob/Grep is denied with its message; otherwise the containment check |
| Permissions.InteractiveHandler | ralph/agent/permissions.py:127-198 | AskUserQuestion is always allowed; other tools outside the read set are denied |
| Permissions.SpecHandler | ralph/agent/permissions.py:201-305 | tools that neither read nor write are denied; a write without `file_path` is denied; allowed reads keep the input |
| Permissions.ProjectContainment | ralph/agent/permissions.py:48-63 | a file tool with a string path is allowed iff the resolved target is inside the resolved root; otherwise denied with the message naming both |
| Permissions.ProjectAllowsPlainRelative | ralph/agent/permissions.py:51-57 | with no symlink under the root, a relative path without ".." is allowed |
| Permissions.LandsBelow | ralph/agent/permissions.py:52-57 | plain names joined to a symlink-free resolved root resolve to root + names, inside the root |
| Permissions.RootRoundTrip | ralph/agent/permissions.py:44-53 | the root's own text resolves back to the root |
| Permissions.ProjectDefaults | ralph/agent/permissions.py:38-48 | Glob or Grep without a path, and Read/Write/Edit without `file_path`, are allowed with the input unchanged |
| Permissions.ReadOnlyWithinProject | ralph/agent/permissions.py:91-122 | read-only allows exactly the read tools the project handler allows |
| Permissions.InteractiveMatchesReadOnly | ralph/agent/permissions.py:146-198 | outside AskUserQuestion the interactive handler allows and raises exactly as the read-only one |
| Permissions.AskUserQuestionAnswers | ralph/agent/permissions.py:154-162 | with questions: allowed with `answers` set to the question handler's result and every other key kept; without: passed through |
| Permissions.SpecReadScope | ralph/agent/permissions.py:234-267 | a read is allowed iff its target, resolved against the project, is inside the project or the workspace |
| Permissions.SpecWriteConfined | ralph/agent/permissions.py:270-292 | an allowed write lands inside the workspace; only `file_path` changes, to the absolute resolved path |
| Permissions.SpecWriteRewriteStable | ralph/agent/permissions.py:270-292 | an allowed, rewritten write is allowed again unchanged |
| Permissions.SpecRelativeWriteGoesToWorkspace | ralph/agent/permissions.py:273-286 | a relative write without ".." below a symlink-free workspace goes to workspace + names |
| Permissions.ParseVia | ralph/agent/permissions.py:50 | a path text built from segments parses to their cleaned parts |
| Permissions.ParseExampleInside | ralph/agent/permissions.py:50 | "/P/a.txt" parses to [P, a.txt] |
| Permissions.ParseExampleDotDotInside | ralph/agent/permissions.py:50 | "/P/sub/../a.txt" keeps its ".." until resolved |
| Permissions.ParseExampleDotDotEscape | ralph/agent/permissions.py:50 | "/P/../x.txt" parses to [P, .., x.txt] |
| Permissions.ParseExampleSibling | ralph/agent/permissions.py:50 | "/P2/x" parses to [P2, x] |
| Permissions.ParseExampleRelative | ralph/agent/permissions.py:50-51 | "evil/passwd" is relative |
| Permissions.ProjectExampleInside | ralph/agent/permissions.py:48-65 | a read of /P/a.txt in project /P is allowed |
| Permissions.ProjectExampleDotDotInside | ralph/agent/permissions.py:48-65 | /P/sub/../a.txt resolves back into /P and is allowed |
| Permissions.ProjectExampleDotDotEscape | ralph/agent/permissions.py:56-63 | /P/../x.txt is denied without interrupting |
| Permissions.ProjectExampleSiblingPrefix | ralph/agent/permissions.py:56-63 | /P2/x is not inside /P, although its text starts with "/P" |
| Permissions.ProjectExampleSymlinkEscape | ralph/agent/permissions.py:51-63 | a symlink inside /P that points outside it is followed, and the read is denied |
| Registry.SaveState | ralph/cli/registry.py:184-200 | only the project's `loop_state` is set; other projects and fields are unchanged; unregistered keys are ignored |
| Registry.Load | ralph/cli/registry.py:42-49 | defines `load_registry`: a missing or corrupt file reads as no projects |
| Registry.Key | ralph/cli/registry.py:68-69 | defines the registry key: the resolved path as a string |
| Registry.StateOf | ralph/cli/registry.py:203-215 | `None` when unregistered or with no state, else the saved state |
| Registry.ClearState | ralph/cli/registry.py:218-235 | only the project's `loop_state` is removed |
| Registry.SaveThenGet | ralph/cli/registry.py:164-215 | a saved state reads back; saving for an unregistered path changes nothing; other paths are untouched |
| Registry.ClearThenGet | ralph/cli/registry.py:203-245 | a cleared state reads as `None` and is not resumable; other paths are untouched |
| Registry.SavedPausedIsResumable | ralph/cli/registry.py:238-245 | after saving, the path is resumable iff it is registered and the status is "paused" |
| Registry.Insert | ralph/cli/registry.py:123-126 | inserting into a descending list keeps it descending and adds exactly the entry |
| Registry.SortByRun | ralph/cli/registry.py:122-126 | the same entries, ordered by last run descending |
| Registry.RunKey | ralph/cli/registry.py:124-126 | the sort key: `last_run`, or "0000" when it is missing |
| Registry.NeverRunLast | ralph/cli/registry.py:124 | a never-run project sorts after every project run later than "0000" |
| Registry.SafeName | ralph/cli/registry.py:306-308 | the fallback when the name has no letter or digit; otherwise the name from its first to its last letter or digit, each other unsafe character mapped to '-'; never starts or ends with '-' or '_' |
| Registry.Mapped | ralph/cli/registry.py:306 | each character kept when it is a letter, a digit, '-' or '_', else replaced by '-' |
| Registry.AlnumSpanExists | ralph/cli/registry.py:306-307 | a name holding a letter or digit has a first and a last one |
| Registry.MappedWindow | ralph/cli/registry.py:306-307 | stripping the mapped name keeps exactly the part from its first to its last letter or digit |
| Registry.MappedStrip | ralph/cli/registry.py:306-307 | stripping the mapped name leaves nothing when it has no letter or digit, and the span between them otherwise |
| Registry.StrippedName | ralph/cli/registry.py:306-307 | the stripped name is empty or has safe ends, holds only safe characters, and is the span between the first and last letter or digit |
| Registry.SafeNameKeeps | ralph/cli/registry.py:306-308 | an already safe name is kept |
| Registry.ProjectRegistry.constructor | ralph/cli/registry.py:42-50 | the registry holds the file as found; the file's records must each sit under their own path |
| Registry.ProjectRegistry.Register | ralph/cli/registry.py:59-78 | the record for the resolved path is replaced whole: name defaults to the directory name, never run, no loop state |
| Registry.ProjectRegistry.Unregister | ralph/cli/registry.py:81-94 | returns true iff the key was present, and removes only that key |
| Registry.ProjectRegistry.UpdateLastRun | ralph/cli/registry.py:97-104 | a registered project's last run becomes `now`; nothing else changes |
| Registry.ProjectRegistry.GetProject | ralph/cli/registry.py:131-144 | the record iff registered |
| Registry.ProjectRegistry.ClearAll | ralph/cli/registry.py:147-157 | returns the number of projects and leaves none |
| Registry.ProjectRegistry.AllProjects | ralph/cli/registry.py:107-128 | exactly the registered projects whose path exists, each once, last run descending |
| Registry.ProjectRegistry.SaveLoopState | ralph/cli/registry.py:164-200 | the file becomes `SaveState` for a registered path and is left alone otherwise |
| Registry.ProjectRegistry.GetLoopState | ralph/cli/registry.py:203-215 | returns `StateOf` the path |
| Registry.ProjectRegistry.ClearLoopState | ralph/cli/registry.py:218-235 | true iff a state existed; only it is removed |
| Registry.ProjectRegistry.HasSavedLoopState | ralph/cli/registry.py:238-245 | true iff a state exists and its status is "paused" |
| Registry.DistinctOnce | ralph/cli/registry.py:114 | records with distinct paths each occur once |
| Registry.DistinctPermutation | ralph/cli/registry.py:123-126 | sorting keeps the paths distinct |
| Commands.DoneCount | ralph/cli/commands.py:880 | the done count is at most the task count, and equals it iff every task is done |
| Commands.InsertAt | ralph/cli/commands.py:884 | inserting a position keeps the stable rank order and adds exactly that position |
| Commands.ByRank | ralph/cli/commands.py:884 | every position once, stably sorted by priority (999 when missing) |
| Commands.NextPending | ralph/cli/commands.py:884-888 | none iff every task is done; otherwise the first not-done task in stable priority order |
| Commands.PendingLabel | ralph/cli/commands.py:884-888 | defines the task line "[done+1/total] name", "Unknown" for a missing name |
| Commands.CompleteLabel | ralph/cli/commands.py:889-890 | the task line when every task is done |
| Commands.ShowNextTask | ralph/cli/commands.py:874-892 | shows "[done+1/total] name" of the first pending task in stable priority order (no other pending task comes before it), or "[done/total] All tasks complete!"; an unreadable PRD changes nothing; the line shown is `Shown` of the tasks |
| Commands.FirstPendingAt | ralph/cli/commands.py:884-886 | defines the first pending task: pending, and before every other pending task in stable priority order |
| Commands.FirstPendingUnique | ralph/cli/commands.py:884-886 | at most one task is the first pending one |
| Commands.FirstUndone | ralph/cli/commands.py:884-888 | the first position of an order whose task is not done; none iff all are done |
| Commands.FirstUndoneRanked | ralph/cli/commands.py:884-888 | over the stable priority order, the first undone task is the first pending task, and there is none iff every task is done |
| Commands.FirstPending | ralph/cli/commands.py:884-888 | none iff every task is done; otherwise the first pending task |
| Commands.Shown | ralph/cli/commands.py:871-892 | the callback's task line: none iff the PRD cannot be read; the completion line with id "" when every task is done; else the first pending task's line with its id, "" when missing |
| Commands.StartLine | ralph/cli/commands.py:808-849 | the task line set before the loop: the first pending task's line with its id, "?" when missing; none iff the PRD cannot be read or every task is done |
| Commands.Callback | ralph/cli/commands.py:871-892 | defines `on_iteration_complete`: after iteration i, the line `Shown` gives for the PRD as then read |
| Commands.SavedLine | ralph/cli/commands.py:845-892 | defines the task line a run saves: the pre-loop line, then the callback's lines |
| Commands.SavedLineLastRead | ralph/cli/commands.py:871-930 | the saved task is the first pending task of the PRD as read after the last iteration; if that read fails, the line of the earlier iterations; if every read fails, the pre-loop line |
| Commands.AllDoneLabel | ralph/cli/commands.py:889-890 | with every task done the label is "[n/n] All tasks complete!" |
| Commands.Dispatch | ralph/cli/commands.py:918-974 | pause and error save `start + len(results)`; other reasons clear; gutter and error return 1, others 0 |
| Commands.Saved | ralph/cli/commands.py:919-965 | defines the state a paused or failed run saves, always with status "paused" |
| Commands.Applied | ralph/cli/commands.py:918-974 | the registry after the dispatch: the saved state under the key, or the state cleared |
| Commands.Persist | ralph/cli/commands.py:918-974 | the registry gets the dispatch's save (status "paused") or clear, and the code is returned |
| Commands.RunLoopAgent | ralph/cli/commands.py:760-974 | last run stamped; state cleared before the loop iff start is 1; the loop runs as `LoopRun` of the iterations' outcomes; the exit dispatch is applied, saving the task line `SavedLine` of the PRD reads, which the display also ends with |
| Commands.Prepare | ralph/cli/commands.py:786-807 | the last run is stamped and, when the loop starts at iteration 1, the saved state is cleared |
| Commands.SavedIterationInRange | ralph/cli/commands.py:919-969 | a paused or failed run saves an iteration after the start and at most one past the last |
| Commands.PauseOnLastIteration | ralph/cli/commands.py:919-934 | a pause on the last iteration saves total+1; resuming runs nothing, ends "max_iterations" and clears |
| Commands.IterationsOr10 | ralph/cli/commands.py:1576 | `args.iterations or 10` |
| Commands.Resumable | ralph/cli/commands.py:1544 | a saved state resumes iff its status is "paused" |
| Commands.RunPlan | ralph/cli/commands.py:1540-1578 | a paused state resumes with `--resume` or a confirm; declining clears it and starts at 1; otherwise start at 1 with `iterations or 10` |
| Commands.ResumeMenu | ralph/cli/commands.py:447-476 | 0 resumes with the saved iteration, total and type; 1 clears and starts fresh; other choices skip |
| Commands.ResumeAfterPause | ralph/cli/commands.py:1541-1548 | what a pause saves is what a resumed run starts from |
| Commands.DockerCommand | ralph/cli/commands.py:1589-1599 | exactly "ralph run . --once" or "ralph run . -n N" (N defaults to 10), followed by " --type t" iff t is not "default" |
| Commands.DockerTypeSuffix | ralph/cli/commands.py:1589-1599 | a non-default type appends exactly " --type t" to the default command |
| SpecChat.FormatToolInput | ralph/agent/spec_session.py:273-289 | empty gives ""; Read/Write/Edit give `file_path`; Bash cut at 80 plus "..."; Glob/Grep give `pattern`; any other tool exactly the first 80 characters of the input's text |
| SpecChat.BlocksAgree | ralph/agent/spec_session.py:200-235 | the text chunks yielded, concatenated, equal the reply text, and each one is stored as an assistant message |
| SpecChat.BlockStep | ralph/agent/spec_session.py:199-233 | defines one content block: a non-empty text is streamed, gathered and stored; thinking and tool blocks are streamed, the tool input formatted |
| SpecChat.Blocks | ralph/agent/spec_session.py:199-233 | defines an assistant message's blocks in order; `BlocksAgree` and `BlocksKeepTotals` state its properties |
| SpecChat.MessageStep | ralph/agent/spec_session.py:195-254 | defines one message of the reply: content streamed, a result's tokens and non-zero cost added; after an exception nothing more is looked at |
| SpecChat.Replied | ralph/agent/spec_session.py:195-264 | defines the whole reply; `RepliedAgrees` and `RepliedInputs` state its properties |
| SpecChat.RepliedAgrees | ralph/agent/spec_session.py:183-270 | over a whole response, yielded text chunks, stored messages and reply text agree |
| SpecChat.BlocksKeepTotals | ralph/agent/spec_session.py:200-235 | content blocks never change the totals or the cost |
| SpecChat.RepliedInputs | ralph/agent/spec_session.py:237-254 | without an exception, the input total grows by the results' `input_tokens` only (cache fields excluded) |
| SpecChat.AssistantEntries | ralph/agent/spec_session.py:208-213 | one assistant message per text, in order |
| SpecChat.EntriesSplit | ralph/agent/spec_session.py:208-213 | the messages for a prefix and the rest concatenate to the messages for all |
| SpecChat.SpecSession.constructor | ralph/agent/spec_session.py:54-86 | no client, no messages, not complete, zero totals and exchanges |
| SpecChat.SpecSession.GetMessages | ralph/agent/spec_session.py:295-297 | returns the messages |
| SpecChat.SpecSession.Query | ralph/agent/spec_session.py:183-270 | the reply is `Replied` over the response; chunks, messages and totals follow it; `complete` becomes true once a reply holds the signal and never resets |
| SpecChat.SpecSession.Take | ralph/agent/spec_session.py:198-264 | one message advances the reply by one step |
| SpecChat.SpecSession.Content | ralph/agent/spec_session.py:200-235 | one assistant message's blocks advance the reply by `Blocks` |
| SpecChat.SpecSession.SendMessage | ralph/agent/spec_session.py:151-181 | without a client: exactly one "Session not initialized" error chunk, and no message, exchange or total changes; otherwise the user message and then the reply's texts are appended, exchanges grow by exactly 1, each total grows by the reply's usage and cost, and the chunks end with "Error: " + e or the done chunk |
| SpecChat.SpecSession.Start | ralph/agent/spec_session.py:99-149 | a failing open yields only "Failed to initialize: " + e and changes no message, exchange or total; otherwise the client is open, the reply's texts are stored, each total grows by the reply's usage and cost, and the chunks end with "Error starting session: " + e or the done chunk |
| SpecChat.SpecSession.Close | ralph/agent/spec_session.py:88-97 | with an open context, the client and the context are dropped even if leaving it fails; the transcript, completion and the three token and cost totals are unchanged |
| SpecChat.SpecSession.IsComplete | ralph/agent/spec_session.py:291-293 | reads whether the completion signal was seen |
| CliUtils.Cleaned | ralph/cli/utils.py:165 | the cleaned argument is no longer and has no quote at either end |
| CliUtils.ExpandUser | ralph/cli/utils.py:171-172 | text without a leading "~" is unchanged; "~" alone becomes the home directory |
| CliUtils.SlashFrom | ralph/cli/utils.py:171-172 | the first "/" at or after a position |
| CliUtils.ResolveProjectPath | ralph/cli/utils.py:154-177 | always absolute; "." is the working directory; otherwise the expanded path below the working directory |
| CliUtils.JoinLast | ralph/cli/utils.py:165 | a joined path ends with the last character of its last part |
| CliUtils.RenderedPathRoundTrip | ralph/cli/utils.py:154-177 | an absolute path, printed and passed back in, resolves to itself |
| CliUtils.RenderCleaned | ralph/cli/utils.py:165-172 | cleaning and home expansion leave a printed absolute path alone |
| CliUtils.RenderEnds | ralph/cli/utils.py:165 | a printed path starts with '/' and ends in a character the cleaning keeps |
| CliUtils.QuotedPath | ralph/cli/utils.py:165 | quotes around a path make no difference |
| CliUtils.CleanedQuoted | ralph/cli/utils.py:165 | cleaning takes off one pair of surrounding quotes |
| CliUtils.Slugged | ralph/cli/utils.py:211 | every character is lower-cased, then kept if alphanumeric or '-', else made '-' |
| CliUtils.Slug | ralph/cli/utils.py:211 | a character is kept iff it is a letter, a digit or '-'; anything else becomes '-' |
| CliUtils.SanitizeProjectName | ralph/cli/utils.py:209-211 | a slug no longer than the name, empty iff every character slugs to '-' |
| CliUtils.SlugChars | ralph/cli/utils.py:211 | stripping keeps only slug characters |
| CliUtils.StripRightKeeps | ralph/cli/utils.py:211 | stripping from the right never empties a string whose first character stays |
| CliUtils.AllDashesIff | ralph/cli/utils.py:211 | stripping '-' empties a string iff it is all '-' |
| CliUtils.SanitizeSlug | ralph/cli/utils.py:209-211 | a slug is its own sanitized form |
| CliUtils.SanitizeIdempotent | ralph/cli/utils.py:209-211 | sanitizing twice is sanitizing once |
| CliUtils.Preselect | ralph/cli/utils.py:225 | `choices[default]` when in range, else the first; none for an empty menu |
| CliUtils.IndexOf | ralph/cli/utils.py:236 | the first position holding the entry, none iff absent |
| CliUtils.PromptChoice | ralph/cli/utils.py:214-236 | cancelled iff nothing was picked; otherwise the first index with the picked text |
| CliUtils.DistinctChoices | ralph/cli/utils.py:236 | with distinct entries the picked index is returned |
| Tui.NewLine | ralph/cli/tui.py:39-44 | a line with the message; markup iff the style is empty |
| Tui.Drop | ralph/cli/tui.py:47 | Python's `s[k:]` for any integer k |
| Tui.Newest | ralph/cli/tui.py:47 | the newest k entries, all of them when fewer |
| Tui.Added | ralph/cli/tui.py:39-48 | with a positive bound: the newest `max` of the lines plus the new one, ending with it; 0 keeps all; a negative bound drops from the front |
| Tui.AddedAllNewest | ralph/cli/tui.py:39-48 | after any sequence of adds, a buffer holds exactly the newest `max` lines ever given, oldest first |
| Tui.NewestSnoc | ralph/cli/tui.py:47 | trimming before or after appending one line keeps the same newest lines |
| Tui.OutputBuffer.constructor | ralph/cli/tui.py:35-37 | empty, with the given bound |
| Tui.OutputBuffer.Default | ralph/cli/tui.py:35-37 | empty, with the default bound 50 |
| Tui.OutputBuffer.Add | ralph/cli/tui.py:39-48 | the lines become `Added(lines, line, max)`; the bound keeps holding |
| Tui.OutputBuffer.Clear | ralph/cli/tui.py:54-56 | the buffer is empty |
| Tui.RalphTui.constructor | ralph/cli/tui.py:65-69 | a fresh empty buffer of 50 lines |
| Tui.RalphTui.Render | ralph/cli/tui.py:71-85 | the buffered lines, padded with blank lines to at least 15; the buffer is untouched |
| Tui.RalphTui.Log | ralph/cli/tui.py:114-117 | the message is added to the buffer |
| Prompts.PromptName | ralph/prompts/__init__.py:15-21 | the loop type's prompt name, "loop" for an unknown type; always one of the known names |
| Prompts.Mark | ralph/prompts/__init__.py:88-90 | each placeholder starts with '{' and holds no other '{' |
| Prompts.Filled | ralph/prompts/__init__.py:88-90 | filling one placeholder leaves the other segments alone |
| Prompts.FillPlaceholders | ralph/prompts/__init__.py:83-90 | defines the three placeholder replacements in the order the source applies them; `FillMeans` states what they produce |
| Prompts.FreeFront | ralph/prompts/__init__.py:88-90 | replacing in text without the pattern's first character leaves that text in front |
| Prompts.ShortReplace | ralph/prompts/__init__.py:88-90 | text shorter than the pattern is unchanged |
| Prompts.Apart | ralph/prompts/__init__.py:88-90 | two different placeholders differ at a fixed index |
| Prompts.OtherMark | ralph/prompts/__init__.py:88-90 | one placeholder never matches where another starts |
| Prompts.NoMarkAt | ralph/prompts/__init__.py:88-90 | no match where the text differs from the pattern |
| Prompts.ReplaceSlot | ralph/prompts/__init__.py:88-90 | replacing one placeholder fills exactly its slots |
| Prompts.MeantFilled | ralph/prompts/__init__.py:88-90 | filling all three placeholders in turn gives the meant text |
| Prompts.FillMeans | ralph/prompts/__init__.py:83-90 | on a template whose literal text holds no '{', the three replacements fill every placeholder with its workspace file |
| Prompts.Prefixed | ralph/prompts/__init__.py:109 | a concatenation starts with its first part |
| Prompts.Framed | ralph/prompts/__init__.py:93-109 | starts with "@PRD @progress" and ends with the filled template |
| Prompts.Attachments | ralph/prompts/__init__.py:109 | defines the header line "@<workspace>/PRD.json @<workspace>/progress.txt" and a blank line |
| Prompts.WorkspaceContext | ralph/prompts/__init__.py:93-107 | the block names the workspace and its three files, then the target project |
| Prompts.LoopPrompt | ralph/prompts/__init__.py:68-109 | the framed, filled prompt of the loop type, with the "loop" prompt for an unknown type |
| Prompts.OncePrompt | ralph/prompts/__init__.py:30-65 | the framed, filled "once" prompt |
| Prompts.SpecContextName | ralph/prompts/__init__.py:128-133 | existing wins over a requirements file, which wins over new |
| Prompts.JoinThree | ralph/prompts/__init__.py:156 | joining three parts is the parts with the separator between |
| Prompts.Sectioned | ralph/prompts/__init__.py:156 | the three parts joined by blank lines |
| Prompts.ContextSection | ralph/prompts/__init__.py:126-156 | starts with "**Topic**: " + topic + a blank line + the context prompt |
| Prompts.SpecPrompt | ralph/prompts/__init__.py:112-169 | starts with "@" + the session notes path and a blank line, followed by the prompt with the section and the PRD paths filled |
| Prompts.SpecSectionPlaced | ralph/prompts/__init__.py:159 | a template holding the section marker once gets the section there |
| Prompts.SpecNotes | ralph/prompts/__init__.py:137 | the session notes path: the workspace followed by "/spec-session.md" |
| Prompts.WriteRestriction | ralph/prompts/__init__.py:139-153 | the notice names the workspace, then the session notes and the PRD in it |
| Config.UserSettings | ralph/cli/config.py:46-54 | the file's entries when it holds a JSON object, else none |
| Config.Overlay | ralph/cli/config.py:44-51 | every key of either; the file's value wins |
| Config.OverlayIdempotent | ralph/cli/config.py:49-51 | overlaying the same settings twice is overlaying once |
| Config.LoadProjectConfig | ralph/cli/config.py:35-56 | the defaults overlaid with the file's settings; a missing, unreadable or non-object file gives the defaults |
| Config.SaveProjectConfig | ralph/cli/config.py:58-66 | the file then holds the settings |
| Config.SaveLoadRoundTrip | ralph/cli/config.py:35-66 | saving what was loaded and loading again gives the same settings |
| Config.GetConfigValue | ralph/cli/config.py:68-79 | the file's value, else the default setting, else the caller's default |

## Left out

- The agent SDK, the terminal, the network and the clock are not modelled directly.
  - The engine's answers are a message sequence.
  - Keys pressed during an iteration are oracle functions.
  - Timestamps (`datetime.now()`) are string parameters.
  - Raw log files, `track_usage` and plan-usage percentages are not modelled.
- Agent.Execute: the `while True: async for` re-entry after an intervention is flattened into one message sequence. Every exception ends the iteration, whatever the latch. A stream that never brings an exception or an undiscarded result is excluded by the precondition `Session.Ends`, because the source would wait on it forever. `Consume`, `Iterate`, `RunOnce`, `Round`, `RunLoop`, `RunSpec`, `Commands.RunLoopAgent`, `ScanEnds`, `IterationOutcome` and `IterationTotals` carry the same precondition, for each iteration they run. An exception raised after the terminal result, when the client context is left (the exit of the `async with` block), is not modelled: the source then reports failure with that exception's text, keeps the result's token counts and logs an error entry.
- Agent.RunLoop: the display's statistics after a run, other than the task line, are left to `Round`'s contract; `RunLoop` states the results, the reason, the callback calls, the latches and the task line. The callback is modelled by the task line it sets (`onComplete`), called right after `_execute`; its `set_status` follows it in the source and precedes it in the model, which changes nothing since the two touch different fields.
- Display.MaxDetailLen: `int(panel_width * 0.4)` is taken as the exact `2 * width / 5`; the floating-point product is not modelled.
- Costs: `RunResult.cost_usd` is kept as a real number. The display's cost fields and its percentage and timing fields are not modelled.
- Display.AgentDisplay.UpdateStats: the `cost_usd` argument and the context percentage are not modelled.
- The display's rendering (`_render`, `_render_activities`, `_render_stats`, `print_summary`) and the live view are not modelled. So are `refresh`, `start`, `stop` and `get_terminal_width`; the width is a parameter.
- `keyboard_listener` and the thinking spinner: only their effect, the latches set between messages, is modelled.
- Character classes: `isalnum` and `lower` are ASCII only; the whitespace of `strip()`, `split()` and `isspace()` is Python's full Unicode set (`Text.IsSpace`, `Text.WHITESPACE`).
- Display.FormatToolInput: a tool-input value that is present but not a string reads as "". In the source `len(path)`, `cmd.split()` and `len(pattern)` raise on such a value, and inside `_execute` that exception fails the iteration; the model does not raise.
- SpecChat.FormatToolInput: a tool-input value that is present but not a string reads as ""; the source returns the value itself. Also, `str(input)` is passed in as a parameter, because Python's dict repr is not modelled.
- SpecChat: display logging, `get_stats` (wall-clock duration) and `run_spec_conversation` are not modelled.
- Commands: these are not modelled, because they are questionary prompts and file I/O outside the state the core decides:
  - `_run_loop_agent_async`'s update of `max_iterations` in `PRD.json`;
  - its reads of `PRD.json`, which are parameters: `initial` before the loop and `prd(i)` after iteration `i`, `None` when the file is missing or does not parse;
  - the fresh `AgentDisplay` it creates, which is a parameter (the source's starts with an empty task line);
  - its workspace-file creation;
  - its console messages;
  - the other menus of `_flow_existing_project`.
- Commands.Dispatch: on an error exit the code saves `start_iteration + len(results)`, one past the failed iteration, so a resumed run starts after the failed iteration rather than retrying it. A pause on the last iteration likewise saves `total + 1`, one past the last iteration (see `PauseOnLastIteration`).
- Registry.ProjectRegistry.constructor: it requires that every record sits under its own path, the invariant every registry method keeps. A registry file edited by hand to break this is not modelled.
- Registry.ProjectRegistry.AllProjects: the order among projects with equal `last_run` keys, which depends on the dictionary's insertion order, is not stated.
- Registry: `get_workspaces_root`, `generate_project_name`, active-project files, MCP configuration and usage tracking are outside the core. The generated fallback name is a parameter of `SafeName`.
- CliUtils.PromptChoice: the questionary menu is abstracted to the index picked or a cancel. `prompt_choice_async` is the same and is not repeated.
- Tui: `start`, `stop`, `log_success`, `log_error`, `log_info`, `log_step` and `OutputBuffer.render` only format or refresh the screen and are not modelled.
- Tui.Newest: it states the whole result only when there are at least k entries; otherwise it states only the length.
- Prompts: template loading (`_load_prompt`) is a function parameter `load`.
- Config: `DEFAULT_CONFIG.copy()` is a shallow copy; values are immutable here, so the copy is the value.
- Config.SaveProjectConfig: the settings file is modelled as the parsed JSON value, so `json.dump` followed by `json.loads` is taken to give back the object written; the text encoding is not modelled, and `SaveLoadRoundTrip` rests on that.
- Config.LoadProjectConfig: JSON numbers are exact rationals, and Python's int/float distinction is not kept.

## Findings

| source | as written | input that shows it | evidently intended | confidence | as-written member | corrected member |
|---|---|---|---|---|---|---|
| ralph/agent/client.py:499-500, 96-97 against ralph/agent/output.py:179-216 | `_execute` calls `display.is_intervene_requested()` before every message. The keyboard handler calls `display.request_intervene()` on 'i'. `AgentDisplay` defines no intervene latch, so the first call raises `AttributeError`, which `_execute` catches as an iteration failure; the second is swallowed. | any run with a display whose engine answers with one successful result: the iteration fails with the missing-attribute text. Pressing 'i' sets no latch. | the display keeps an intervene latch beside pause, stop and gutter (request, is-requested, clear, and the intervention prompt) | not executed | Agent.OutcomeAsWritten, Agent.KeyLatchesAsWritten (shown by Agent.InterveneGapIteration, Agent.InterveneGapKey) | Agent.Outcome, Agent.KeyLatches, Display.AgentDisplay.RequestIntervene |

=== FILE: agent.dfy ===
/**
  * The agent supervisor: one iteration consumes the engine's response
  * stream and classifies its outcome; the loop drives iterations and decides
  * when to stop; the keyboard handler turns key presses into latches.
  *
  * The engine is abstract. One iteration sees the flattened sequence of
  * messages it receives, with `Raise(e)` marking the point where the engine
  * raises an exception whose text is `e`.
  */
module Agent {
  import opened Wrappers
  import opened Json
  import Text
  import opened Display

  const COMPLETION_SIGNAL := "<promise>COMPLETE</promise>"
  const SPEC_COMPLETE_SIGNAL := "<promise>SPEC_COMPLETE</promise>"
  const GUTTER_SIGNAL := "<promise>GUTTER</promise>"

  const TOOLS_FULL := ["Read", "Write", "Edit", "Bash", "Glob", "Grep", "TodoWrite"]

  datatype Block =
    | TextBlock(text: string)
    | ThinkingBlock(thinking: string)
    | ToolUseBlock(name: string, input: Object)
    | ToolResultBlock(toolUseId: string, content: string)

  /** A usage record; a missing key counts as 0. */
  datatype Usage = Usage(inputTokens: nat, cacheReadInputTokens: nat, cacheCreationInputTokens: nat, outputTokens: nat)

  /** All input tokens of a usage record, cached ones included. */
  function AllInput(u: Usage): nat {
    u.inputTokens + u.cacheReadInputTokens + u.cacheCreationInputTokens
  }

  /**
    * One message of the response stream. A falsy `usage` is `None`; a falsy
    * `result` is "". `Other` stands for message kinds the iteration ignores.
    */
  datatype Message =
    | Assistant(content: seq<Block>, usage: Option<Usage>)
    | Result(isError: bool, durationMs: int, numTurns: int, usage: Option<Usage>, totalCostUsd: real, result: string)
    | Other
    | Raise(error: string)
  {
    /** A message after which the iteration consumes nothing more. */
    predicate Terminal() {
      Result? || Raise?
    }
  }

  datatype RunResult = RunResult(
    success: bool,
    isComplete: bool,
    isGutter: bool,
    isAutoGutter: bool,
    isUserGutter: bool,
    resultText: string,
    inputTokens: nat,
    outputTokens: nat,
    costUsd: real,
    durationMs: int,
    numTurns: int)

  /** The agent's rotation settings: context limit, threshold fraction and whether auto-gutter is on. */
  datatype AgentConfig = AgentConfig(contextLimit: int, rotateThreshold: real, autoGutter: bool)

  // ---------------------------------------------------------------------
  // Outcome flags
  // ---------------------------------------------------------------------

  /** What an iteration has gathered so far. */
  datatype Progress = Progress(text: string, inputTokens: nat, outputTokens: nat, costUsd: real,
                               durationMs: int, numTurns: int, success: bool)

  const START := Progress("", 0, 0, 0.0, 0, 0, true)

  /**
    * The flags derived at the end of an iteration from its text, its input
    * tokens and the gutter latch as read then.
    */
  function Classify(cfg: AgentConfig, p: Progress, userGutter: bool): (r: RunResult)
    ensures r.isComplete <==> Text.Contains(p.text, COMPLETION_SIGNAL) || Text.Contains(p.text, SPEC_COMPLETE_SIGNAL)
    ensures r.isAutoGutter <==> cfg.autoGutter && p.inputTokens as real > cfg.contextLimit as real * cfg.rotateThreshold
    ensures r.isUserGutter <==> userGutter
    ensures r.isGutter <==> Text.Contains(p.text, GUTTER_SIGNAL) || r.isUserGutter || r.isAutoGutter
    ensures r.success == p.success && r.resultText == p.text
    ensures r.inputTokens == p.inputTokens && r.outputTokens == p.outputTokens
    ensures r.costUsd == p.costUsd && r.durationMs == p.durationMs && r.numTurns == p.numTurns
  {
    var auto := cfg.autoGutter && p.inputTokens as real > cfg.contextLimit as real * cfg.rotateThreshold;
    RunResult(
      success := p.success,
      isComplete := Text.Contains(p.text, COMPLETION_SIGNAL) || Text.Contains(p.text, SPEC_COMPLETE_SIGNAL),
      isGutter := Text.Contains(p.text, GUTTER_SIGNAL) || userGutter || auto,
      isAutoGutter := auto,
      isUserGutter := userGutter,
      resultText := p.text,
      inputTokens := p.inputTokens,
      outputTokens := p.outputTokens,
      costUsd := p.costUsd,
      durationMs := p.durationMs,
      numTurns := p.numTurns)
  }

  /** With the default limit 200000 and threshold 0.8, exactly 160000 input tokens do not rotate; one more does. */
  lemma AutoGutterIsStrict(p: Progress)
    ensures var cfg := AgentConfig(200000, 0.8, true);
            (p.inputTokens == 160000 ==> !Classify(cfg, p, false).isAutoGutter) &&
            (p.inputTokens == 160001 ==> Classify(cfg, p, false).isAutoGutter && Classify(cfg, p, false).isGutter)
  {
  }

  // ---------------------------------------------------------------------
  // Consuming the stream
  // ---------------------------------------------------------------------

  /** The concatenated text blocks of a message's content. */
  function Texts(blocks: seq<Block>): string {
    if blocks == [] then ""
    else Texts(blocks[..|blocks| - 1]) + (if blocks[|blocks| - 1].TextBlock? then blocks[|blocks| - 1].text else "")
  }

  /** What processing one message does to the gathered outcome. */
  function Absorb(p: Progress, m: Message): Progress {
    match m
    case Assistant(content, _) => p.(text := p.text + Texts(content))
    case Result(isError, durationMs, numTurns, usage, cost, result) =>
      p.(success := !isError, durationMs := durationMs, numTurns := numTurns,
         inputTokens := if usage.Some? then AllInput(usage.value) else p.inputTokens,
         outputTokens := if usage.Some? then usage.value.outputTokens else p.outputTokens,
         costUsd := if cost != 0.0 then cost else p.costUsd,
         text := if result != "" then result else p.text)
    case Other => p
    case Raise(e) => p.(success := false, text := e)
  }

  /** The outcome after processing `ms` in order. */
  function Absorbed(p: Progress, ms: seq<Message>): Progress {
    if ms == [] then p else Absorb(Absorbed(p, ms[..|ms| - 1]), ms[|ms| - 1])
  }

  /** The display activity entries one content block produces. */
  function BlockLog(log: seq<Activity>, b: Block): seq<Activity> {
    match b
    case TextBlock(t) => Logged(log, Activity("i", Abbreviate(t, 150), ""))
    case ThinkingBlock(t) => Logged(log, Activity("·", Abbreviate(t, 120), ""))
    case _ => log
  }

  function BlocksLog(log: seq<Activity>, blocks: seq<Block>): seq<Activity> {
    if blocks == [] then log else BlockLog(BlocksLog(log, blocks[..|blocks| - 1]), blocks[|blocks| - 1])
  }

  /** The outcome, display statistics and activity log as the iteration goes. */
  datatype View = View(progress: Progress, stats: Stats, log: seq<Activity>)

  /** Processing one message: the outcome and, when a display is attached, its statistics and log. */
  function Step(cfg: AgentConfig, v: View, m: Message): View {
    var p := Absorb(v.progress, m);
    match m
    case Assistant(content, usage) =>
      var s := v.stats.(sessionTurns := v.stats.sessionTurns + 1);
      var s' := if usage.Some? then
                  Updated(s, Some(AllInput(usage.value) as int), Some(usage.value.outputTokens as int), None, None,
                          Some(AllInput(usage.value) as int), Some(cfg.contextLimit))
                else s;
      View(p, s', BlocksLog(v.log, content))
    case Result(_, _, _, _, _, _) =>
      View(p, Finished(Updated(v.stats, Some(p.inputTokens as int), Some(p.outputTokens as int), Some(p.durationMs),
                               Some(p.numTurns), Some(p.inputTokens as int), Some(cfg.contextLimit))), v.log)
    case Other => View(p, v.stats, v.log)
    case Raise(e) => View(p, v.stats, Logged(v.log, Activity(IconFor("error"), "Error: " + e, "")))
  }

  /** The view after processing `ms` in order. */
  function Fold(cfg: AgentConfig, v: View, ms: seq<Message>): View {
    if ms == [] then v else Step(cfg, Fold(cfg, v, ms[..|ms| - 1]), ms[|ms| - 1])
  }

  /** The query sent after an intervention with the operator's text `t`. */
  function InterventionQuery(t: string): (q: string)
    ensures t != "" ==> q == "[USER INTERVENTION] " + t
    ensures t == "" ==> q == "Continue with what you were doing."
  {
    if t != "" then "[USER INTERVENTION] " + t else "Continue with what you were doing."
  }

  /**
    * What one iteration receives: the flattened message stream, whether a
    * display is attached, the intervene latch as the iteration starts,
    * `pressed(j)` (the operator pressed the intervene key before message `j`
    * was handled) and `reply(k)` (the text typed at the `k`-th intervention).
    */
  datatype Session = Session(msgs: seq<Message>, hasDisplay: bool, initLatch: bool, pressed: nat -> bool, reply: nat -> string)
  {
    /**
      * The intervene latch is seen set just before message `j` is handled:
      * only with a display, when the key was pressed before that message or,
      * for the first message, when it was already set.
      */
    predicate Observed(j: nat) {
      hasDisplay && (pressed(j) || (j == 0 && initLatch))
    }

    /** Some message ends the iteration: an exception, or a result that no intervention discards. */
    predicate Ends() {
      exists e :: 0 <= e < |msgs| && (msgs[e].Raise? || (msgs[e].Result? && !Observed(e)))
    }
  }

  /**
    * The messages processed and the queries sent after the first `n`
    * messages, whether the iteration ended, and the intervene latch then.
    */
  datatype Scanned = Scanned(processed: seq<Message>, queries: seq<string>, ended: bool, latch: bool)

  /**
    * An exception surfaces while the next message is awaited, so it ends
    * the iteration before the intervene latch is looked at and leaves the
    * latch as it is. Otherwise an observed intervention clears the latch,
    * discards the message in hand and sends one query, and a result ends
    * the iteration. Nothing after the end is looked at.
    */
  function Scan(s: Session, n: nat): Scanned
    requires n <= |s.msgs|
  {
    if n == 0 then Scanned([], [], false, s.hasDisplay && s.initLatch)
    else
      var before := Scan(s, n - 1);
      var m := s.msgs[n - 1];
      if before.ended then before
      else if m.Raise? then Scanned(before.processed + [m], before.queries, true, s.Observed(n - 1))
      else if s.Observed(n - 1) then Scanned(before.processed, before.queries + [InterventionQuery(s.reply(|before.queries|))], false, false)
      else Scanned(before.processed + [m], before.queries, m.Result?, false)
  }

  /** Once the iteration has ended, later messages change nothing. */
  lemma {:induction false} ScanEnded(s: Session, n: nat, m: nat)
    requires n <= m <= |s.msgs| && Scan(s, n).ended
    ensures Scan(s, m) == Scan(s, n)
    decreases m
  {
    if m > n {
      ScanEnded(s, n, m - 1);
    }
  }

  /**
    * Before the iteration ends, no message examined was an exception and
    * every result examined was discarded; the intervene latch is then
    * clear, unless no message has arrived yet.
    */
  lemma {:induction false} ScanOpen(s: Session, n: nat)
    requires n <= |s.msgs| && !Scan(s, n).ended
    ensures forall e :: 0 <= e < n ==> !s.msgs[e].Raise? && (s.msgs[e].Result? ==> s.Observed(e))
    ensures Scan(s, n).latch == (n == 0 && s.hasDisplay && s.initLatch)
  {
    if n > 0 {
      ScanOpen(s, n - 1);
    }
  }

  /** A stream that ends the iteration does end it. */
  lemma ScanEnds(s: Session)
    requires s.Ends()
    ensures Scan(s, |s.msgs|).ended
  {
    if !Scan(s, |s.msgs|).ended {
      ScanOpen(s, |s.msgs|);
    }
  }

  /**
    * The iteration ends at one message `e`, which it processes last; the
    * intervene latch is left set exactly when `e` is an exception that
    * arrived while the latch was set.
    */
  lemma {:induction false} ScanLatch(s: Session, n: nat)
    requires n <= |s.msgs| && Scan(s, n).ended
    ensures exists e :: 0 <= e < n && !Scan(s, e).ended && Scan(s, e + 1) == Scan(s, n) &&
                        |Scan(s, n).processed| >= 1 && Scan(s, n).processed[|Scan(s, n).processed| - 1] == s.msgs[e] &&
                        (Scan(s, n).latch <==> s.msgs[e].Raise? && s.Observed(e))
  {
    var before := Scan(s, n - 1);
    if before.ended {
      assert Scan(s, n) == before;
      ScanLatch(s, n - 1);
    } else {
      var e, m := n - 1, s.msgs[n - 1];
      if m.Raise? {
        assert Scan(s, n) == Scanned(before.processed + [m], before.queries, true, s.Observed(e));
      } else {
        assert !s.Observed(e) && Scan(s, n) == Scanned(before.processed + [m], before.queries, true, false);
      }
      assert !Scan(s, e).ended && Scan(s, e + 1) == Scan(s, n);
    }
  }

  /**
    * The processed messages are non-terminal, except the last once the
    * iteration has ended.
    */
  lemma {:induction false} ScanShape(s: Session, n: nat)
    requires n <= |s.msgs|
    ensures var sc := Scan(s, n);
            (sc.ended ==> |sc.processed| >= 1 && sc.processed[|sc.processed| - 1].Terminal()) &&
            (forall t :: 0 <= t < |sc.processed| - (if sc.ended then 1 else 0) ==> !sc.processed[t].Terminal())
  {
    if n > 0 {
      ScanShape(s, n - 1);
    }
  }

  /** The `k`-th query carries the `k`-th reply. */
  ghost predicate Replies(qs: seq<string>, reply: nat -> string) {
    forall t :: 0 <= t < |qs| ==> qs[t] == InterventionQuery(reply(t))
  }

  /** The next intervention's query keeps the queries in step with the replies. */
  lemma RepliesSnoc(qs: seq<string>, reply: nat -> string)
    requires Replies(qs, reply)
    ensures Replies(qs + [InterventionQuery(reply(|qs|))], reply)
  {
    var qs' := qs + [InterventionQuery(reply(|qs|))];
    forall t | 0 <= t < |qs'|
      ensures qs'[t] == InterventionQuery(reply(t))
    {
      if t < |qs| {
        assert qs'[t] == qs[t];
      }
    }
  }

  /** The `k`-th query after the prompt carries the `k`-th reply; without a display none is sent. */
  lemma {:induction false} ScanQueries(s: Session, n: nat)
    requires n <= |s.msgs|
    ensures Replies(Scan(s, n).queries, s.reply)
    ensures !s.hasDisplay ==> Scan(s, n).queries == []
  {
    if n > 0 {
      ScanQueries(s, n - 1);
      var before := Scan(s, n - 1);
      if !before.ended && !s.msgs[n - 1].Raise? && s.Observed(n - 1) {
        RepliesSnoc(before.queries, s.reply);
      }
    }
  }

  /** The text blocks of the processed assistant messages, in order. */
  function AssistantText(ms: seq<Message>): string {
    if ms == [] then ""
    else AssistantText(ms[..|ms| - 1]) + (if ms[|ms| - 1].Assistant? then Texts(ms[|ms| - 1].content) else "")
  }

  /** The outcome the display-side fold carries is the outcome alone: statistics and log do not feed back. */
  lemma {:induction false} FoldProgress(cfg: AgentConfig, v: View, ms: seq<Message>)
    ensures Fold(cfg, v, ms).progress == Absorbed(v.progress, ms)
  {
    if ms != [] {
      FoldProgress(cfg, v, ms[..|ms| - 1]);
    }
  }

  /** Before the terminal message only text grows: tokens stay 0 and success stays true. */
  lemma {:induction false} AbsorbedNonTerminal(ms: seq<Message>)
    requires forall t :: 0 <= t < |ms| ==> !ms[t].Terminal()
    ensures Absorbed(START, ms) == START.(text := AssistantText(ms))
  {
    if ms != [] {
      AbsorbedNonTerminal(ms[..|ms| - 1]);
    }
  }

  /**
    * The outcome of an iteration that processed non-terminal messages and
    * then `last`: an exception gives failure with its text; a result gives
    * its error flag, its token sums, and its `result` text when non-empty,
    * else the concatenated text blocks.
    */
  lemma OutcomeOfIteration(ms: seq<Message>)
    requires |ms| >= 1 && ms[|ms| - 1].Terminal()
    requires forall t :: 0 <= t < |ms| - 1 ==> !ms[t].Terminal()
    ensures var p := Absorbed(START, ms);
            var last := ms[|ms| - 1];
            var before := AssistantText(ms[..|ms| - 1]);
            (last.Raise? ==> p.text == last.error && !p.success && p.inputTokens == 0 && p.outputTokens == 0) &&
            (last.Result? ==>
               p.success == !last.isError &&
               p.text == (if last.result != "" then last.result else before) &&
               p.inputTokens == (if last.usage.Some? then AllInput(last.usage.value) else 0) &&
               p.outputTokens == (if last.usage.Some? then last.usage.value.outputTokens else 0) &&
               p.durationMs == last.durationMs && p.numTurns == last.numTurns)
  {
    AbsorbedNonTerminal(ms[..|ms| - 1]);
  }

  /** The `{:,}` rendering of a natural number: digits grouped by three with commas. */
  function Grouped(n: nat): string {
    if n < 1000 then Text.NatToString(n)
    else Grouped(n / 1000) + "," + Pad3(n % 1000)
  }

  /** `n` as exactly three decimal digits, with leading zeros. */
  function Pad3(n: nat): (s: string)
    requires n < 1000
    ensures |s| == 3 && forall k :: 0 <= k < 3 ==> '0' <= s[k] <= '9'
    ensures n == 100 * Text.DigitValue(s[0]) + 10 * Text.DigitValue(s[1]) + Text.DigitValue(s[2])
  {
    [Text.DigitChar(n / 100), Text.DigitChar((n / 10) % 10), Text.DigitChar(n % 10)]
  }

  /** Rounding half to even, as the `.0f` format does. */
  function RoundHalfEven(x: real): (n: int)
    ensures x - 0.5 <= n as real <= x + 0.5
    ensures x - x.Floor as real == 0.5 ==> n % 2 == 0
  {
    var f := x.Floor;
    var d := x - f as real;
    if d > 0.5 then f + 1 else if d < 0.5 then f else if f % 2 == 0 then f else f + 1
  }

  /** The warning logged when auto-gutter fires. */
  function ContextWarning(inputTokens: nat, rotateThreshold: real): string {
    "Context usage (" + Grouped(inputTokens) + ") exceeds " + Text.IntToString(RoundHalfEven(rotateThreshold * 100.0)) + "% threshold"
  }

  /** The display log after the iteration's final entry: the auto-gutter warning. */
  function ClosingLog(cfg: AgentConfig, log: seq<Activity>, r: RunResult): seq<Activity> {
    if r.isAutoGutter then Logged(log, Activity(IconFor("warning"), ContextWarning(r.inputTokens, cfg.rotateThreshold), "")) else log
  }


  /**
    * The result of an iteration: the processed messages absorbed from the
    * initial outcome, then the flags classified with the gutter latch.
    */
  function Outcome(cfg: AgentConfig, s: Session, gutterLatch: bool): RunResult {
    Classify(cfg, Absorbed(START, Scan(s, |s.msgs|).processed), s.hasDisplay && gutterLatch)
  }

  /** The intervene latch an iteration leaves behind. */
  function LatchLeft(s: Session): bool {
    Scan(s, |s.msgs|).latch
  }

  /**
    * An iteration leaves the intervene latch set exactly when the message
    * that ends it is an exception that arrived while the latch was set;
    * after a result, or without a display, the latch is clear.
    */
  lemma IterationLatch(s: Session)
    requires s.Ends()
    ensures exists e :: 0 <= e < |s.msgs| && !Scan(s, e).ended && Scan(s, e + 1).ended &&
                        (LatchLeft(s) <==> s.msgs[e].Raise? && s.Observed(e))
    ensures LatchLeft(s) ==> s.hasDisplay
  {
    ScanEnds(s);
    ScanLatch(s, |s.msgs|);
  }

  /** Everything one iteration produces: its result, the queries sent, and the display's statistics and log. */
  datatype Iteration = Iteration(result: RunResult, sent: seq<string>, stats: Stats, log: seq<Activity>)

  /**
    * The iteration specified: the processed messages folded from the
    * initial outcome, the flags classified, the closing log entries added.
    */
  function RunIteration(cfg: AgentConfig, prompt: string, s: Session, gutterLatch: bool, stats: Stats, log: seq<Activity>): Iteration
  {
    var sc := Scan(s, |s.msgs|);
    var v := Fold(cfg, View(START, stats, log), sc.processed);
    var r := Outcome(cfg, s, gutterLatch);
    Iteration(r, [prompt] + sc.queries, v.stats, ClosingLog(cfg, v.log, r))
  }

  /**
    * The outcome of an iteration is decided by the one terminal message it
    * processes: an exception gives failure with the exception's text and no
    * tokens; a result gives its error flag, its token sums, and its `result`
    * text when non-empty, else the concatenated text blocks before it.
    */
  lemma IterationOutcome(cfg: AgentConfig, prompt: string, s: Session, gutterLatch: bool, stats: Stats, log: seq<Activity>)
    requires s.Ends()
    ensures var ps := Scan(s, |s.msgs|).processed;
            var r := RunIteration(cfg, prompt, s, gutterLatch, stats, log).result;
            |ps| >= 1 && ps[|ps| - 1].Terminal() &&
            var last := ps[|ps| - 1];
            (last.Raise? ==> r.resultText == last.error && !r.success && r.inputTokens == 0 && r.outputTokens == 0) &&
            (last.Result? ==>
               r.success == !last.isError &&
               r.resultText == (if last.result != "" then last.result else AssistantText(ps[..|ps| - 1])) &&
               r.inputTokens == (if last.usage.Some? then AllInput(last.usage.value) else 0) &&
               r.outputTokens == (if last.usage.Some? then last.usage.value.outputTokens else 0) &&
               r.durationMs == last.durationMs && r.numTurns == last.numTurns)
  {
    ScanEnds(s);
    ScanShape(s, |s.msgs|);
    var ps := Scan(s, |s.msgs|).processed;
    OutcomeOfIteration(ps);
    assert RunIteration(cfg, prompt, s, gutterLatch, stats, log).result == Classify(cfg, Absorbed(START, ps), s.hasDisplay && gutterLatch);
  }

  /**
    * The prompt is sent first, then one query per intervention carrying the
    * operator's text in order; without a display only the prompt is sent.
    */
  lemma IterationQueries(cfg: AgentConfig, prompt: string, s: Session, gutterLatch: bool, stats: Stats, log: seq<Activity>)
    ensures var sent := RunIteration(cfg, prompt, s, gutterLatch, stats, log).sent;
            |sent| >= 1 && sent[0] == prompt &&
            (forall t :: 1 <= t < |sent| ==> sent[t] == InterventionQuery(s.reply(t - 1))) &&
            (!s.hasDisplay ==> sent == [prompt])
  {
    ScanQueries(s, |s.msgs|);
    var qs := Scan(s, |s.msgs|).queries;
    var sent := RunIteration(cfg, prompt, s, gutterLatch, stats, log).sent;
    assert sent == [prompt] + qs;
    forall t | 1 <= t < |sent|
      ensures sent[t] == InterventionQuery(s.reply(t - 1))
    {
      assert sent[t] == qs[t - 1];
    }
  }

  /** Before the terminal message the cumulative totals do not move. */
  lemma {:induction false} FoldKeepsTotals(cfg: AgentConfig, v: View, ms: seq<Message>)
    requires forall t :: 0 <= t < |ms| ==> !ms[t].Terminal()
    ensures Fold(cfg, v, ms).stats.cumulativeInputTokens == v.stats.cumulativeInputTokens
    ensures Fold(cfg, v, ms).stats.cumulativeOutputTokens == v.stats.cumulativeOutputTokens
  {
    if ms != [] {
      FoldKeepsTotals(cfg, v, ms[..|ms| - 1]);
    }
  }

  /**
    * The display's cumulative input total grows by the iteration's input
    * tokens exactly when a result arrives, and not at all after an exception.
    */
  lemma IterationTotals(cfg: AgentConfig, prompt: string, s: Session, gutterLatch: bool, stats: Stats, log: seq<Activity>)
    requires s.Ends() && s.hasDisplay
    ensures var it := RunIteration(cfg, prompt, s, gutterLatch, stats, log);
            var ps := Scan(s, |s.msgs|).processed;
            |ps| >= 1 &&
            it.stats.cumulativeInputTokens ==
              stats.cumulativeInputTokens + (if ps[|ps| - 1].Result? then it.result.inputTokens else 0)
  {
    ScanEnds(s);
    ScanShape(s, |s.msgs|);
    var ps := Scan(s, |s.msgs|).processed;
    FoldKeepsTotals(cfg, View(START, stats, log), ps[..|ps| - 1]);
    FoldProgress(cfg, View(START, stats, log), ps[..|ps| - 1]);
    AbsorbedNonTerminal(ps[..|ps| - 1]);
    assert ps[..|ps| - 1] + [ps[|ps| - 1]] == ps;
  }

  /** Processing one more message is one more `Step`. */
  lemma FoldSnoc(cfg: AgentConfig, v: View, done: seq<Message>, m: Message)
    ensures Fold(cfg, v, done + [m]) == Step(cfg, Fold(cfg, v, done), m)
  {
    assert (done + [m])[..|done + [m]| - 1] == done;
  }

  /** One more block extends the text and the log by that block alone. */
  lemma BlocksSnoc(content: seq<Block>, b: nat, log: seq<Activity>)
    requires b < |content|
    ensures Texts(content[..b + 1]) == Texts(content[..b]) + (if content[b].TextBlock? then content[b].text else "")
    ensures BlocksLog(log, content[..b + 1]) == BlockLog(BlocksLog(log, content[..b]), content[b])
  {
    assert content[..b + 1][..b] == content[..b];
  }

  /** The block loop of one assistant message: text blocks extend the result text; text and thinking are logged. */
  method HandleBlocks(content: seq<Block>, text0: string, display: AgentDisplay?) returns (text: string)
    requires display != null ==> display.Valid()
    modifies display
    ensures text == text0 + Texts(content)
    ensures display != null ==> display.Valid() && display.activities == BlocksLog(old(display.activities), content)
    ensures display != null ==> display.stats == old(display.stats) && display.Flags() == old(display.Flags())
  {
    text := text0;
    ghost var log0 := if display != null then display.activities else [];
    for b := 0 to |content|
      invariant text == text0 + Texts(content[..b])
      invariant display != null ==> display.Valid()
      invariant display != null ==> display.activities == BlocksLog(old(display.activities), content[..b])
      invariant display != null ==> display.stats == old(display.stats) && display.Flags() == old(display.Flags())
    {
      BlocksSnoc(content, b, log0);
      var blk := content[b];
      if blk.TextBlock? {
        text := text + blk.text;
        if display != null {
          display.LogText(blk.text);
        }
      } else if blk.ThinkingBlock? {
        if display != null {
          display.LogThinking(blk.thinking);
        }
      }
    }
    assert content[..|content|] == content;
  }

  /** Handling one message that no intervention discards: the outcome and the display advance by one `Step`. */
  method Process(cfg: AgentConfig, m: Message, p0: Progress, display: AgentDisplay?, ghost view: View) returns (p: Progress)
    requires p0 == view.progress
    requires display != null ==> display.Valid() && display.stats == view.stats && display.activities == view.log
    modifies display
    ensures p == Step(cfg, view, m).progress
    ensures display != null ==> display.Valid() && display.Flags() == old(display.Flags())
    ensures display != null ==> display.stats == Step(cfg, view, m).stats && display.activities == Step(cfg, view, m).log
  {
    var hasDisplay := display != null;
    p := p0;
    match m {
      case Assistant(content, usage) =>
        if hasDisplay {
          display.stats := display.stats.(sessionTurns := display.stats.sessionTurns + 1);
          if usage.Some? {
            var currentIn := AllInput(usage.value);
            display.UpdateStats(Some(currentIn), Some(usage.value.outputTokens), None, None,
                                Some(currentIn), Some(cfg.contextLimit));
          }
        }
        var text := HandleBlocks(content, p.text, display);
        p := p.(text := text);
      case Result(isError, durationMs, numTurns, usage, cost, result) =>
        p := p.(success := !isError, durationMs := durationMs, numTurns := numTurns);
        if usage.Some? {
          p := p.(inputTokens := AllInput(usage.value), outputTokens := usage.value.outputTokens);
        }
        if cost != 0.0 {
          p := p.(costUsd := cost);
        }
        if result != "" {
          p := p.(text := result);
        }
        if hasDisplay {
          display.UpdateStats(Some(p.inputTokens), Some(p.outputTokens), Some(durationMs), Some(numTurns),
                              Some(p.inputTokens), Some(cfg.contextLimit));
          display.FinishIteration();
        }
      case Other =>
      case Raise(e) =>
        p := p.(success := false, text := e);
        if hasDisplay {
          display.LogActivity("error", "Error: " + e, "");
        }
    }
  }

  /**
    * The message loop of `_execute`: handles the stream until a result or
    * an exception ends it, sending one query per intervention.
    */
  method Consume(cfg: AgentConfig, msgs: seq<Message>, pressed: nat -> bool, reply: nat -> string, display: AgentDisplay?,
                 ghost s: Session)
    returns (p: Progress, queries: seq<string>, ghost done: seq<Message>)
    requires s == Session(msgs, display != null, display != null && display.interveneRequested, pressed, reply)
    requires display != null ==> display.Valid()
    requires s.Ends()
    modifies display
    ensures done == Scan(s, |msgs|).processed && queries == Scan(s, |msgs|).queries
    ensures p == Fold(cfg, View(START, if display != null then old(display.stats) else InitialStats(0, 0),
                                if display != null then old(display.activities) else []), done).progress
    ensures display != null ==>
              var v := Fold(cfg, View(START, old(display.stats), old(display.activities)), done);
              display.Valid() && display.stats == v.stats && display.activities == v.log &&
              display.Flags() == old(display.Flags()).(intervene := LatchLeft(s))
  {
    var hasDisplay := display != null;
    ghost var v0 := View(START, if hasDisplay then display.stats else InitialStats(0, 0),
                         if hasDisplay then display.activities else []);
    ghost var flags0 := if hasDisplay then display.Flags() else Latches(false, false, false, false);
    ScanEnds(s);
    done := [];
    p := START;
    queries := [];
    var finished := false;
    ghost var latch := s.initLatch;
    var j := 0;
    while !finished
      invariant 0 <= j <= |msgs|
      invariant Scan(s, j) == Scanned(done, queries, finished, latch)
      invariant !finished ==> j < |msgs|
      invariant p == Fold(cfg, v0, done).progress
      invariant hasDisplay ==> display.Valid() && display.stats == Fold(cfg, v0, done).stats &&
                               display.activities == Fold(cfg, v0, done).log
      invariant hasDisplay ==> display.Flags() == flags0.(intervene := latch)
      decreases |msgs| - j
    {
      p, queries, finished, done, latch := HandleNext(cfg, msgs, pressed, reply, display, s, j, p, queries, done, latch, v0, flags0);
      j := j + 1;
    }
    ScanEnded(s, j, |msgs|);
  }

  /**
    * One turn of the message loop, as message `j` arrives: an exception
    * ends the iteration without the intervene latch being looked at; an
    * intervention seen now discards the message and sends a query;
    * otherwise the message is processed.
    */
  method HandleNext(cfg: AgentConfig, msgs: seq<Message>, pressed: nat -> bool, reply: nat -> string, display: AgentDisplay?,
                    ghost s: Session, j: nat, p0: Progress, queries0: seq<string>, ghost done0: seq<Message>,
                    ghost latch0: bool, ghost v0: View, ghost flags0: Latches)
    returns (p: Progress, queries: seq<string>, finished: bool, ghost done: seq<Message>, ghost latch: bool)
    requires s.msgs == msgs && s.pressed == pressed && s.reply == reply && s.hasDisplay == (display != null)
    requires j < |msgs| && Scan(s, j) == Scanned(done0, queries0, false, latch0)
    requires p0 == Fold(cfg, v0, done0).progress
    requires display != null ==>
               display.Valid() && display.stats == Fold(cfg, v0, done0).stats &&
               display.activities == Fold(cfg, v0, done0).log && display.Flags() == flags0.(intervene := latch0)
    modifies display
    ensures Scan(s, j + 1) == Scanned(done, queries, finished, latch)
    ensures p == Fold(cfg, v0, done).progress
    ensures display != null ==>
              display.Valid() && display.stats == Fold(cfg, v0, done).stats &&
              display.activities == Fold(cfg, v0, done).log && display.Flags() == flags0.(intervene := latch)
  {
    ScanOpen(s, j);
    p, queries, finished, done := p0, queries0, false, done0;
    // The keyboard listener runs alongside: the operator may press the intervene key now.
    if display != null && pressed(j) {
      display.RequestIntervene();
    }
    var m := msgs[j];
    if !m.Raise? && display != null && display.interveneRequested {
      display.ClearIntervene();
      queries := queries + [InterventionQuery(reply(|queries|))];
    } else {
      p := Take(cfg, m, p, display, v0, done0);
      finished := m.Terminal();
      done := done + [m];
    }
    latch := display != null && display.interveneRequested;
  }

  /** A message that reaches the stream handlers advances the outcome, statistics and log by one `Step`. */
  method Take(cfg: AgentConfig, m: Message, p0: Progress, display: AgentDisplay?, ghost v0: View, ghost done0: seq<Message>)
    returns (p: Progress)
    requires p0 == Fold(cfg, v0, done0).progress
    requires display != null ==>
               display.Valid() && display.stats == Fold(cfg, v0, done0).stats && display.activities == Fold(cfg, v0, done0).log
    modifies display
    ensures p == Fold(cfg, v0, done0 + [m]).progress
    ensures display != null ==>
              display.Valid() && display.Flags() == old(display.Flags()) &&
              display.stats == Fold(cfg, v0, done0 + [m]).stats && display.activities == Fold(cfg, v0, done0 + [m]).log
  {
    FoldSnoc(cfg, v0, done0, m);
    p := Process(cfg, m, p0, display, Fold(cfg, v0, done0));
  }

  /**
    * `_execute`: sends `prompt`, consumes the stream and classifies the
    * outcome. `pressed(j)` says the operator pressed the intervene key
    * before message `j` was handled; `reply(k)` is the text typed at the
    * `k`-th intervention.
    */
  method Execute(prompt: string, msgs: seq<Message>, pressed: nat -> bool, reply: nat -> string,
                 cfg: AgentConfig, display: AgentDisplay?)
    returns (r: RunResult, sent: seq<string>)
    requires display != null ==> display.Valid()
    requires Session(msgs, display != null, display != null && display.interveneRequested, pressed, reply).Ends()
    modifies display
    ensures display != null ==> display.Valid()
    ensures var s := Session(msgs, display != null, display != null && old(display.interveneRequested), pressed, reply);
            var it := RunIteration(cfg, prompt, s, display != null && old(display.gutterRequested),
                                   if display != null then old(display.stats) else InitialStats(0, 0),
                                   if display != null then old(display.activities) else []);
            r == it.result && sent == it.sent &&
            (display != null ==>
               display.stats == it.stats && display.activities == it.log &&
               display.Flags() == old(display.Flags()).(gutter := false, intervene := LatchLeft(s)))
  {
    var hasDisplay := display != null;
    ghost var s := Session(msgs, hasDisplay, hasDisplay && display.interveneRequested, pressed, reply);
    var p, queries;
    ghost var done;
    p, queries, done := Consume(cfg, msgs, pressed, reply, display, s);
    sent := [prompt] + queries;
    FoldProgress(cfg, View(START, if hasDisplay then old(display.stats) else InitialStats(0, 0),
                           if hasDisplay then old(display.activities) else []), done);
    r := Close(cfg, p, display);
  }

  /** The end of an iteration: the gutter latch read and cleared, the flags classified, the warning logged. */
  method Close(cfg: AgentConfig, p: Progress, display: AgentDisplay?) returns (r: RunResult)
    requires display != null ==> display.Valid()
    modifies display
    ensures r == Classify(cfg, p, display != null && old(display.gutterRequested))
    ensures display != null ==> display.Valid() && display.stats == old(display.stats)
    ensures display != null ==> display.Flags() == old(display.Flags()).(gutter := false)
    ensures display != null ==> display.activities == ClosingLog(cfg, old(display.activities), r)
  {
    var hasDisplay := display != null;
    var userGutter := false;
    if hasDisplay && display.gutterRequested {
      userGutter := true;
      display.ClearGutter();
    }
    r := Classify(cfg, p, userGutter);
    if r.isAutoGutter && hasDisplay {
      display.LogActivity("warning", ContextWarning(r.inputTokens, cfg.rotateThreshold), "");
    }
  }

  /**
    * Iteration results do not depend on the display statistics: the
    * iteration number and the task line survive `_execute`.
    */
  lemma {:induction false} FoldKeepsIteration(cfg: AgentConfig, v: View, ms: seq<Message>)
    ensures var st := Fold(cfg, v, ms).stats;
            st.iteration == v.stats.iteration && st.currentTask == v.stats.currentTask &&
            st.currentTaskId == v.stats.currentTaskId
  {
    if ms != [] {
      FoldKeepsIteration(cfg, v, ms[..|ms| - 1]);
    }
  }

  // ---------------------------------------------------------------------
  // Permission handler and tools per mode
  // ---------------------------------------------------------------------

  /** Which of the permission handlers `_execute` installs. */
  datatype HandlerKind = InteractiveHandler | ReadOnlyHandler | ProjectHandler

  const TOOLS_READONLY: seq<string> := ["Read", "Glob", "Grep"]
  const TOOLS_SPEC: seq<string> := ["Read", "Glob", "Grep", "AskUserQuestion"]

  /** The handler choice of `_execute`: interactive needs a question handler; plan mode is read-only. */
  function HandlerFor(interactive: bool, hasQuestionHandler: bool, permissionMode: string): (k: HandlerKind)
    ensures k == InteractiveHandler <==> interactive && hasQuestionHandler
    ensures k == ReadOnlyHandler <==> !(interactive && hasQuestionHandler) && permissionMode == "plan"
    ensures k == ProjectHandler <==> !(interactive && hasQuestionHandler) && permissionMode != "plan"
  {
    if interactive && hasQuestionHandler then InteractiveHandler
    else if permissionMode == "plan" then ReadOnlyHandler
    else ProjectHandler
  }

  /** The tools a spec iteration offers: `AskUserQuestion` only with a question handler. */
  function SpecTools(hasQuestionHandler: bool): (tools: seq<string>)
    ensures "AskUserQuestion" in tools <==> hasQuestionHandler
    ensures forall t :: t in tools ==> t in TOOLS_SPEC
  {
    if hasQuestionHandler then TOOLS_SPEC else TOOLS_READONLY
  }

  /**
    * A spec iteration runs in plan mode, interactive exactly when there is
    * a question handler, so it never gets the project handler nor a tool
    * that writes; `run_once` and `run_loop` in their default mode always
    * get the project handler.
    */
  lemma ModeHandlers(hasQuestionHandler: bool)
    ensures HandlerFor(hasQuestionHandler, hasQuestionHandler, "plan") != ProjectHandler
    ensures HandlerFor(hasQuestionHandler, hasQuestionHandler, "plan") == InteractiveHandler <==> hasQuestionHandler
    ensures "Write" !in SpecTools(hasQuestionHandler) && "Edit" !in SpecTools(hasQuestionHandler) &&
            "Bash" !in SpecTools(hasQuestionHandler)
    ensures HandlerFor(false, hasQuestionHandler, "acceptEdits") == ProjectHandler
  {
  }

  // ---------------------------------------------------------------------
  // Runs of iterations
  // ---------------------------------------------------------------------

  /**
    * What happens in iteration `i` of a run: the engine's message stream,
    * the intervene presses and the replies within it, and whether the
    * operator pressed the gutter, stop or pause key while it ran.
    */
  datatype Script = Script(streams: int -> seq<Message>, pressed: int -> nat -> bool, reply: int -> nat -> string,
                           gutterKey: int -> bool, stopKey: int -> bool, pauseKey: int -> bool)

  /** The session of iteration `i`, given the intervene latch as it starts. */
  function SessionAt(sc: Script, i: int, hasDisplay: bool, latch: bool): Session {
    Session(sc.streams(i), hasDisplay, hasDisplay && latch, sc.pressed(i), sc.reply(i))
  }

  /**
    * The result of iteration `i` of a run that starts at `start`, given the
    * intervene latch as it begins: only the first iteration sees a gutter
    * latch set before the run, since `_execute` clears it.
    */
  function Outcomes(cfg: AgentConfig, sc: Script, start: int, hasDisplay: bool, gutter0: bool): (int, bool) -> RunResult {
    (i, latch) => Outcome(cfg, SessionAt(sc, i, hasDisplay, latch), (i == start && gutter0) || sc.gutterKey(i))
  }

  /** The intervene latch iteration `i` leaves, given the latch as it begins. */
  function LatchesLeft(sc: Script, hasDisplay: bool): (int, bool) -> bool {
    (i, latch) => LatchLeft(SessionAt(sc, i, hasDisplay, latch))
  }

  /** Whether iteration `i` reaches its end, given the intervene latch as it begins. */
  function EndsAt(sc: Script, hasDisplay: bool): (int, bool) -> bool {
    (i, latch) => SessionAt(sc, i, hasDisplay, latch).Ends()
  }

  /**
    * `outcome`, `left` and `ends` give, for each iteration and the intervene
    * latch as it begins, the iteration's result, the latch it leaves and
    * whether it reaches its end. The run loops below are stated for any
    * such functions, and each fact is drawn only where an iteration runs.
    */
  ghost predicate Follows(cfg: AgentConfig, sc: Script, start: int, hasDisplay: bool, gutter0: bool,
                    outcome: (int, bool) -> RunResult, left: (int, bool) -> bool, ends: (int, bool) -> bool)
  {
    forall i: int, latch: bool {:trigger SessionAt(sc, i, hasDisplay, latch)} ::
      outcome(i, latch) == Outcome(cfg, SessionAt(sc, i, hasDisplay, latch), (i == start && gutter0) || sc.gutterKey(i)) &&
      left(i, latch) == LatchLeft(SessionAt(sc, i, hasDisplay, latch)) &&
      ends(i, latch) == SessionAt(sc, i, hasDisplay, latch).Ends()
  }

  /** `Outcomes`, `LatchesLeft` and `EndsAt` are such functions. */
  lemma OutcomesFollow(cfg: AgentConfig, sc: Script, start: int, hasDisplay: bool, gutter0: bool)
    ensures Follows(cfg, sc, start, hasDisplay, gutter0, Outcomes(cfg, sc, start, hasDisplay, gutter0),
                    LatchesLeft(sc, hasDisplay), EndsAt(sc, hasDisplay))
  {
  }

  /**
    * Every iteration `i..max` of a run reaches its end, the intervene latch
    * carried from each iteration to the next; `latch` is the latch as `i`
    * begins.
    */
  predicate RunEnds(i: int, max: int, left: (int, bool) -> bool, ends: (int, bool) -> bool, latch: bool)
    decreases Span(i, max)
  {
    i <= max ==> ends(i, latch) && RunEnds(i + 1, max, left, ends, left(i, latch))
  }

  /** The intervene latch as iteration `n` begins, in a run whose iteration `i` begins with `latch`. */
  function LatchFrom(left: (int, bool) -> bool, i: int, latch: bool, n: int): bool
    decreases n - i
  {
    if n <= i then latch else left(n - 1, LatchFrom(left, i, latch, n - 1))
  }

  /** The latch carried from iteration `i` is the one carried from `i + 1` after `i` has left its own. */
  lemma {:induction false} LatchFromShift(left: (int, bool) -> bool, i: int, latch: bool, n: int)
    requires i < n
    ensures LatchFrom(left, i + 1, left(i, latch), n) == LatchFrom(left, i, latch, n)
    decreases n - i
  {
    if n > i + 1 {
      LatchFromShift(left, i, latch, n - 1);
    }
  }

  /**
    * One iteration of `run_loop` or `run_spec` up to its exit checks: the
    * banner, the keys pressed while it runs, `_execute` and the status.
    */
  method Iterate(cfg: AgentConfig, prompt: string, sc: Script, i: int, banner: string, display: AgentDisplay?,
                 ghost latch: bool, ghost gutter: bool)
    returns (r: RunResult)
    requires display != null ==> display.Valid() && display.interveneRequested == latch && display.gutterRequested == gutter
    requires display == null ==> !gutter
    requires SessionAt(sc, i, display != null, latch).Ends()
    modifies display
    ensures r == Outcome(cfg, SessionAt(sc, i, display != null, latch), gutter || sc.gutterKey(i))
    ensures display != null ==>
              display.Valid() && display.stats.iteration == i &&
              display.stats.status == (if r.success then "complete" else "error") &&
              display.Flags() == Latches(old(display.paused) || sc.pauseKey(i), old(display.stopRequested) || sc.stopKey(i), false,
                                         LatchLeft(SessionAt(sc, i, display != null, latch)))
    ensures display != null ==> TaskLine(display.stats) == TaskLine(old(display.stats))
  {
    if display != null {
      Announce(sc, i, banner, display);
      ghost var s := SessionAt(sc, i, true, display.interveneRequested);
      FoldKeepsIteration(cfg, View(START, display.stats, display.activities), Scan(s, |s.msgs|).processed);
    }
    var sent;
    r, sent := Execute(prompt, sc.streams(i), sc.pressed(i), sc.reply(i), cfg, display);
    if display != null {
      display.SetStatus(if r.success then "complete" else "error");
    }
  }

  /** The start of iteration `i` on the display: number, status, banner, then the keys pressed. */
  method Announce(sc: Script, i: int, banner: string, display: AgentDisplay)
    requires display.Valid()
    modifies display
    ensures display.Valid() && display.stats.iteration == i
    ensures display.stats.currentTask == old(display.stats.currentTask) &&
            display.stats.currentTaskId == old(display.stats.currentTaskId)
    ensures display.Flags() == old(display.Flags()).(pause := old(display.paused) || sc.pauseKey(i),
                                                     stop := old(display.stopRequested) || sc.stopKey(i),
                                                     gutter := old(display.gutterRequested) || sc.gutterKey(i))
  {
    display.SetIteration(i);
    display.SetStatus("running");
    display.LogActivity("info", banner, "");
    PressKeys(sc, i, display);
  }

  /** The keys pressed during iteration `i` set their latches. */
  method PressKeys(sc: Script, i: int, display: AgentDisplay)
    requires display.Valid()
    modifies display
    ensures display.Valid() && display.stats == old(display.stats)
    ensures display.Flags() == old(display.Flags()).(pause := old(display.paused) || sc.pauseKey(i),
                                                     stop := old(display.stopRequested) || sc.stopKey(i),
                                                     gutter := old(display.gutterRequested) || sc.gutterKey(i))
  {
    // The keyboard listener runs alongside the iteration.
    if sc.gutterKey(i) {
      display.RequestGutter();
    }
    if sc.stopKey(i) {
      display.RequestStop();
    }
    if sc.pauseKey(i) {
      display.RequestPause();
    }
  }

  /**
    * Why `run_loop` ended, or `Continue` while it goes on; `Name` is the
    * string `run_loop` returns.
    */
  datatype Exit = Continue | Complete | Gutter | Error | Stopped | Paused | MaxIterations
  {
    function Name(): (s: string)
      ensures (s == "") == (this == Continue)
    {
      match this
      case Continue => ""
      case Complete => "complete"
      case Gutter => "gutter"
      case Error => "error"
      case Stopped => "stopped"
      case Paused => "paused"
      case MaxIterations => "max_iterations"
    }
  }

  /**
    * The exit checks of `run_loop` after a result, in their order:
    * completion, then rotation (go on), then gutter, then failure, then,
    * with a display only, the stop latch before the pause latch. The
    * empty reason means the loop goes on.
    */
  function Decide(r: RunResult, hasDisplay: bool, stop: bool, pause: bool): (reason: Exit)
    ensures reason != MaxIterations
    ensures reason == Complete <==> r.isComplete
    ensures reason == Gutter <==> !r.isComplete && r.isGutter && !r.isAutoGutter && !r.isUserGutter
    ensures reason == Error <==> !r.isComplete && !r.isGutter && !r.success
    ensures reason == Stopped <==> !r.isComplete && !r.isGutter && r.success && hasDisplay && stop
    ensures reason == Paused <==> !r.isComplete && !r.isGutter && r.success && hasDisplay && !stop && pause
  {
    if r.isComplete then Complete
    else if r.isGutter then (if r.isAutoGutter || r.isUserGutter then Continue else Gutter)
    else if !r.success then Error
    else if hasDisplay && stop then Stopped
    else if hasDisplay && pause then Paused
    else Continue
  }

  /** The activity entry the exit checks write for iteration `i`, if any. */
  function DecisionEntry(r: RunResult, i: int, reason: Exit): Option<Activity> {
    match reason
    case Complete => Some(Activity(IconFor("complete"), "PRD complete!", ""))
    case Continue =>
      if r.isGutter then
        Some(Activity(IconFor("info"), "Rotating context (" + (if r.isAutoGutter then "Context limit" else "User requested") + ")...", ""))
      else None
    case Gutter => Some(Activity(IconFor("warning"), "GUTTER: Agent is stuck, stopping", ""))
    case Error => Some(Activity(IconFor("error"), "Iteration failed, stopping", ""))
    case Stopped => Some(Activity(IconFor("stop"), "Stopped at iteration " + Text.IntToString(i), ""))
    case Paused => Some(Activity(IconFor("pause"), "Paused at iteration " + Text.IntToString(i), ""))
    case MaxIterations => None
  }

  /** The exit checks after iteration `i`, with the entries they log and the paused status. */
  method Conclude(r: RunResult, i: int, display: AgentDisplay?, ghost stop: bool, ghost pause: bool) returns (reason: Exit)
    requires display != null ==> display.Valid() && display.stopRequested == stop && display.paused == pause
    modifies display
    ensures reason == Decide(r, display != null, stop, pause)
    ensures display != null ==>
              display.Valid() && display.Flags() == old(display.Flags()) &&
              display.stats == (if reason == Paused then old(display.stats).(status := "paused") else old(display.stats)) &&
              display.activities == (var e := DecisionEntry(r, i, reason);
                                     if e.Some? then Logged(old(display.activities), e.value) else old(display.activities))
    ensures display != null ==> TaskLine(display.stats) == TaskLine(old(display.stats))
  {
    reason := Continue;
    if r.isComplete {
      if display != null {
        display.LogActivity("complete", "PRD complete!", "");
      }
      reason := Complete;
    } else if r.isGutter {
      if r.isAutoGutter || r.isUserGutter {
        if display != null {
          display.LogActivity("info", "Rotating context (" + (if r.isAutoGutter then "Context limit" else "User requested") + ")...", "");
        }
      } else {
        if display != null {
          display.LogActivity("warning", "GUTTER: Agent is stuck, stopping", "");
        }
        reason := Gutter;
      }
    } else if !r.success {
      if display != null {
        display.LogActivity("error", "Iteration failed, stopping", "");
      }
      reason := Error;
    } else if display != null {
      if display.stopRequested {
        display.LogActivity("stop", "Stopped at iteration " + Text.IntToString(i), "");
        reason := Stopped;
      } else if display.paused {
        display.SetStatus("paused");
        display.LogActivity("pause", "Paused at iteration " + Text.IntToString(i), "");
        reason := Paused;
      }
    }
  }

  /** The results of a run, why it ended, and the stop, pause and intervene latches it left set. */
  datatype LoopEnd = LoopEnd(results: seq<RunResult>, reason: Exit, stop: bool, pause: bool, intervene: bool)

  /** How many iterations `start..max` holds. */
  function Span(start: int, max: int): nat {
    if start <= max then max + 1 - start else 0
  }

  /**
    * `run_loop` specified, from iteration `i` with the results `done` so
    * far: iterations `i..max` in order, one result each, given by `outcome`
    * from the intervene latch as the iteration begins; the stop and pause
    * latches accumulate the keys pressed and `left` gives the intervene
    * latch each iteration leaves. The first check that decides a reason
    * ends the run, else "max_iterations".
    */
  function LoopRun(i: int, max: int, outcome: (int, bool) -> RunResult, left: (int, bool) -> bool, hasDisplay: bool,
                   stop: bool, pause: bool, latch: bool, stopKey: int -> bool, pauseKey: int -> bool, done: seq<RunResult>): LoopEnd
    decreases Span(i, max)
  {
    if i > max then LoopEnd(done, MaxIterations, stop, pause, latch)
    else
      var r := outcome(i, latch);
      var stop' := stop || stopKey(i);
      var pause' := pause || pauseKey(i);
      var reason := Decide(r, hasDisplay, stop', pause');
      if reason != Continue then LoopEnd(done + [r], reason, stop', pause', left(i, latch))
      else LoopRun(i + 1, max, outcome, left, hasDisplay, stop', pause', left(i, latch), stopKey, pauseKey, done + [r])
  }

  /** A latch set before the run, or by a key pressed in some iteration `lo..hi`. */
  predicate Latched(init: bool, key: int -> bool, lo: int, hi: int)
    decreases if lo <= hi then hi + 1 - lo else 0
  {
    if hi < lo then init else Latched(init, key, lo, hi - 1) || key(hi)
  }

  /** A latch is set exactly when it was set before the run or some key of `lo..hi` was pressed. */
  lemma {:induction false} LatchedIff(init: bool, key: int -> bool, lo: int, hi: int)
    ensures Latched(init, key, lo, hi) <==> init || exists k :: lo <= k <= hi && key(k)
    decreases if lo <= hi then hi + 1 - lo else 0
  {
    if lo <= hi {
      LatchedIff(init, key, lo, hi - 1);
    }
  }

  /** A latch accumulated from iteration `lo` on is the one accumulated from `lo + 1` on after `lo`'s key. */
  lemma {:induction false} LatchedShift(init: bool, key: int -> bool, lo: int, hi: int)
    requires lo <= hi
    ensures Latched(init || key(lo), key, lo + 1, hi) == Latched(init, key, lo, hi)
    decreases hi - lo
  {
    if lo < hi {
      LatchedShift(init, key, lo, hi - 1);
    }
  }

  /**
    * A run keeps the results it started with and appends the outcomes of
    * `i, i+1, ...` in order, at most one per iteration, each from the
    * intervene latch carried to it.
    */
  lemma {:induction false} LoopRunResults(i: int, max: int, outcome: (int, bool) -> RunResult, left: (int, bool) -> bool,
                                          hasDisplay: bool, stop: bool, pause: bool, latch: bool,
                                          stopKey: int -> bool, pauseKey: int -> bool, done: seq<RunResult>, e: LoopEnd)
    requires e == LoopRun(i, max, outcome, left, hasDisplay, stop, pause, latch, stopKey, pauseKey, done)
    ensures |done| <= |e.results| <= |done| + Span(i, max)
    ensures e.results[..|done|] == done
    ensures forall n :: i <= n < i + |e.results| - |done| ==> e.results[|done| + n - i] == outcome(n, LatchFrom(left, i, latch, n))
    decreases Span(i, max)
  {
    if i <= max {
      var stop' := stop || stopKey(i);
      var pause' := pause || pauseKey(i);
      var done' := done + [outcome(i, latch)];
      assert done'[..|done|] == done;
      if Decide(outcome(i, latch), hasDisplay, stop', pause') == Continue {
        LoopRunResults(i + 1, max, outcome, left, hasDisplay, stop', pause', left(i, latch), stopKey, pauseKey, done', e);
        assert e.results[..|done|] == e.results[..|done'|][..|done|];
        forall n | i <= n < i + |e.results| - |done|
          ensures e.results[|done| + n - i] == outcome(n, LatchFrom(left, i, latch, n))
        {
          if n == i {
            assert e.results[|done|] == e.results[..|done'|][|done|];
          } else {
            assert |done| + n - i == |done'| + n - (i + 1);
            LatchFromShift(left, i, latch, n);
          }
        }
      }
    }
  }

  /** A run ends "max_iterations" exactly when it went through every iteration up to `max` without a decision. */
  lemma {:induction false} LoopRunLength(i: int, max: int, outcome: (int, bool) -> RunResult, left: (int, bool) -> bool,
                                         hasDisplay: bool, stop: bool, pause: bool, latch: bool,
                                         stopKey: int -> bool, pauseKey: int -> bool, done: seq<RunResult>, e: LoopEnd)
    requires e == LoopRun(i, max, outcome, left, hasDisplay, stop, pause, latch, stopKey, pauseKey, done)
    ensures e.reason == MaxIterations ==> |e.results| == |done| + Span(i, max)
    ensures e.reason != MaxIterations ==> |e.results| >= |done| + 1
    decreases Span(i, max)
  {
    if i <= max {
      var stop' := stop || stopKey(i);
      var pause' := pause || pauseKey(i);
      if Decide(outcome(i, latch), hasDisplay, stop', pause') == Continue {
        LoopRunLength(i + 1, max, outcome, left, hasDisplay, stop', pause', left(i, latch), stopKey, pauseKey, done + [outcome(i, latch)], e);
      }
    }
  }

  /**
    * The stop and pause latches at the end of a run are those set before it
    * or by a key pressed in one of the iterations it ran.
    */
  lemma {:induction false} LoopRunKeys(i: int, max: int, outcome: (int, bool) -> RunResult, left: (int, bool) -> bool,
                                       hasDisplay: bool, stop: bool, pause: bool, latch: bool,
                                       stopKey: int -> bool, pauseKey: int -> bool, done: seq<RunResult>, e: LoopEnd)
    requires e == LoopRun(i, max, outcome, left, hasDisplay, stop, pause, latch, stopKey, pauseKey, done)
    ensures e.stop == Latched(stop, stopKey, i, i + |e.results| - |done| - 1)
    ensures e.pause == Latched(pause, pauseKey, i, i + |e.results| - |done| - 1)
    decreases Span(i, max)
  {
    if i <= max {
      var stop' := stop || stopKey(i);
      var pause' := pause || pauseKey(i);
      LatchedShift(stop, stopKey, i, i);
      LatchedShift(pause, pauseKey, i, i);
      var done' := done + [outcome(i, latch)];
      if Decide(outcome(i, latch), hasDisplay, stop', pause') == Continue {
        LoopRunKeys(i + 1, max, outcome, left, hasDisplay, stop', pause', left(i, latch), stopKey, pauseKey, done', e);
        LoopRunLength(i + 1, max, outcome, left, hasDisplay, stop', pause', left(i, latch), stopKey, pauseKey, done', e);
        var last := i + |e.results| - |done| - 1;
        assert last == (i + 1) + |e.results| - |done'| - 1;
        LatchedShift(stop, stopKey, i, last);
        LatchedShift(pause, pauseKey, i, last);
      }
    }
  }

  /** The intervene latch at the end of a run is the one its last iteration left. */
  lemma {:induction false} LoopRunIntervene(i: int, max: int, outcome: (int, bool) -> RunResult, left: (int, bool) -> bool,
                                            hasDisplay: bool, stop: bool, pause: bool, latch: bool,
                                            stopKey: int -> bool, pauseKey: int -> bool, done: seq<RunResult>, e: LoopEnd)
    requires e == LoopRun(i, max, outcome, left, hasDisplay, stop, pause, latch, stopKey, pauseKey, done)
    ensures e.intervene == LatchFrom(left, i, latch, i + |e.results| - |done|)
    decreases Span(i, max)
  {
    if i <= max {
      var stop' := stop || stopKey(i);
      var pause' := pause || pauseKey(i);
      var done' := done + [outcome(i, latch)];
      if Decide(outcome(i, latch), hasDisplay, stop', pause') == Continue {
        LoopRunIntervene(i + 1, max, outcome, left, hasDisplay, stop', pause', left(i, latch), stopKey, pauseKey, done', e);
        LoopRunLength(i + 1, max, outcome, left, hasDisplay, stop', pause', left(i, latch), stopKey, pauseKey, done', e);
        LatchFromShift(left, i, latch, i + |e.results| - |done|);
      }
    }
  }

  /**
    * The stop and pause latches a run leaves are those it started with,
    * plus every key pressed in the iterations it went through; the
    * intervene latch is the one carried past its last iteration.
    */
  lemma LoopRunLatches(i: int, max: int, outcome: (int, bool) -> RunResult, left: (int, bool) -> bool,
                       hasDisplay: bool, stop: bool, pause: bool, latch: bool,
                       stopKey: int -> bool, pauseKey: int -> bool, done: seq<RunResult>, e: LoopEnd)
    requires e == LoopRun(i, max, outcome, left, hasDisplay, stop, pause, latch, stopKey, pauseKey, done)
    ensures e.stop == Latched(stop, stopKey, i, i + |e.results| - |done| - 1)
    ensures e.pause == Latched(pause, pauseKey, i, i + |e.results| - |done| - 1)
    ensures e.intervene == LatchFrom(left, i, latch, i + |e.results| - |done|)
  {
    LoopRunKeys(i, max, outcome, left, hasDisplay, stop, pause, latch, stopKey, pauseKey, done, e);
    LoopRunIntervene(i, max, outcome, left, hasDisplay, stop, pause, latch, stopKey, pauseKey, done, e);
  }

  /** Every check of a run but the last said go on, with the latches as carried by then. */
  lemma {:induction false} LoopRunGoesOn(i: int, max: int, outcome: (int, bool) -> RunResult, left: (int, bool) -> bool,
                                         hasDisplay: bool, stop: bool, pause: bool, latch: bool,
                                         stopKey: int -> bool, pauseKey: int -> bool, done: seq<RunResult>, e: LoopEnd)
    requires e == LoopRun(i, max, outcome, left, hasDisplay, stop, pause, latch, stopKey, pauseKey, done)
    ensures forall n :: i <= n < i + |e.results| - |done| - 1 ==>
              Decide(outcome(n, LatchFrom(left, i, latch, n)), hasDisplay,
                     Latched(stop, stopKey, i, n), Latched(pause, pauseKey, i, n)) == Continue
    decreases Span(i, max)
  {
    if i <= max {
      var stop' := stop || stopKey(i);
      var pause' := pause || pauseKey(i);
      if Decide(outcome(i, latch), hasDisplay, stop', pause') == Continue {
        var done' := done + [outcome(i, latch)];
        LoopRunGoesOn(i + 1, max, outcome, left, hasDisplay, stop', pause', left(i, latch), stopKey, pauseKey, done', e);
        forall n | i <= n < i + |e.results| - |done| - 1
          ensures Decide(outcome(n, LatchFrom(left, i, latch, n)), hasDisplay,
                         Latched(stop, stopKey, i, n), Latched(pause, pauseKey, i, n)) == Continue
        {
          LatchedShift(stop, stopKey, i, n);
          LatchedShift(pause, pauseKey, i, n);
          if n > i {
            LatchFromShift(left, i, latch, n);
          }
        }
      }
    }
  }

  /**
    * A run that ended before `max_iterations` ended on the decision of its
    * last check, with the latches as carried by then.
    */
  lemma {:induction false} LoopRunLastDecision(i: int, max: int, outcome: (int, bool) -> RunResult, left: (int, bool) -> bool,
                                               hasDisplay: bool, stop: bool, pause: bool, latch: bool,
                                               stopKey: int -> bool, pauseKey: int -> bool, done: seq<RunResult>, e: LoopEnd)
    requires e == LoopRun(i, max, outcome, left, hasDisplay, stop, pause, latch, stopKey, pauseKey, done)
    ensures e.reason != MaxIterations ==>
              var last := i + |e.results| - |done| - 1;
              i <= last &&
              e.reason == Decide(outcome(last, LatchFrom(left, i, latch, last)), hasDisplay,
                                 Latched(stop, stopKey, i, last), Latched(pause, pauseKey, i, last)) &&
              e.reason != Continue
    decreases Span(i, max)
  {
    if i <= max {
      var stop' := stop || stopKey(i);
      var pause' := pause || pauseKey(i);
      LatchedShift(stop, stopKey, i, i);
      LatchedShift(pause, pauseKey, i, i);
      var done' := done + [outcome(i, latch)];
      if Decide(outcome(i, latch), hasDisplay, stop', pause') == Continue {
        LoopRunLastDecision(i + 1, max, outcome, left, hasDisplay, stop', pause', left(i, latch), stopKey, pauseKey, done', e);
        if e.reason != MaxIterations {
          var last := i + |e.results| - |done| - 1;
          assert last == (i + 1) + |e.results| - |done'| - 1;
          LatchedShift(stop, stopKey, i, last);
          LatchedShift(pause, pauseKey, i, last);
          LatchFromShift(left, i, latch, last);
        }
      }
    }
  }

  /** Without a display a run never ends "stopped" or "paused", whatever keys are pressed. */
  lemma LoopRunWithoutDisplay(i: int, max: int, outcome: (int, bool) -> RunResult, left: (int, bool) -> bool,
                              stop: bool, pause: bool, latch: bool,
                              stopKey: int -> bool, pauseKey: int -> bool, done: seq<RunResult>)
    ensures var e := LoopRun(i, max, outcome, left, false, stop, pause, latch, stopKey, pauseKey, done);
            e.reason != Stopped && e.reason != Paused
  {
    var e := LoopRun(i, max, outcome, left, false, stop, pause, latch, stopKey, pauseKey, done);
    LoopRunLastDecision(i, max, outcome, left, false, stop, pause, latch, stopKey, pauseKey, done, e);
  }

  /** The `on_iteration_complete(i, result)` calls for the results `rs` of iterations `start, start + 1, ...`. */
  function Numbered(start: int, rs: seq<RunResult>): (calls: seq<(int, RunResult)>)
  {
    if rs == [] then [] else Numbered(start, rs[..|rs| - 1]) + [(start + |rs| - 1, rs[|rs| - 1])]
  }

  /** There is one call per result, in order: the `t`-th is `(start + t, rs[t])`. */
  lemma {:induction false} NumberedCalls(start: int, rs: seq<RunResult>)
    ensures var calls := Numbered(start, rs);
            |calls| == |rs| && forall t :: 0 <= t < |rs| ==> calls[t] == (start + t, rs[t])
  {
    if rs != [] {
      NumberedCalls(start, rs[..|rs| - 1]);
    }
  }

  /** The task line of the display: the task text and its id. */
  function TaskLine(st: Stats): (string, string) {
    (st.currentTask, st.currentTaskId)
  }

  /**
    * The task line after the `on_iteration_complete` calls for the results
    * `rs` of iterations `start, start + 1, ...`, from `line` before them:
    * `onComplete(i, r)` is the line the call for iteration `i` sets, if any.
    */
  function TaskLineAfter(line: (string, string), start: int, rs: seq<RunResult>,
                         onComplete: (int, RunResult) -> Option<(string, string)>): (string, string)
  {
    if rs == [] then line
    else
      match onComplete(start + |rs| - 1, rs[|rs| - 1])
      case Some(shown) => shown
      case None => TaskLineAfter(line, start, rs[..|rs| - 1], onComplete)
  }

  /** One step back: the line after `rs` is the last call's line, or the line after the calls before it. */
  lemma TaskLineUnfold(line: (string, string), start: int, rs: seq<RunResult>,
                       onComplete: (int, RunResult) -> Option<(string, string)>)
    requires rs != []
    ensures var last := onComplete(start + |rs| - 1, rs[|rs| - 1]);
            TaskLineAfter(line, start, rs, onComplete) ==
              if last.Some? then last.value else TaskLineAfter(line, start, rs[..|rs| - 1], onComplete)
  {
  }

  /** When no call sets a line, the task line after a run is the one before it. */
  lemma {:induction false} TaskLineUnset(line: (string, string), start: int, rs: seq<RunResult>,
                                         onComplete: (int, RunResult) -> Option<(string, string)>)
    requires forall k :: 0 <= k < |rs| ==> onComplete(start + k, rs[k]).None?
    ensures TaskLineAfter(line, start, rs, onComplete) == line
  {
    if rs != [] {
      var front, n := rs[..|rs| - 1], |rs| - 1;
      TaskLineUnfold(line, start, rs, onComplete);
      assert onComplete(start + n, rs[n]).None?;
      forall k | 0 <= k < |front|
        ensures onComplete(start + k, front[k]).None?
      {
        assert front[k] == rs[k];
      }
      TaskLineUnset(line, start, front, onComplete);
    }
  }

  /** The task line after a run is the one the last call that set a line set. */
  lemma {:induction false} TaskLineLastSet(line: (string, string), start: int, rs: seq<RunResult>, k: int,
                                           onComplete: (int, RunResult) -> Option<(string, string)>)
    requires 0 <= k < |rs| && onComplete(start + k, rs[k]).Some?
    requires forall m :: k < m < |rs| ==> onComplete(start + m, rs[m]).None?
    ensures TaskLineAfter(line, start, rs, onComplete) == onComplete(start + k, rs[k]).value
    decreases |rs|
  {
    var front, n := rs[..|rs| - 1], |rs| - 1;
    TaskLineUnfold(line, start, rs, onComplete);
    if k < n {
      assert onComplete(start + n, rs[n]).None?;
      assert front[k] == rs[k];
      forall m | k < m < |front|
        ensures onComplete(start + m, front[m]).None?
      {
        assert front[m] == rs[m];
      }
      TaskLineLastSet(line, start, front, k, onComplete);
    }
  }

  /** One more result applies its call's line, if it sets one. */
  lemma TaskLineSnoc(line: (string, string), start: int, rs: seq<RunResult>, i: int, r: RunResult,
                     onComplete: (int, RunResult) -> Option<(string, string)>, now: (string, string))
    requires now == TaskLineAfter(line, start, rs, onComplete) && i == start + |rs|
    ensures (if onComplete(i, r).Some? then onComplete(i, r).value else now) == TaskLineAfter(line, start, rs + [r], onComplete)
  {
    assert (rs + [r])[..|rs|] == rs;
  }

  /** One more result adds one call, numbered after the others. */
  lemma NumberedSnoc(start: int, rs: seq<RunResult>, i: int, r: RunResult, calls: seq<(int, RunResult)>)
    requires calls == Numbered(start, rs) && i == start + |rs|
    ensures calls + [(i, r)] == Numbered(start, rs + [r])
  {
    assert (rs + [r])[..|rs|] == rs;
  }

  /** A run from iteration `i` is its check of iteration `i` followed, when that says go on, by the run from `i + 1`. */
  lemma LoopRunNext(i: int, max: int, outcome: (int, bool) -> RunResult, left: (int, bool) -> bool, ends: (int, bool) -> bool,
                    hasDisplay: bool, stop: bool, pause: bool, latch: bool, sc: Script, done: seq<RunResult>)
    requires i <= max && RunEnds(i, max, left, ends, latch)
    ensures var r := outcome(i, latch);
            var stop', pause' := stop || sc.stopKey(i), pause || sc.pauseKey(i);
            var decided := Decide(r, hasDisplay, stop', pause');
            LoopRun(i, max, outcome, left, hasDisplay, stop, pause, latch, sc.stopKey, sc.pauseKey, done) ==
              if decided != Continue then LoopEnd(done + [r], decided, stop', pause', left(i, latch))
              else LoopRun(i + 1, max, outcome, left, hasDisplay, stop', pause', left(i, latch), sc.stopKey, sc.pauseKey, done + [r])
    ensures ends(i, latch) && RunEnds(i + 1, max, left, ends, left(i, latch))
  {
  }

  /**
    * One iteration of `run_loop` and its exit checks: iteration `i` of a
    * run that started at `start` with the gutter latch `gutter0`, with the
    * stop, pause and intervene latches now `stop`, `pause` and `latch`.
    */
  method Round(cfg: AgentConfig, prompt: string, sc: Script, i: int, max: int, display: AgentDisplay?,
               ghost start: int, ghost gutter0: bool, ghost stop: bool, ghost pause: bool, ghost latch: bool,
               ghost outcome: (int, bool) -> RunResult, ghost left: (int, bool) -> bool, ghost ends: (int, bool) -> bool,
               ghost done: seq<RunResult>, ghost whole: LoopEnd, onComplete: (int, RunResult) -> Option<(string, string)>)
    returns (r: RunResult, decided: Exit, ghost stop': bool, ghost pause': bool, ghost latch': bool)
    requires Follows(cfg, sc, start, display != null, gutter0, outcome, left, ends)
    requires display == null ==> !gutter0
    requires i <= max && Midway(sc, start, max, display, gutter0, outcome, left, ends, whole, i, stop, pause, latch, done)
    modifies display
    ensures r == outcome(i, latch)
    ensures stop' == (stop || sc.stopKey(i)) && pause' == (pause || sc.pauseKey(i)) && latch' == left(i, latch)
    ensures decided == Decide(r, display != null, stop', pause')
    ensures decided != Continue ==> whole == LoopEnd(done + [r], decided, stop', pause', latch')
    ensures decided == Continue ==>
              Midway(sc, start, max, display, gutter0, outcome, left, ends, whole, i + 1, stop', pause', latch', done + [r])
    ensures display != null ==>
              display.Valid() && display.Flags() == Latches(pause', stop', false, latch') &&
              display.stats.iteration == i &&
              display.stats.status == (if decided == Paused then "paused" else if r.success then "complete" else "error")
    ensures display != null ==>
              TaskLine(display.stats) == if onComplete(i, r).Some? then onComplete(i, r).value else TaskLine(old(display.stats))
  {
    LoopRunNext(i, max, outcome, left, ends, display != null, stop, pause, latch, sc, done);
    stop', pause', latch' := stop || sc.stopKey(i), pause || sc.pauseKey(i), left(i, latch);
    r := Iterate(cfg, prompt, sc, i, "Starting iteration " + Text.IntToString(i) + "/" + Text.IntToString(max), display,
                 latch, i == start && gutter0);
    // `on_iteration_complete(i, result)`, whose only effect on the display is the task line it may set.
    ApplyTaskLine(display, onComplete(i, r));
    decided := Conclude(r, i, display, stop || sc.stopKey(i), pause || sc.pauseKey(i));
  }

  /** The display after a callback that sets the task line `shown`, if any. */
  method ApplyTaskLine(display: AgentDisplay?, shown: Option<(string, string)>)
    requires display != null ==> display.Valid()
    modifies display
    ensures display != null ==>
              display.Valid() && display.activities == old(display.activities) && display.Flags() == old(display.Flags()) &&
              display.stats == if shown.Some? then old(display.stats).(currentTask := shown.value.0, currentTaskId := shown.value.1)
                               else old(display.stats)
    ensures display != null ==> TaskLine(display.stats) == if shown.Some? then shown.value else TaskLine(old(display.stats))
  {
    if display != null && shown.Some? {
      display.SetTask(shown.value.0, shown.value.1);
    }
  }

  /**
    * The state `run_loop` keeps between iterations: `e` is the whole run,
    * `i` the next iteration and `results` those of `start..i - 1`, and the
    * display holds the latches these leave.
    */
  ghost predicate Midway(sc: Script, start: int, max: int, display: AgentDisplay?, gutter0: bool,
                         outcome: (int, bool) -> RunResult, left: (int, bool) -> bool, ends: (int, bool) -> bool,
                         e: LoopEnd, i: int, stop: bool, pause: bool, latch: bool, results: seq<RunResult>)
    reads display
  {
    start <= i && |results| == i - start && (start <= max ==> i <= max + 1) &&
    e == LoopRun(i, max, outcome, left, display != null, stop, pause, latch, sc.stopKey, sc.pauseKey, results) &&
    RunEnds(i, max, left, ends, latch) &&
    (display != null ==> display.Valid() && display.Flags() == Latches(pause, stop, i == start && gutter0, latch))
  }

  /**
    * `run_loop`: iterations `start..max`, each one `_execute` followed by
    * the exit checks. `calls` records the `on_iteration_complete(i, result)`
    * calls, made before each iteration's checks, and `onComplete(i, r)` is
    * the task line such a call sets on the display, if any; `e` is the run
    * as `LoopRun` specifies it.
    */
  method RunLoop(cfg: AgentConfig, prompt: string, sc: Script, start: int, max: int, display: AgentDisplay?,
                 ghost outcome: (int, bool) -> RunResult, ghost left: (int, bool) -> bool, ghost ends: (int, bool) -> bool,
                 onComplete: (int, RunResult) -> Option<(string, string)>)
    returns (results: seq<RunResult>, reason: Exit, calls: seq<(int, RunResult)>, ghost e: LoopEnd)
    requires display != null ==> display.Valid()
    requires Follows(cfg, sc, start, display != null, display != null && display.gutterRequested, outcome, left, ends)
    requires RunEnds(start, max, left, ends, display != null && display.interveneRequested)
    modifies display
    ensures e == LoopRun(start, max, outcome, left, display != null,
                         display != null && old(display.stopRequested), display != null && old(display.paused),
                         display != null && old(display.interveneRequested), sc.stopKey, sc.pauseKey, [])
    ensures results == e.results && reason == e.reason
    ensures calls == Numbered(start, results)
    ensures display != null ==>
              display.Valid() && display.Flags() == Latches(e.pause, e.stop, |results| == 0 && old(display.gutterRequested), e.intervene)
    ensures display != null ==> TaskLine(display.stats) == TaskLineAfter(TaskLine(old(display.stats)), start, results, onComplete)
  {
    var hasDisplay := display != null;
    ghost var gutter0 := hasDisplay && display.gutterRequested;
    ghost var stop0 := hasDisplay && display.stopRequested;
    ghost var pause0 := hasDisplay && display.paused;
    ghost var latch0 := hasDisplay && display.interveneRequested;
    ghost var line0 := if hasDisplay then TaskLine(display.stats) else ("", "");
    e := LoopRun(start, max, outcome, left, hasDisplay, stop0, pause0, latch0, sc.stopKey, sc.pauseKey, []);
    ghost var stop, pause, latch := stop0, pause0, latch0;
    results, calls := [], [];
    reason := MaxIterations;
    var i := start;
    while i <= max
      invariant Midway(sc, start, max, display, gutter0, outcome, left, ends, e, i, stop, pause, latch, results)
      invariant calls == Numbered(start, results)
      invariant hasDisplay ==> TaskLine(display.stats) == TaskLineAfter(line0, start, results, onComplete)
      decreases max + 1 - i
    {
      ghost var line := if hasDisplay then TaskLine(display.stats) else line0;
      var r, decided, stop', pause', latch' := Round(cfg, prompt, sc, i, max, display, start, gutter0, stop, pause, latch,
                                                     outcome, left, ends, results, e, onComplete);
      stop, pause, latch := stop', pause', latch';
      // `on_iteration_complete(i, result)`, before the exit checks take effect.
      NumberedSnoc(start, results, i, r, calls);
      if hasDisplay {
        TaskLineSnoc(line0, start, results, i, r, onComplete, line);
      }
      calls := calls + [(i, r)];
      results := results + [r];
      if decided != Continue {
        reason := decided;
        break;
      }
      i := i + 1;
    }
  }

  // ---------------------------------------------------------------------
  // Single and spec runs
  // ---------------------------------------------------------------------

  /** No key is ever pressed: the keyboard listener only runs beside `run_loop`. */
  const NO_PRESSES: nat -> bool := j => false
  const NO_REPLIES: nat -> string := k => ""

  /** A run without the keyboard listener, whose iteration `i` receives `streams(i)`. */
  function Quiet(streams: int -> seq<Message>): (sc: Script)
    ensures forall i :: !sc.gutterKey(i) && !sc.stopKey(i) && !sc.pauseKey(i)
  {
    Script(streams, i => NO_PRESSES, i => NO_REPLIES, i => false, i => false, i => false)
  }

  /**
    * `run_once`: one iteration numbered 1 with the full tool set, its
    * status set from its success.
    */
  method RunOnce(cfg: AgentConfig, prompt: string, msgs: seq<Message>, display: AgentDisplay?) returns (r: RunResult)
    requires display != null ==> display.Valid()
    requires Session(msgs, display != null, display != null && display.interveneRequested, NO_PRESSES, NO_REPLIES).Ends()
    modifies display
    ensures r == Outcome(cfg, Session(msgs, display != null, display != null && old(display.interveneRequested), NO_PRESSES, NO_REPLIES),
                         display != null && old(display.gutterRequested))
    ensures display != null ==>
              display.Valid() && display.stats.iteration == 1 &&
              display.stats.status == (if r.success then "complete" else "error") &&
              display.Flags() == old(display.Flags()).(gutter := false, intervene := LatchLeft(
                Session(msgs, display != null, display != null && old(display.interveneRequested), NO_PRESSES, NO_REPLIES)))
  {
    if display != null {
      display.SetStatus("running");
      display.SetIteration(1);
      ghost var s := Session(msgs, true, display.interveneRequested, NO_PRESSES, NO_REPLIES);
      FoldKeepsIteration(cfg, View(START, display.stats, display.activities), Scan(s, |s.msgs|).processed);
    }
    var sent;
    r, sent := Execute(prompt, msgs, NO_PRESSES, NO_REPLIES, cfg, display);
    if display != null {
      display.SetStatus(if r.success then "complete" else "error");
    }
  }

  /** The result of a spec iteration says the specification is written. */
  predicate SpecDone(r: RunResult) {
    Text.Contains(r.resultText, SPEC_COMPLETE_SIGNAL)
  }

  /** The results of a spec run and the intervene latch it leaves. */
  datatype SpecEnd = SpecEnd(results: seq<RunResult>, intervene: bool)

  /**
    * The spec iterations `i..max` after the results `done`, each result
    * given by `outcome` from the intervene latch as the iteration begins and
    * `left` giving the latch it leaves: the run ends after the first result
    * carrying the completion signal.
    */
  function SpecRun(i: int, max: int, outcome: (int, bool) -> RunResult, left: (int, bool) -> bool, latch: bool,
                   done: seq<RunResult>): SpecEnd
    decreases Span(i, max)
  {
    if i > max then SpecEnd(done, latch)
    else
      var r := outcome(i, latch);
      if SpecDone(r) then SpecEnd(done + [r], left(i, latch))
      else SpecRun(i + 1, max, outcome, left, left(i, latch), done + [r])
  }

  /**
    * A spec run appends the outcomes of iterations `i, i + 1, ...` in
    * order, at most one per iteration, each from the intervene latch
    * carried to it, and leaves the latch carried past its last iteration.
    */
  lemma {:induction false} SpecRunResults(i: int, max: int, outcome: (int, bool) -> RunResult, left: (int, bool) -> bool,
                                          latch: bool, done: seq<RunResult>, rs: SpecEnd)
    requires rs == SpecRun(i, max, outcome, left, latch, done)
    ensures |done| <= |rs.results| <= |done| + Span(i, max)
    ensures rs.results[..|done|] == done
    ensures forall n :: i <= n < i + |rs.results| - |done| ==> rs.results[|done| + n - i] == outcome(n, LatchFrom(left, i, latch, n))
    ensures rs.intervene == LatchFrom(left, i, latch, i + |rs.results| - |done|)
    decreases Span(i, max)
  {
    if i <= max && !SpecDone(outcome(i, latch)) {
      var done' := done + [outcome(i, latch)];
      SpecRunResults(i + 1, max, outcome, left, left(i, latch), done', rs);
      assert rs.results[..|done|] == rs.results[..|done'|][..|done|];
      forall n | i <= n < i + |rs.results| - |done|
        ensures rs.results[|done| + n - i] == outcome(n, LatchFrom(left, i, latch, n))
      {
        if n == i {
          assert rs.results[|done|] == rs.results[..|done'|][|done|];
        } else {
          assert |done| + n - i == |done'| + n - (i + 1);
          LatchFromShift(left, i, latch, n);
        }
      }
      LatchFromShift(left, i, latch, i + |rs.results| - |done|);
    }
  }

  /**
    * A spec run stops at the first completion signal: no earlier result
    * carries it, and it stops before `max` only when its last result does.
    */
  lemma {:induction false} SpecRunStops(i: int, max: int, outcome: (int, bool) -> RunResult, left: (int, bool) -> bool,
                                        latch: bool, done: seq<RunResult>, rs: SpecEnd)
    requires rs == SpecRun(i, max, outcome, left, latch, done)
    ensures forall n :: i <= n < i + |rs.results| - |done| - 1 ==> !SpecDone(outcome(n, LatchFrom(left, i, latch, n)))
    ensures var last := i + |rs.results| - |done| - 1;
            (|rs.results| > |done| && SpecDone(outcome(last, LatchFrom(left, i, latch, last)))) ||
            |rs.results| == |done| + Span(i, max)
    decreases Span(i, max)
  {
    if i <= max && !SpecDone(outcome(i, latch)) {
      var done' := done + [outcome(i, latch)];
      SpecRunStops(i + 1, max, outcome, left, left(i, latch), done', rs);
      SpecRunResults(i + 1, max, outcome, left, left(i, latch), done', rs);
      forall n | i < n < i + |rs.results| - |done|
        ensures LatchFrom(left, i + 1, left(i, latch), n) == LatchFrom(left, i, latch, n)
      {
        LatchFromShift(left, i, latch, n);
      }
    }
  }

  /**
    * `run_spec`: iterations `1..max` in plan mode, each one `_execute`
    * with the status set from its success, until a result carries the
    * spec completion signal. The tools and the permission handler are
    * `SpecTools` and `HandlerFor(hasQuestionHandler, hasQuestionHandler, "plan")`.
    * `e` is the run as `SpecRun` specifies it.
    */
  method RunSpec(cfg: AgentConfig, prompt: string, streams: int -> seq<Message>, max: int, display: AgentDisplay?,
                 ghost outcome: (int, bool) -> RunResult, ghost left: (int, bool) -> bool, ghost ends: (int, bool) -> bool)
    returns (results: seq<RunResult>, ghost e: SpecEnd)
    requires display != null ==> display.Valid()
    requires Follows(cfg, Quiet(streams), 1, display != null, display != null && display.gutterRequested, outcome, left, ends)
    requires RunEnds(1, max, left, ends, display != null && display.interveneRequested)
    modifies display
    ensures e == SpecRun(1, max, outcome, left, display != null && old(display.interveneRequested), [])
    ensures results == e.results
    ensures display != null ==>
              display.Valid() && display.stopRequested == old(display.stopRequested) && display.paused == old(display.paused) &&
              display.interveneRequested == e.intervene
    ensures display != null && |results| > 0 ==> !display.gutterRequested
  {
    var hasDisplay := display != null;
    var sc := Quiet(streams);
    ghost var gutter0 := hasDisplay && display.gutterRequested;
    ghost var stop0 := hasDisplay && display.stopRequested;
    ghost var pause0 := hasDisplay && display.paused;
    ghost var latch := hasDisplay && display.interveneRequested;
    e := SpecRun(1, max, outcome, left, latch, []);
    results := [];
    var i := 1;
    while i <= max
      invariant 1 <= i && (1 <= max ==> i <= max + 1) && |results| == i - 1
      invariant e == SpecRun(i, max, outcome, left, latch, results)
      invariant RunEnds(i, max, left, ends, latch)
      invariant hasDisplay ==> display.Valid() && display.Flags() == Latches(pause0, stop0, i == 1 && gutter0, latch)
      decreases max + 1 - i
    {
      var r, finished, latch' := SpecRound(cfg, prompt, sc, i, max, display, gutter0, stop0, pause0, latch, outcome, left, ends,
                                            results, e);
      results := results + [r];
      latch := latch';
      if finished {
        break;
      }
      i := i + 1;
    }
  }

  /**
    * One iteration of `run_spec`: `_execute` with no key pressed, then,
    * when its result carries the completion signal, the closing log entry.
    */
  method SpecRound(cfg: AgentConfig, prompt: string, sc: Script, i: int, max: int, display: AgentDisplay?,
                   ghost gutter0: bool, ghost stop0: bool, ghost pause0: bool, ghost latch: bool,
                   ghost outcome: (int, bool) -> RunResult, ghost left: (int, bool) -> bool, ghost ends: (int, bool) -> bool,
                   ghost done: seq<RunResult>, ghost whole: SpecEnd)
    returns (r: RunResult, finished: bool, ghost latch': bool)
    requires Follows(cfg, sc, 1, display != null, gutter0, outcome, left, ends)
    requires display == null ==> !gutter0
    requires i <= max && whole == SpecRun(i, max, outcome, left, latch, done)
    requires RunEnds(i, max, left, ends, latch)
    requires !sc.gutterKey(i) && !sc.stopKey(i) && !sc.pauseKey(i)
    requires display != null ==> display.Valid() && display.Flags() == Latches(pause0, stop0, i == 1 && gutter0, latch)
    modifies display
    ensures r == outcome(i, latch) && finished == SpecDone(r) && latch' == left(i, latch)
    ensures whole == if finished then SpecEnd(done + [r], latch')
                     else SpecRun(i + 1, max, outcome, left, latch', done + [r])
    ensures RunEnds(i + 1, max, left, ends, latch')
    ensures display != null ==> display.Valid() && display.Flags() == Latches(pause0, stop0, false, latch')
  {

    latch' := left(i, latch);
    r := Iterate(cfg, prompt, sc, i, "Spec iteration " + Text.IntToString(i) + "/" + Text.IntToString(max), display,
                 latch, i == 1 && gutter0);
    finished := SpecDone(r);
    if finished && display != null {
      display.LogActivity("complete", "Spec complete!", "");
    }
  }

  // ---------------------------------------------------------------------
  // Keyboard handler
  // ---------------------------------------------------------------------

  /** The latches after the key `c` is read: `p` pauses, `g` gutters, `s` or `q` stops, `i` intervenes, in either case. */
  function KeyLatches(f: Latches, c: char): (g: Latches)
    ensures g.pause <==> f.pause || Text.LowerChar(c) == 'p'
    ensures g.gutter <==> f.gutter || Text.LowerChar(c) == 'g'
    ensures g.stop <==> f.stop || Text.LowerChar(c) == 's' || Text.LowerChar(c) == 'q'
    ensures g.intervene <==> f.intervene || Text.LowerChar(c) == 'i'
  {
    var k := Text.LowerChar(c);
    if k == 'p' then f.(pause := true)
    else if k == 'g' then f.(gutter := true)
    else if k == 's' || k == 'q' then f.(stop := true)
    else if k == 'i' then f.(intervene := true)
    else f
  }

  /**
    * A key never clears a latch and sets at most one; pressing it again
    * changes nothing more.
    */
  lemma KeyLatchesOne(f: Latches, c: char)
    ensures var g := KeyLatches(f, c);
            (f.pause ==> g.pause) && (f.gutter ==> g.gutter) && (f.stop ==> g.stop) && (f.intervene ==> g.intervene) &&
            (g == f || g == f.(pause := true) || g == f.(gutter := true) || g == f.(stop := true) || g == f.(intervene := true))
    ensures KeyLatches(KeyLatches(f, c), c) == KeyLatches(f, c)
  {
  }

  /** Upper- and lower-case keys act alike. */
  lemma KeyLatchesCase(f: Latches, c: char)
    requires 'A' <= c <= 'Z'
    ensures KeyLatches(f, c) == KeyLatches(f, (c as int + 32) as char)
  {
  }

  /** The entry the display logs when key `c` sets a latch. */
  function KeyEntry(c: char): (r: Option<Activity>)
    ensures r.Some? <==> Text.LowerChar(c) in {'p', 'g', 's', 'q'}
  {
    var k := Text.LowerChar(c);
    if k == 'p' then Some(Activity("||", "Pause requested - will pause after current iteration", ""))
    else if k == 'g' then Some(Activity("!", "GUTTER requested - will start fresh iteration", ""))
    else if k == 's' || k == 'q' then Some(Activity("x", "Stop requested - will stop after current iteration", ""))
    else None
  }

  /**
    * `KeyboardHandler`: reads single keys from a terminal in cbreak mode
    * and turns them into display latches. `supported` is false without
    * `termios` or on Windows; `saved` says terminal settings were saved.
    */
  class KeyboardHandler {
    const display: AgentDisplay
    const supported: bool
    var running: bool
    var saved: bool

    constructor(display: AgentDisplay, hasTermios: bool, onWindows: bool)
      ensures this.display == display && supported == (hasTermios && !onWindows)
      ensures !running && !saved
    {
      this.display := display;
      supported := hasTermios && !onWindows;
      running := false;
      saved := false;
    }

    /**
      * `start`: nothing without support or off a terminal; otherwise the
      * handler runs with its settings saved, unless entering cbreak mode
      * fails, which leaves it stopped with nothing saved.
      */
    method Start(isTty: bool, rawModeFails: bool)
      modifies this
      ensures if supported && isTty then running == !rawModeFails && saved == !rawModeFails
              else running == old(running) && saved == old(saved)
    {
      if !supported || !isTty {
        return;
      }
      running := true;
      saved := true;
      if rawModeFails {
        saved := false;
        running := false;
      }
    }

    /** `stop`: the handler stops; the saved settings are restored when there are any. */
    method Stop() returns (restored: bool)
      modifies this
      ensures !running && saved == old(saved)
      ensures restored <==> saved && supported
    {
      running := false;
      restored := saved && supported;
    }

    /**
      * `check_input`: when running on a supported terminal, the key read,
      * if any, sets its latch and logs its entry; otherwise nothing happens.
      */
    method CheckInput(isTty: bool, key: Option<char>)
      requires display.Valid()
      modifies display
      ensures display.Valid() && display.stats == old(display.stats)
      ensures var acts := running && supported && isTty && key.Some?;
              display.Flags() == (if acts then KeyLatches(old(display.Flags()), key.value) else old(display.Flags())) &&
              display.activities == (if acts && KeyEntry(key.value).Some? then Logged(old(display.activities), KeyEntry(key.value).value)
                                     else old(display.activities))
    {
      if !running || !supported || !isTty {
        return;
      }
      if key.Some? {
        var k := Text.LowerChar(key.value);
        if k == 'p' {
          display.RequestPause();
        } else if k == 'g' {
          display.RequestGutter();
        } else if k == 's' || k == 'q' {
          display.RequestStop();
        } else if k == 'i' {
          display.RequestIntervene();
        }
      }
    }
  }

  // ---------------------------------------------------------------------
  // The intervene latch as the display is written
  // ---------------------------------------------------------------------

  /** The exception text when the display lacks the intervene latch. */
  const MISSING_INTERVENE := "'AgentDisplay' object has no attribute 'is_intervene_requested'"

  /**
    * The outcome of `_execute` against the display as written, which has no
    * intervene latch: with a display, checking the latch once the first
    * message has arrived raises, and the iteration fails with that
    * exception, unless the engine raised its own while that message was
    * awaited.
    */
  function OutcomeAsWritten(cfg: AgentConfig, s: Session, gutterLatch: bool): (r: RunResult)
    ensures s.hasDisplay && |s.msgs| > 0 ==>
              !r.success && r.inputTokens == 0 &&
              r.resultText == (if s.msgs[0].Raise? then s.msgs[0].error else MISSING_INTERVENE)
  {
    if s.hasDisplay && |s.msgs| > 0 then
      Classify(cfg, Absorb(START, if s.msgs[0].Raise? then s.msgs[0] else Raise(MISSING_INTERVENE)), gutterLatch)
    else Outcome(cfg, s, gutterLatch)
  }

  /** The key handling as written: `i` raises inside the handler and is swallowed. */
  function KeyLatchesAsWritten(f: Latches, c: char): (g: Latches)
    ensures Text.LowerChar(c) == 'i' ==> g == f
    ensures g.intervene ==> f.intervene
    ensures !g.intervene ==> !f.intervene
  {
    if Text.LowerChar(c) == 'i' then f else KeyLatches(f, c)
  }

  /**
    * A displayed iteration whose engine answers with one successful result
    * fails as written, and succeeds once the display has the latch.
    */
  lemma InterveneGapIteration(cfg: AgentConfig)
    ensures var s := Session([Result(false, 10, 1, None, 0.0, "done")], true, false, NO_PRESSES, NO_REPLIES);
            !OutcomeAsWritten(cfg, s, false).success && Outcome(cfg, s, false).success
  {
    var s := Session([Result(false, 10, 1, None, 0.0, "done")], true, false, NO_PRESSES, NO_REPLIES);
    assert !s.Observed(0);
    assert Scan(s, 1).processed == [s.msgs[0]];
    var p := Absorbed(START, [s.msgs[0]]);
    assert p == Absorb(START, s.msgs[0]);
    assert Outcome(cfg, s, false) == Classify(cfg, p, false);
  }

  /** The `i` key sets no latch as written, and sets the intervene latch once the display has it. */
  lemma InterveneGapKey(f: Latches)
    requires !f.intervene
    ensures !KeyLatchesAsWritten(f, 'i').intervene && KeyLatches(f, 'i').intervene
  {
  }
}

=== FILE: cli_utils.dfy ===
/**
  * The command line's string helpers: turning what the user typed into a
  * project path, turning a name into a workspace-safe slug, and picking
  * the preselected and the returned entry of a choice menu.
  */
module CliUtils {
  import opened Wrappers
  import Text
  import opened Paths

  // ---------------------------------------------------------------------
  // resolve_project_path
  // ---------------------------------------------------------------------

  const QUOTES: set<char> := {'\'', '"'}

  /** The argument with surrounding whitespace, then any run of quotes at either end, removed. */
  function Cleaned(project: string): (s: string)
    ensures |s| <= |project|
    ensures s == [] || (s[0] !in QUOTES && s[|s| - 1] !in QUOTES)
  {
    Text.StripEnds(Text.Strip(project, Text.WHITESPACE), QUOTES);
    Text.Strip(Text.Strip(project, Text.WHITESPACE), QUOTES)
  }

  /**
    * `os.path.expanduser`: `~` and `~/…` use `home`; `~name/…` uses the
    * home directory `homes` lists for `name`, and is left alone when
    * there is none. Trailing slashes of the home directory are dropped,
    * and an empty result becomes the root.
    */
  function ExpandUser(s: string, home: string, homes: map<string, string>): (r: string)
    ensures !Text.StartsWith(s, "~") ==> r == s
    ensures s == "~" ==> r == (if Text.StripRight(home, {'/'}) == "" then "/" else Text.StripRight(home, {'/'}))
  {
    if !Text.StartsWith(s, "~") then s
    else
      var i := SlashFrom(s, 1);
      var name := s[1..i];
      if i != 1 && name !in homes then s
      else
        var userHome := Text.StripRight(if i == 1 then home else homes[name], {'/'});
        if userHome + s[i..] == "" then "/" else userHome + s[i..]
  }

  /** The index of the first `/` at or after `from`, or the length when there is none. */
  function SlashFrom(s: string, from: nat): (i: nat)
    requires from <= |s|
    ensures from <= i <= |s|
    ensures i < |s| ==> s[i] == '/'
    ensures forall k :: from <= k < i ==> s[k] != '/'
    decreases |s| - from
  {
    if from == |s| || s[from] == '/' then from else SlashFrom(s, from + 1)
  }

  /**
    * `resolve_project_path`: "." is the working directory `cwd`, a home
    * prefix is expanded, an absolute path is kept as written and any other
    * path is taken below `cwd`. Nothing is resolved against the filesystem.
    */
  function ResolveProjectPath(project: string, cwd: seq<string>, home: string, homes: map<string, string>): (p: Path)
    ensures p.absolute
    ensures var s := Cleaned(project); s == "." ==> p == Path(true, cwd)
    ensures var s := Cleaned(project); s != "." ==> p == JoinPath(cwd, Parse(ExpandUser(s, home, homes)))
  {
    var s := Cleaned(project);
    if s == "." then Path(true, cwd)
    else JoinPath(cwd, Parse(ExpandUser(s, home, homes)))
  }

  /** A character the cleaning does not take off the end of a path. */
  predicate KeptEnd(c: char) {
    c !in Text.WHITESPACE && c !in QUOTES
  }

  lemma {:induction false} JoinLast(parts: seq<string>, sep: string)
    requires |parts| > 0 && parts[|parts| - 1] != ""
    ensures var j := Text.Join(parts, sep);
            |j| > 0 && j[|j| - 1] == parts[|parts| - 1][|parts[|parts| - 1]| - 1]
    decreases |parts|
  {
    if |parts| > 1 {
      JoinLast(parts[1..], sep);
    }
  }

  /**
    * Printing an absolute path and passing it back in gives the same path,
    * provided its last name does not end in whitespace or a quote, which
    * the cleaning would take off.
    */
  lemma RenderedPathRoundTrip(parts: seq<string>, cwd: seq<string>, home: string, homes: map<string, string>)
    requires AllNames(parts)
    requires parts != [] ==> var last := parts[|parts| - 1]; last != "" && KeptEnd(last[|last| - 1])
    ensures ResolveProjectPath(Render(parts), cwd, home, homes) == Path(true, parts)
  {
    RenderCleaned(parts);
    ParseRender(parts);
  }

  lemma RenderCleaned(parts: seq<string>)
    requires parts != [] ==> var last := parts[|parts| - 1]; last != "" && KeptEnd(last[|last| - 1])
    ensures Cleaned(Render(parts)) == Render(parts) != "."
    ensures forall home, homes :: ExpandUser(Render(parts), home, homes) == Render(parts)
  {
    var s := Render(parts);
    RenderEnds(parts);
    assert s[..1] != "~";
    Text.StripIdentity(s, Text.WHITESPACE);
    Text.StripIdentity(s, QUOTES);
  }

  /** A rendered path starts with `/` and, when its last name keeps its end, ends in that name's last character. */
  lemma RenderEnds(parts: seq<string>)
    requires parts != [] ==> var last := parts[|parts| - 1]; last != "" && KeptEnd(last[|last| - 1])
    ensures var s := Render(parts); |s| > 1 || s == "/"
    ensures var s := Render(parts); s[0] == '/' && KeptEnd(s[|s| - 1])
  {
    var s := Render(parts);
    if parts != [] {
      JoinLast(parts, "/");
      assert s[|s| - 1] == Text.Join(parts, "/")[|Text.Join(parts, "/")| - 1];
    } else {
      assert s == "/";
    }
  }

  /** Quotes around a path make no difference. */
  lemma QuotedPath(s: string, q: char, cwd: seq<string>, home: string, homes: map<string, string>)
    requires q in QUOTES
    requires s != [] && s[0] !in QUOTES && s[|s| - 1] !in QUOTES
    requires s[0] !in Text.WHITESPACE && s[|s| - 1] !in Text.WHITESPACE
    ensures ResolveProjectPath([q] + s + [q], cwd, home, homes) == ResolveProjectPath(s, cwd, home, homes)
  {
    CleanedQuoted(s, q);
  }

  lemma CleanedQuoted(s: string, q: char)
    requires q in QUOTES
    requires s != [] && s[0] !in QUOTES && s[|s| - 1] !in QUOTES
    requires s[0] !in Text.WHITESPACE && s[|s| - 1] !in Text.WHITESPACE
    ensures Cleaned([q] + s + [q]) == s == Cleaned(s)
  {
    var t := [q] + s + [q];
    assert q !in Text.WHITESPACE;
    Text.StripIdentity(t, Text.WHITESPACE);
    Text.StripIdentity(s, Text.WHITESPACE);
    Text.StripIdentity(s, QUOTES);
    assert t[1..] == s + [q];
    assert Text.StripLeft(t, QUOTES) == s + [q];
    assert (s + [q])[..|s|] == s;
    assert Text.StripRight(s + [q], QUOTES) == s;
  }

  // ---------------------------------------------------------------------
  // sanitize_project_name
  // ---------------------------------------------------------------------

  /** The character a lower-cased name character becomes: itself when alphanumeric or `-`, else `-`. */
  function Slug(c: char): (r: char)
    ensures r == c <==> Text.IsAlnum(c) || c == '-'
    ensures r == '-' || Text.IsAlnum(r)
  {
    if Text.IsAlnum(c) || c == '-' then c else '-'
  }

  /** A character a sanitized name may hold: a lower-case letter, a digit or `-`. */
  predicate SlugChar(c: char) {
    (Text.IsAlnum(c) && !Text.IsAsciiUpper(c)) || c == '-'
  }

  /** A name `SanitizeProjectName` leaves as it is. */
  predicate IsSlug(s: string) {
    (forall i :: 0 <= i < |s| ==> SlugChar(s[i])) && (s == [] || (s[0] != '-' && s[|s| - 1] != '-'))
  }

  function Slugged(s: string): (r: string)
    ensures |r| == |s|
    ensures forall i :: 0 <= i < |s| ==> r[i] == Slug(Text.LowerChar(s[i]))
  {
    seq(|s|, i requires 0 <= i < |s| => Slug(Text.LowerChar(s[i])))
  }

  /**
    * `sanitize_project_name`: lower-cased, every other character made `-`,
    * and the `-` at both ends removed.
    */
  function SanitizeProjectName(name: string): (r: string)
    ensures IsSlug(r)
    ensures |r| <= |name|
    ensures r == "" <==> forall i :: 0 <= i < |name| ==> Slug(Text.LowerChar(name[i])) == '-'
  {
    var m := Slugged(name);
    var r := Text.Strip(m, {'-'});
    Text.StripEnds(m, {'-'});
    SlugChars(m, r);
    AllDashesIff(m);
    r
  }

  lemma SlugChars(m: string, r: string)
    requires forall i :: 0 <= i < |m| ==> m[i] == '-' || (Text.IsAlnum(m[i]) && !Text.IsAsciiUpper(m[i]))
    requires r == Text.Strip(m, {'-'})
    ensures forall i :: 0 <= i < |r| ==> SlugChar(r[i])
  {
    var l := Text.StripLeft(m, {'-'});
    assert forall i :: 0 <= i < |l| ==> l[i] == m[|m| - |l| + i];
    assert forall i :: 0 <= i < |r| ==> r[i] == l[i];
  }

  lemma {:induction false} StripRightKeeps(m: string, chars: set<char>)
    requires m != [] && m[0] !in chars
    ensures Text.StripRight(m, chars) != []
    decreases |m|
  {
    if |m| > 1 && m[|m| - 1] in chars {
      StripRightKeeps(m[..|m| - 1], chars);
    }
  }

  lemma {:induction false} AllDashesIff(m: string)
    ensures Text.Strip(m, {'-'}) == "" <==> forall i :: 0 <= i < |m| ==> m[i] == '-'
    decreases |m|
  {
    if m != [] && m[0] == '-' {
      AllDashesIff(m[1..]);
      assert forall i :: 0 < i < |m| ==> m[i] == m[1..][i - 1];
    } else if m != [] {
      assert Text.StripLeft(m, {'-'}) == m;
      StripRightKeeps(m, {'-'});
    }
  }

  /** A name that is already a slug is its own sanitized form. */
  lemma SanitizeSlug(s: string)
    requires IsSlug(s)
    ensures SanitizeProjectName(s) == s
  {
    assert Slugged(s) == s;
    Text.StripIdentity(s, {'-'});
  }

  /** Sanitizing twice is sanitizing once. */
  lemma SanitizeIdempotent(name: string)
    ensures SanitizeProjectName(SanitizeProjectName(name)) == SanitizeProjectName(name)
  {
    SanitizeSlug(SanitizeProjectName(name));
  }

  // ---------------------------------------------------------------------
  // prompt_choice
  // ---------------------------------------------------------------------

  /** The preselected entry: `choices[default]` when in range, else the first; an empty menu fails. */
  function Preselect(choices: seq<string>, default: int): (r: Option<string>)
    ensures r.None? <==> choices == []
    ensures 0 <= default < |choices| ==> r == Some(choices[default])
    ensures choices != [] && !(0 <= default < |choices|) ==> r == Some(choices[0])
  {
    if 0 <= default < |choices| then Some(choices[default])
    else if choices == [] then None
    else Some(choices[0])
  }

  /** `choices.index(x)`: the first position holding `x`, if any. */
  function IndexOf(choices: seq<string>, x: string): (r: Option<nat>)
    ensures r.None? <==> x !in choices
    ensures r.Some? ==> r.value < |choices| && choices[r.value] == x &&
                        forall j :: 0 <= j < r.value ==> choices[j] != x
  {
    if choices == [] then None
    else if choices[0] == x then Some(0)
    else match IndexOf(choices[1..], x)
      case None => None
      case Some(k) => Some(k + 1)
  }

  /** What `prompt_choice` ends in: the returned index, or the program exits on cancel. */
  datatype Picked = Index(i: nat) | Cancelled

  /**
    * `prompt_choice` after the user picked entry `picked` (or cancelled):
    * the index returned is that of the first entry with the same text.
    */
  function PromptChoice(choices: seq<string>, picked: Option<nat>): (r: Picked)
    requires picked.Some? ==> picked.value < |choices|
    ensures picked.None? <==> r.Cancelled?
    ensures r.Index? ==> r.i <= picked.value && choices[r.i] == choices[picked.value] &&
                         forall j :: 0 <= j < r.i ==> choices[j] != choices[picked.value]
  {
    match picked
    case None => Cancelled
    case Some(k) => Index(IndexOf(choices, choices[k]).value)
  }

  /** With distinct entries the index picked is the index returned. */
  lemma DistinctChoices(choices: seq<string>, k: nat)
    requires k < |choices|
    requires forall i, j :: 0 <= i < j < |choices| ==> choices[i] != choices[j]
    ensures PromptChoice(choices, Some(k)) == Index(k)
  {
  }
}

=== FILE: commands.dfy ===
/**
  * The command layer around the agent loop: which pending task is shown,
  * what happens to the saved loop state once the loop ends, how a run
  * resumes from it, and the command a sandbox runs.
  */
module Commands {
  import opened Wrappers
  import Text
  import Paths
  import opened Display
  import opened Agent
  import opened Registry

  // ---------------------------------------------------------------------
  // Next pending task
  // ---------------------------------------------------------------------

  /** A task of `PRD.json`; a missing key is `None`. */
  datatype Task = Task(id: Option<string>, name: Option<string>, status: Option<string>, priority: Option<int>)

  /** The sort key of a task: its priority, 999 when it has none. */
  function Rank(t: Task): int {
    t.priority.GetOr(999)
  }

  predicate IsDone(t: Task) {
    t.status == Some("done")
  }

  /** The number of tasks whose status is "done". */
  function DoneCount(ts: seq<Task>): (n: nat)
    ensures n <= |ts|
    ensures n == |ts| <==> forall i :: 0 <= i < |ts| ==> IsDone(ts[i])
  {
    if ts == [] then 0 else DoneCount(ts[..|ts| - 1]) + (if IsDone(ts[|ts| - 1]) then 1 else 0)
  }

  /** Task `i` comes before task `j` in the stable sort by rank. */
  predicate Before(ts: seq<Task>, i: int, j: int)
    requires 0 <= i < |ts| && 0 <= j < |ts|
  {
    Rank(ts[i]) < Rank(ts[j]) || (Rank(ts[i]) == Rank(ts[j]) && i < j)
  }

  /** A list of task positions in stable rank order. */
  predicate Ordered(ts: seq<Task>, order: seq<int>) {
    (forall k :: 0 <= k < |order| ==> 0 <= order[k] < |ts|) &&
    (forall k, l :: 0 <= k < l < |order| ==> Before(ts, order[k], order[l]))
  }

  /** Places position `i` into an ordered list of positions. */
  function InsertAt(ts: seq<Task>, i: int, order: seq<int>): (r: seq<int>)
    requires 0 <= i < |ts| && Ordered(ts, order) && i !in order
    ensures Ordered(ts, r)
    ensures forall x :: x in r <==> x == i || x in order
  {
    if order == [] then [i]
    else if Before(ts, i, order[0]) then [i] + order
    else
      assert order[0] in order;
      var rest := InsertAt(ts, i, order[1..]);
      forall l | 0 <= l < |rest|
        ensures Before(ts, order[0], rest[l])
      {
        if rest[l] != i {
          assert rest[l] in order[1..];
          var t :| 0 <= t < |order[1..]| && order[1..][t] == rest[l];
          assert order[t + 1] == rest[l];
        }
      }
      [order[0]] + rest
  }

  /** `sorted(range(n), key=rank)`: every position below `n` once, in stable rank order. */
  function ByRank(ts: seq<Task>, n: nat): (order: seq<int>)
    requires n <= |ts|
    ensures Ordered(ts, order)
    ensures forall x :: x in order <==> 0 <= x < n
  {
    if n == 0 then [] else InsertAt(ts, n - 1, ByRank(ts, n - 1))
  }

  /**
    * The task the display shows next: the first task of the stable sort by
    * priority whose status is not "done", as the position of that task.
    */
  method NextPending(ts: seq<Task>) returns (pick: Option<int>)
    ensures pick.None? <==> forall i :: 0 <= i < |ts| ==> IsDone(ts[i])
    ensures pick.Some? ==>
              0 <= pick.value < |ts| && !IsDone(ts[pick.value]) &&
              forall j :: 0 <= j < |ts| && !IsDone(ts[j]) && j != pick.value ==> Before(ts, pick.value, j)
  {
    var order := ByRank(ts, |ts|);
    var k := 0;
    while k < |order|
      invariant 0 <= k <= |order|
      invariant forall l :: 0 <= l < k ==> IsDone(ts[order[l]])
    {
      if !IsDone(ts[order[k]]) {
        pick := Some(order[k]);
        forall j | 0 <= j < |ts| && !IsDone(ts[j]) && j != order[k]
          ensures Before(ts, order[k], j)
        {
          assert j in order;
          var l :| 0 <= l < |order| && order[l] == j;
        }
        return;
      }
      k := k + 1;
    }
    forall i | 0 <= i < |ts|
      ensures IsDone(ts[i])
    {
      assert i in order;
      var l :| 0 <= l < |order| && order[l] == i;
    }
    pick := None;
  }

  /** Task `p` is pending and comes before every other pending task. */
  predicate FirstPendingAt(ts: seq<Task>, p: int) {
    0 <= p < |ts| && !IsDone(ts[p]) &&
    forall j :: 0 <= j < |ts| && !IsDone(ts[j]) && j != p ==> Before(ts, p, j)
  }

  /** At most one task is the first pending one: `Before` is a strict order. */
  lemma FirstPendingUnique(ts: seq<Task>, p: int, q: int)
    requires FirstPendingAt(ts, p) && FirstPendingAt(ts, q)
    ensures p == q
  {
  }

  /** The first position of `order` whose task is not done. */
  function FirstUndone(ts: seq<Task>, order: seq<int>): (k: Option<int>)
    requires forall l :: 0 <= l < |order| ==> 0 <= order[l] < |ts|
    ensures k.None? <==> forall l :: 0 <= l < |order| ==> IsDone(ts[order[l]])
    ensures k.Some? ==> exists l :: 0 <= l < |order| && order[l] == k.value && !IsDone(ts[k.value]) &&
                                    forall m :: 0 <= m < l ==> IsDone(ts[order[m]])
  {
    if order == [] then None
    else if !IsDone(ts[order[0]]) then Some(order[0])
    else
      var k := FirstUndone(ts, order[1..]);
      if k.Some? then
        var l :| 0 <= l < |order[1..]| && order[1..][l] == k.value && !IsDone(ts[k.value]) &&
                 forall m :: 0 <= m < l ==> IsDone(ts[order[1..][m]]);
        assert order[l + 1] == k.value && forall m :: 0 <= m < l + 1 ==> IsDone(ts[order[m]]);
        k
      else k
  }

  /** The first undone task of the stable sort by priority is the first pending task. */
  lemma FirstUndoneRanked(ts: seq<Task>, order: seq<int>, pick: Option<int>)
    requires Ordered(ts, order) && (forall x :: x in order <==> 0 <= x < |ts|)
    requires pick == FirstUndone(ts, order)
    ensures pick.None? <==> forall i :: 0 <= i < |ts| ==> IsDone(ts[i])
    ensures pick.Some? ==> FirstPendingAt(ts, pick.value)
  {
    if pick.None? {
      forall i | 0 <= i < |ts|
        ensures IsDone(ts[i])
      {
        assert i in order;
        var l :| 0 <= l < |order| && order[l] == i;
      }
    } else {
      var l :| 0 <= l < |order| && order[l] == pick.value && !IsDone(ts[pick.value]) &&
               forall m :: 0 <= m < l ==> IsDone(ts[order[m]]);
      forall j | 0 <= j < |ts| && !IsDone(ts[j]) && j != pick.value
        ensures Before(ts, pick.value, j)
      {
        assert j in order;
        var m :| 0 <= m < |order| && order[m] == j;
      }
    }
  }

  /** The pending task of the stable sort by priority, as a function of the tasks. */
  function FirstPending(ts: seq<Task>): (pick: Option<int>)
    ensures pick.None? <==> forall i :: 0 <= i < |ts| ==> IsDone(ts[i])
    ensures pick.Some? ==> FirstPendingAt(ts, pick.value)
  {
    var order := ByRank(ts, |ts|);
    var pick := FirstUndone(ts, order);
    FirstUndoneRanked(ts, order, pick);
    pick
  }

  /** The task line of a pending task: "[done+1/total] name", the name "Unknown" when missing. */
  function PendingLabel(ts: seq<Task>, t: Task): string {
    "[" + Text.NatToString(DoneCount(ts) + 1) + "/" + Text.NatToString(|ts|) + "] " + t.name.GetOr("Unknown")
  }

  /** The task line once every task is done. */
  function CompleteLabel(ts: seq<Task>): string {
    "[" + Text.NatToString(DoneCount(ts)) + "/" + Text.NatToString(|ts|) + "] All tasks complete!"
  }

  /**
    * The task line after an iteration, when `PRD.json` reads as `tasks`:
    * the next pending task, or the completion line when none is pending.
    */
  method ShowNextTask(display: AgentDisplay, tasks: Option<seq<Task>>)
    modifies display
    ensures display.activities == old(display.activities) && display.Flags() == old(display.Flags())
    ensures tasks.None? ==> display.stats == old(display.stats)
    ensures tasks.Some? && (forall i :: 0 <= i < |tasks.value| ==> IsDone(tasks.value[i])) ==>
              display.stats == old(display.stats).(currentTask := CompleteLabel(tasks.value), currentTaskId := "")
    ensures tasks.Some? && (exists i :: 0 <= i < |tasks.value| && !IsDone(tasks.value[i])) ==>
              exists p :: 0 <= p < |tasks.value| && !IsDone(tasks.value[p]) &&
                          (forall j :: 0 <= j < |tasks.value| && !IsDone(tasks.value[j]) && j != p ==> Before(tasks.value, p, j)) &&
                          display.stats == old(display.stats).(currentTask := PendingLabel(tasks.value, tasks.value[p]),
                                                               currentTaskId := tasks.value[p].id.GetOr(""))
    ensures TaskLine(display.stats) == if Shown(tasks).Some? then Shown(tasks).value else TaskLine(old(display.stats))
  {
    if tasks.None? {
      return;
    }
    var ts := tasks.value;
    var pick := NextPending(ts);
    if pick.Some? {
      FirstPendingUnique(ts, pick.value, FirstPending(ts).value);
    }
    if pick.Some? {
      display.SetTask(PendingLabel(ts, ts[pick.value]), ts[pick.value].id.GetOr(""));
    } else {
      display.SetTask(CompleteLabel(ts), "");
    }
  }

  /**
    * The task line `on_iteration_complete` sets when `PRD.json` reads as
    * `tasks`: none when it cannot be read, else the line `ShowNextTask` shows.
    */
  function Shown(tasks: Option<seq<Task>>): (line: Option<(string, string)>)
    ensures line.None? <==> tasks.None?
    ensures tasks.Some? && (forall i :: 0 <= i < |tasks.value| ==> IsDone(tasks.value[i])) ==>
              line == Some((CompleteLabel(tasks.value), ""))
    ensures tasks.Some? && (exists i :: 0 <= i < |tasks.value| && !IsDone(tasks.value[i])) ==>
              exists p :: FirstPendingAt(tasks.value, p) &&
                          line == Some((PendingLabel(tasks.value, tasks.value[p]), tasks.value[p].id.GetOr("")))
  {
    if tasks.None? then None
    else
      var ts := tasks.value;
      match FirstPending(ts)
      case Some(p) => Some((PendingLabel(ts, ts[p]), ts[p].id.GetOr("")))
      case None => Some((CompleteLabel(ts), ""))
  }

  /**
    * The task line set before the loop from `PRD.json` as then read: the
    * first pending task, its id "?" when missing; none when the file cannot
    * be read or every task is done.
    */
  function StartLine(tasks: Option<seq<Task>>): (line: Option<(string, string)>)
    ensures line.Some? <==> tasks.Some? && exists i :: 0 <= i < |tasks.value| && !IsDone(tasks.value[i])
    ensures line.Some? ==>
              exists p :: FirstPendingAt(tasks.value, p) &&
                          line.value == (PendingLabel(tasks.value, tasks.value[p]), tasks.value[p].id.GetOr("?"))
  {
    if tasks.None? then None
    else
      var ts := tasks.value;
      match FirstPending(ts)
      case Some(p) => Some((PendingLabel(ts, ts[p]), ts[p].id.GetOr("?")))
      case None => None
  }

  /** The callback of `_run_loop_agent_async`: after iteration `i` it re-reads `PRD.json`, which then reads as `prd(i)`. */
  function Callback(prd: int -> Option<seq<Task>>): (int, RunResult) -> Option<(string, string)> {
    (i, r) => Shown(prd(i))
  }

  /** With every task done the line counts all of them: "[n/n] All tasks complete!". */
  lemma AllDoneLabel(ts: seq<Task>)
    requires forall i :: 0 <= i < |ts| ==> IsDone(ts[i])
    ensures CompleteLabel(ts) == "[" + Text.NatToString(|ts|) + "/" + Text.NatToString(|ts|) + "] All tasks complete!"
  {
  }

  // ---------------------------------------------------------------------
  // Saved loop state after the loop
  // ---------------------------------------------------------------------

  /**
    * What the end of `_run_loop_agent_async` does: `save` is the iteration
    * to resume from when the state is saved, `None` when it is cleared.
    */
  datatype AfterRun = AfterRun(save: Option<int>, code: int)

  /**
    * The exit dispatch: a pause or an error saves the next iteration to run,
    * `start + count` after `count` results; a gutter or an error fails.
    */
  function Dispatch(reason: Exit, start: int, count: int): (a: AfterRun)
    ensures a.save.Some? <==> reason == Paused || reason == Error
    ensures a.save.Some? ==> a.save.value == start + count
    ensures a.code == 1 <==> reason == Gutter || reason == Error
    ensures a.code == 0 || a.code == 1
  {
    if reason == Paused then AfterRun(Some(start + count), 0)
    else if reason == Stopped then AfterRun(None, 0)
    else if reason == Complete then AfterRun(None, 0)
    else if reason == Gutter then AfterRun(None, 1)
    else if reason == Error then AfterRun(Some(start + count), 1)
    else AfterRun(None, 0)
  }

  /** The state record a paused or failed run saves: always with status "paused". */
  function Saved(next: int, total: int, loopType: string, taskId: string, task: string, now: string): LoopState {
    LoopState(next, total, loopType, "paused", taskId, task, now)
  }

  /** The registry map after the dispatch `a` for key `k`. */
  function Applied(m: Projects, k: string, a: AfterRun, total: int, loopType: string, taskId: string, task: string, now: string): Projects {
    if a.save.Some? then SaveState(m, k, Saved(a.save.value, total, loopType, taskId, task, now)) else ClearState(m, k)
  }

  /** The exit dispatch carried out on the registry. */
  method Persist(reg: ProjectRegistry, fs: Paths.FileSystem, target: Paths.Path, reason: Exit, start: int, count: int,
                 total: int, loopType: string, taskId: string, task: string, now: string)
    returns (code: int)
    requires reg.Valid()
    modifies reg
    ensures reg.Valid()
    ensures code == Dispatch(reason, start, count).code
    ensures Load(reg.file) ==
            Applied(Load(old(reg.file)), Key(fs, target), Dispatch(reason, start, count), total, loopType, taskId, task, now)
  {
    if reason == Paused {
      reg.SaveLoopState(fs, target, Saved(start + count - 1 + 1, total, loopType, taskId, task, now));
      return 0;
    } else if reason == Stopped {
      var _ := reg.ClearLoopState(fs, target);
      return 0;
    } else if reason == Complete {
      var _ := reg.ClearLoopState(fs, target);
      return 0;
    } else if reason == Gutter {
      var _ := reg.ClearLoopState(fs, target);
      return 1;
    } else if reason == Error {
      reg.SaveLoopState(fs, target, Saved(start + count - 1 + 1, total, loopType, taskId, task, now));
      return 1;
    } else {
      var _ := reg.ClearLoopState(fs, target);
      return 0;
    }
  }

  /** The registry map after `update_last_run`. */
  function Touched(m: Projects, k: string, now: string): Projects {
    if k in m then m[k := m[k].(lastRun := Some(now))] else m
  }

  /** The task line a run saves: set before the loop from `initial`, then by the callback after each iteration. */
  function SavedLine(line: (string, string), initial: Option<seq<Task>>, prd: int -> Option<seq<Task>>, start: int,
                     results: seq<RunResult>): (string, string)
  {
    TaskLineAfter(if StartLine(initial).Some? then StartLine(initial).value else line, start, results, Callback(prd))
  }

  /**
    * The saved task is the first pending task of `PRD.json` as read after
    * the last iteration; when that read fails, it is the line an earlier
    * read set, or the one set before the loop.
    */
  lemma SavedLineLastRead(line: (string, string), initial: Option<seq<Task>>, prd: int -> Option<seq<Task>>, start: int,
                          results: seq<RunResult>)
    ensures results != [] && prd(start + |results| - 1).Some? ==>
              SavedLine(line, initial, prd, start, results) == Shown(prd(start + |results| - 1)).value
    ensures results != [] && prd(start + |results| - 1).None? ==>
              SavedLine(line, initial, prd, start, results) == SavedLine(line, initial, prd, start, results[..|results| - 1])
    ensures (forall i :: start <= i < start + |results| ==> prd(i).None?) ==>
              SavedLine(line, initial, prd, start, results) == if StartLine(initial).Some? then StartLine(initial).value else line
  {
    var first := if StartLine(initial).Some? then StartLine(initial).value else line;
    if results != [] {
      TaskLineUnfold(first, start, results, Callback(prd));
    }
    if forall i :: start <= i < start + |results| ==> prd(i).None? {
      forall k | 0 <= k < |results|
        ensures Callback(prd)(start + k, results[k]).None?
      {
        assert prd(start + k).None?;
      }
      TaskLineUnset(first, start, results, Callback(prd));
    }
  }

  /**
    * `_run_loop_agent_async` as far as the registry and the task line see
    * it: the last run is stamped, a run from iteration 1 clears stale state,
    * the task line is set from `PRD.json` as read before the loop
    * (`initial`) and after each iteration (`prd(i)`), the loop runs with the
    * keyboard listener, and the exit dispatch saves or clears.
    */
  method RunLoopAgent(reg: ProjectRegistry, fs: Paths.FileSystem, target: Paths.Path, iterations: int, loopType: string,
                      start: int, cfg: AgentConfig, prompt: string, sc: Script, display: AgentDisplay, now: string,
                      initial: Option<seq<Task>>, prd: int -> Option<seq<Task>>,
                      ghost outcome: (int, bool) -> RunResult, ghost left: (int, bool) -> bool, ghost ends: (int, bool) -> bool)
    returns (code: int, ghost e: LoopEnd)
    requires reg.Valid() && display.Valid()
    requires Follows(cfg, sc, start, true, display.gutterRequested, outcome, left, ends)
    requires RunEnds(start, iterations, left, ends, display.interveneRequested)
    modifies reg, display
    ensures e == LoopRun(start, iterations, outcome, left, true, old(display.stopRequested), old(display.paused), old(display.interveneRequested),
                         sc.stopKey, sc.pauseKey, [])
    ensures code == Dispatch(e.reason, start, |e.results|).code
    ensures var k := Key(fs, target);
            var m := Touched(Load(old(reg.file)), k, now);
            var line := SavedLine(TaskLine(old(display.stats)), initial, prd, start, e.results);
            Load(reg.file) == Applied(if start == 1 then ClearState(m, k) else m, k, Dispatch(e.reason, start, |e.results|),
                                      iterations, loopType, line.1, line.0, now)
    ensures TaskLine(display.stats) == SavedLine(TaskLine(old(display.stats)), initial, prd, start, e.results)
  {
    Prepare(reg, fs, target, start, now);
    var first := StartLine(initial);
    if first.Some? {
      display.SetTask(first.value.0, first.value.1);
    }
    var results, reason, calls;
    results, reason, calls, e := RunLoop(cfg, prompt, sc, start, iterations, display, outcome, left, ends, Callback(prd));
    code := Persist(reg, fs, target, reason, start, |results|, iterations, loopType,
                    display.stats.currentTaskId, display.stats.currentTask, now);
  }

  /** Before the loop: the project's `last_run` is stamped and, on a fresh start, its saved state cleared. */
  method Prepare(reg: ProjectRegistry, fs: Paths.FileSystem, target: Paths.Path, start: int, now: string)
    requires reg.Valid()
    modifies reg
    ensures reg.Valid()
    ensures var k := Key(fs, target);
            var m := Touched(Load(old(reg.file)), k, now);
            Load(reg.file) == if start == 1 then ClearState(m, k) else m
  {
    reg.UpdateLastRun(fs, target, now);
    if start == 1 {
      var _ := reg.ClearLoopState(fs, target);
    }
  }

  /** A paused or failed run saves an iteration after the start and at most one past the last. */
  lemma SavedIterationInRange(i: int, max: int, outcome: (int, bool) -> RunResult, left: (int, bool) -> bool, hasDisplay: bool,
                              stop: bool, pause: bool, latch: bool, stopKey: int -> bool, pauseKey: int -> bool)
    requires i <= max
    ensures var e := LoopRun(i, max, outcome, left, hasDisplay, stop, pause, latch, stopKey, pauseKey, []);
            var a := Dispatch(e.reason, i, |e.results|);
            a.save.Some? ==> i < a.save.value <= max + 1
  {
    var e := LoopRun(i, max, outcome, left, hasDisplay, stop, pause, latch, stopKey, pauseKey, []);
    LoopRunResults(i, max, outcome, left, hasDisplay, stop, pause, latch, stopKey, pauseKey, [], e);
    LoopRunLength(i, max, outcome, left, hasDisplay, stop, pause, latch, stopKey, pauseKey, [], e);
  }

  /**
    * A pause seen on the last iteration saves `total + 1`; resuming from it
    * runs no iteration, ends with "max_iterations" and so clears the state
    * and succeeds.
    */
  lemma PauseOnLastIteration(start: int, total: int, outcome: (int, bool) -> RunResult, outcome': (int, bool) -> RunResult,
                             left: (int, bool) -> bool, stop: bool, pause: bool, latch: bool, stop': bool, pause': bool, latch': bool,
                             stopKey: int -> bool, pauseKey: int -> bool)
    requires start <= total
    requires var e := LoopRun(start, total, outcome, left, true, stop, pause, latch, stopKey, pauseKey, []);
             e.reason == Paused && |e.results| == total - start + 1
    ensures var e := LoopRun(start, total, outcome, left, true, stop, pause, latch, stopKey, pauseKey, []);
            Dispatch(e.reason, start, |e.results|).save == Some(total + 1)
    ensures var again := LoopRun(total + 1, total, outcome', left, true, stop', pause', latch', stopKey, pauseKey, []);
            again.results == [] && again.reason == MaxIterations &&
            Dispatch(again.reason, total + 1, 0) == AfterRun(None, 0)
  {
  }

  // ---------------------------------------------------------------------
  // Resuming
  // ---------------------------------------------------------------------

  /** `args.iterations or 10`. */
  function IterationsOr10(n: Option<int>): (r: int)
    ensures n.Some? && n.value != 0 ==> r == n.value
    ensures n.None? || n.value == 0 ==> r == 10
  {
    if n.Some? && n.value != 0 then n.value else 10
  }

  /** How `ralph run` starts the loop: first iteration, iteration count, loop type, and whether it cleared the saved state. */
  datatype Plan = Plan(start: int, iterations: int, loopType: string, cleared: bool)

  predicate Resumable(saved: Option<LoopState>) {
    saved.Some? && saved.value.status == "paused"
  }

  /**
    * `cmd_run` without `--once`: a paused state resumes with `--resume`, or
    * when the operator confirms; declining clears it and starts at 1;
    * without a paused state the run starts at 1.
    */
  function RunPlan(resume: bool, saved: Option<LoopState>, argIterations: Option<int>, loopType: string, confirm: bool): (p: Plan)
    ensures Resumable(saved) && (resume || confirm) ==>
              p == Plan(saved.value.iteration, saved.value.totalIterations, saved.value.loopType, false)
    ensures !(Resumable(saved) && (resume || confirm)) ==> p.start == 1 && p.iterations == IterationsOr10(argIterations) && p.loopType == loopType
    ensures p.cleared <==> Resumable(saved) && !resume && !confirm
  {
    if resume && Resumable(saved) then
      Plan(saved.value.iteration, saved.value.totalIterations, saved.value.loopType, false)
    else if Resumable(saved) && !resume then
      if confirm then Plan(saved.value.iteration, saved.value.totalIterations, saved.value.loopType, false)
      else Plan(1, IterationsOr10(argIterations), loopType, true)
    else Plan(1, IterationsOr10(argIterations), loopType, false)
  }

  /**
    * What the resume menu of `_flow_existing_project` leads to: a resumed
    * run, a fresh start (after clearing the saved state when asked), or
    * nothing.
    */
  datatype MenuOutcome = ResumeRun(start: int, iterations: int, loopType: string) | StartFresh(cleared: bool) | Skip

  function ResumeMenu(saved: Option<LoopState>, choice: int): (r: MenuOutcome)
    ensures !Resumable(saved) ==> r == StartFresh(false)
    ensures Resumable(saved) && choice == 0 ==>
              r == ResumeRun(saved.value.iteration, saved.value.totalIterations, saved.value.loopType)
    ensures Resumable(saved) && choice == 1 ==> r == StartFresh(true)
    ensures Resumable(saved) && choice != 0 && choice != 1 ==> r == Skip
  {
    if !Resumable(saved) then StartFresh(false)
    else if choice == 0 then ResumeRun(saved.value.iteration, saved.value.totalIterations, saved.value.loopType)
    else if choice == 1 then StartFresh(true)
    else Skip
  }

  /**
    * Whatever the registry held, a paused run resumes where the saved
    * state says, and the state it saved is what `RunPlan` reads back.
    */
  lemma ResumeAfterPause(m: Projects, k: string, next: int, total: int, loopType: string, taskId: string, task: string, now: string,
                         argIterations: Option<int>, otherType: string, confirm: bool)
    requires k in m
    ensures var m' := SaveState(m, k, Saved(next, total, loopType, taskId, task, now));
            RunPlan(true, StateOf(m', k), argIterations, otherType, confirm) == Plan(next, total, loopType, false) &&
            ResumeMenu(StateOf(m', k), 0) == ResumeRun(next, total, loopType)
  {
  }

  // ---------------------------------------------------------------------
  // Sandbox command
  // ---------------------------------------------------------------------

  /** The command `_run_in_docker` runs: `ralph run .` with the iteration count or `--once`, then the loop type unless default. */
  function DockerCommand(iterations: Option<int>, once: bool, loopType: string): (cmd: string)
    ensures once ==> Text.StartsWith(cmd, "ralph run . --once")
    ensures !once ==> Text.StartsWith(cmd, "ralph run . -n " + Text.IntToString(IterationsOr10(iterations)))
    ensures loopType == "default" ==> cmd == (if once then "ralph run . --once"
                                              else "ralph run . -n " + Text.IntToString(IterationsOr10(iterations)))
    ensures loopType != "default" ==>
              cmd == (if once then "ralph run . --once" else "ralph run . -n " + Text.IntToString(IterationsOr10(iterations))) +
                     " --type " + loopType
  {
    var base := if once then "ralph run . --once" else "ralph run . -n " + Text.IntToString(IterationsOr10(iterations));
    if loopType != "default" then base + " --type " + loopType else base
  }

  /** A loop type other than the default adds exactly ` --type <type>` to the default command. */
  lemma DockerTypeSuffix(iterations: Option<int>, once: bool, loopType: string)
    requires loopType != "default"
    ensures DockerCommand(iterations, once, loopType) == DockerCommand(iterations, once, "default") + " --type " + loopType
  {
  }
}

=== FILE: config.dfy ===
/**
  * Global settings: the defaults, overlaid key by key with whatever the
  * settings file holds. A settings file that is missing, unreadable, not
  * JSON or not a JSON object leaves the defaults as they are.
  */
module Config {
  import opened Wrappers
  import opened Json

  /** The built-in settings. */
  const DEFAULT_CONFIG: Object := map[
    "spec_model" := JStr("claude-opus-4-5-20251101"),
    "loop_model" := JStr("claude-sonnet-4-5-20250929"),
    "context_limit" := JNum(200000.0),
    "rotate_threshold" := JNum(0.8),
    "auto_gutter" := JBool(true),
    "max_iterations" := JNum(20.0),
    "plan_messages_limit" := JNum(225.0),
    "other_models" := JObj(map[
      "spec_model_options" := JArr([
        JStr("claude-opus-4-5-20251101 (Default)"),
        JStr("claude-sonnet-4-5-20250929"),
        JStr("claude-sonnet-4-20250514")]),
      "loop_model_options" := JArr([
        JStr("claude-sonnet-4-5-20250929 (Default)"),
        JStr("claude-opus-4-5-20251101"),
        JStr("claude-sonnet-4-20250514")])])
  ]

  /**
    * The settings file as loading finds it: absent, present but unreadable,
    * or read, with its text either parsed to a JSON value or not JSON.
    */
  datatype SettingsFile = Absent | Unreadable | Read(parsed: Option<Json>)

  /** The settings the file contributes: its entries when it holds a JSON object, else none. */
  function UserSettings(file: SettingsFile): (user: Object)
    ensures file.Read? && file.parsed.Some? && file.parsed.value.JObj? ==> user == file.parsed.value.fields
    ensures !(file.Read? && file.parsed.Some? && file.parsed.value.JObj?) ==> user == map[]
  {
    if file.Read? && file.parsed.Some? && file.parsed.value.JObj? then file.parsed.value.fields else map[]
  }

  /** `base` with every entry of `top` written over it. */
  function Overlay(base: Object, top: Object): (r: Object)
    ensures r.Keys == base.Keys + top.Keys
    ensures forall k :: k in top ==> r[k] == top[k]
    ensures forall k :: k in base && k !in top ==> r[k] == base[k]
  {
    base + top
  }

  /** Overlaying the same settings again changes nothing. */
  lemma OverlayIdempotent(base: Object, top: Object)
    ensures Overlay(Overlay(base, top), top) == Overlay(base, top)
  {
  }

  /**
    * `load_project_config`: a copy of the defaults, then each of the
    * file's settings written over it in turn.
    */
  method LoadProjectConfig(file: SettingsFile) returns (config: Object)
    ensures config == Overlay(DEFAULT_CONFIG, UserSettings(file))
  {
    config := DEFAULT_CONFIG;
    // Reading or parsing failures, and a value without `items()`, all leave the defaults.
    if !(file.Read? && file.parsed.Some? && file.parsed.value.JObj?) {
      return;
    }
    var user := file.parsed.value.fields;
    var todo := user.Keys;
    while todo != {}
      invariant todo <= user.Keys
      invariant config.Keys == DEFAULT_CONFIG.Keys + (user.Keys - todo)
      invariant forall k :: k in user && k !in todo ==> config[k] == user[k]
      invariant forall k :: k in DEFAULT_CONFIG && !(k in user && k !in todo) ==> config[k] == DEFAULT_CONFIG[k]
      decreases todo
    {
      var k :| k in todo;
      config := config[k := user[k]];
      todo := todo - {k};
    }
    assert config == Overlay(DEFAULT_CONFIG, user);
  }

  /**
    * `save_project_config`: the file then holds the settings as a JSON
    * object. The file is taken to read back as exactly the object written:
    * the `json.dump`/`json.loads` text encoding between them is not modelled,
    * so the round trip below rests on that.
    */
  function SaveProjectConfig(config: Object): (file: SettingsFile)
    ensures UserSettings(file) == config
  {
    Read(Some(JObj(config)))
  }

  /** Saving what was loaded and loading it again gives the same settings. */
  lemma SaveLoadRoundTrip(file: SettingsFile)
    ensures Overlay(DEFAULT_CONFIG, UserSettings(SaveProjectConfig(Overlay(DEFAULT_CONFIG, UserSettings(file)))))
            == Overlay(DEFAULT_CONFIG, UserSettings(file))
  {
    var c := Overlay(DEFAULT_CONFIG, UserSettings(file));
    assert Overlay(DEFAULT_CONFIG, c) == c;
  }

  /** `get_config_value`: the loaded setting when present, else the caller's default. */
  method GetConfigValue(file: SettingsFile, key: string, default: Json) returns (v: Json)
    ensures key in UserSettings(file) ==> v == UserSettings(file)[key]
    ensures key !in UserSettings(file) && key in DEFAULT_CONFIG ==> v == DEFAULT_CONFIG[key]
    ensures key !in UserSettings(file) && key !in DEFAULT_CONFIG ==> v == default
  {
    var config := LoadProjectConfig(file);
    v := Get(config, key, default);
  }
}

=== FILE: display.dfy ===
/**
  * The live status display of an agent run: the operator's control latches,
  * per-iteration and cumulative statistics, a bounded activity log and the
  * text helpers that shorten tool inputs for it.
  *
  * Costs, context and plan-usage percentages, timestamps and rendering are
  * not part of this model (see README).
  */
module Display {
  import opened Wrappers
  import opened Json
  import Text

  const MIN_PANEL_WIDTH := 100
  const MAX_PANEL_WIDTH := 140
  /** How many activity entries the display keeps. */
  const MAX_ACTIVITIES := 20
  /** The icon of an activity whose key is unknown. */
  const DEFAULT_ICON := "•"

  /** `ICONS.get(key, "•")`. */
  function IconFor(key: string): (icon: string)
    ensures icon == DEFAULT_ICON <==> key !in ICONS
  {
    if key in ICONS then ICONS[key] else DEFAULT_ICON
  }

  const ICONS: map<string, string> := map[
    "thinking" := "·", "tool" := "›", "tool_result" := "«", "success" := "v",
    "error" := "x", "warning" := "!", "info" := "i", "task" := "»",
    "file_read" := "r", "file_write" := "w", "bash" := "$", "search" := "?",
    "commit" := "c", "complete" := "★", "pause" := "||", "stop" := "x"]

  /** The icon key logged for a tool call. */
  function ToolIcon(tool: string): (key: string)
    ensures key in ICONS
    ensures key == "tool" <==> tool !in {"Read", "Write", "Edit", "Bash", "Glob", "Grep", "TodoWrite"}
  {
    match tool
    case "Read" => "file_read"
    case "Write" => "file_write"
    case "Edit" => "file_write"
    case "Bash" => "bash"
    case "Glob" => "search"
    case "Grep" => "search"
    case "TodoWrite" => "task"
    case _ => "tool"
  }

  /** The activity panel's width for a terminal of `termWidth` columns. */
  function PanelWidth(termWidth: int): (w: int)
    ensures MIN_PANEL_WIDTH <= w <= MAX_PANEL_WIDTH
    ensures MIN_PANEL_WIDTH <= termWidth - 4 <= MAX_PANEL_WIDTH ==> w == termWidth - 4
  {
    var inner := if termWidth - 4 < MAX_PANEL_WIDTH then termWidth - 4 else MAX_PANEL_WIDTH;
    if inner < MIN_PANEL_WIDTH then MIN_PANEL_WIDTH else inner
  }

  /**
    * `int(panel_width * 0.4)`, taken as the exact `2 * width / 5`: the
    * floating-point product is not modelled.
    */
  function MaxDetailLen(panelWidth: int): (n: int)
    ensures MIN_PANEL_WIDTH <= panelWidth <= MAX_PANEL_WIDTH ==> 40 <= n <= 56
  {
    (2 * panelWidth) / 5
  }

  predicate EndsWith(s: string, t: string) {
    |t| <= |s| && s[|s| - |t|..] == t
  }

  /** Every tail of the parts of `s.split(sep)`, joined again, ends `s`. */
  lemma {:induction false} SplitTailIsSuffix(s: string, sep: char, k: nat)
    requires k < |Text.Split(s, sep)|
    ensures EndsWith(s, Text.Join(Text.Split(s, sep)[k..], [sep]))
    decreases |s|
  {
    var parts := Text.Split(s, sep);
    if k == 0 {
      Text.JoinSplit(s, sep);
      assert parts[0..] == parts;
    } else if s != [] {
      var rest := Text.Split(s[1..], sep);
      if s[0] == sep {
        assert parts[k..] == rest[k - 1..];
        SplitTailIsSuffix(s[1..], sep, k - 1);
      } else {
        assert parts[k..] == rest[k..];
        SplitTailIsSuffix(s[1..], sep, k);
      }
      var t := Text.Join(parts[k..], [sep]);
      assert s[1..][|s[1..]| - |t|..] == s[|s| - |t|..];
    }
  }

  /** `"/".join(path.split("/")[-2:])`: the last two `/`-components of `path`, which end it. */
  function LastTwo(path: string): (t: string)
    requires |Text.Split(path, '/')| >= 2
    ensures EndsWith(path, t)
  {
    var parts := Text.Split(path, '/');
    SplitTailIsSuffix(path, '/', |parts| - 2);
    Text.Join(parts[|parts| - 2..], "/")
  }

  /** `.../` and the last two components of `path` fit in `maxLen` characters. */
  predicate TailFits(path: string, maxLen: int) {
    |Text.Split(path, '/')| >= 2 && |LastTwo(path)| + 4 <= maxLen
  }

  /**
    * `_truncate_path`: the path itself when it fits; otherwise `.../` and its
    * last two `/`-components when those fit; otherwise `...` and the last
    * `maxLen - 3` characters.
    */
  function TruncatePath(path: string, maxLen: int): (r: string)
    ensures |path| <= maxLen ==> r == path
    ensures |path| > maxLen && TailFits(path, maxLen) ==> r == ".../" + LastTwo(path)
    ensures |path| > maxLen && !TailFits(path, maxLen) && maxLen > 3 ==> r == "..." + path[|path| - (maxLen - 3)..]
    ensures |path| > maxLen ==>
              (Text.StartsWith(r, ".../") && EndsWith(path, r[4..])) ||
              (Text.StartsWith(r, "...") && EndsWith(path, r[3..]))
    ensures maxLen > 3 ==> |r| <= maxLen
  {
    if |path| <= maxLen then path
    else if TailFits(path, maxLen) then ".../" + LastTwo(path)
    else "..." + Text.Suffix(path, -(maxLen - 3))
  }

  /** `" ".join(text.split())`, cut to `limit` characters plus "..." when longer. */
  function Abbreviate(text: string, limit: nat): (r: string)
    ensures |r| <= limit + 3
    ensures var cleaned := Text.CollapseSpaces(text);
            if |cleaned| <= limit then r == cleaned else r == cleaned[..limit] + "..."
  {
    var cleaned := Text.CollapseSpaces(text);
    if |cleaned| > limit then cleaned[..limit] + "..." else cleaned
  }

  /** A string in which no whitespace other than a single space occurs. */
  predicate SingleLine(s: string) {
    forall i :: 0 <= i < |s| ==> s[i] == ' ' || !Text.IsSpace(s[i])
  }

  lemma {:induction false} JoinWordsSingleLine(ws: seq<string>)
    requires forall i :: 0 <= i < |ws| ==> forall c :: c in ws[i] ==> !Text.IsSpace(c)
    ensures SingleLine(Text.Join(ws, " "))
  {
    if |ws| > 1 {
      JoinWordsSingleLine(ws[1..]);
      var j := Text.Join(ws[1..], " ");
      assert Text.Join(ws, " ") == ws[0] + " " + j;
      forall i | 0 <= i < |ws[0] + " " + j|
        ensures (ws[0] + " " + j)[i] == ' ' || !Text.IsSpace((ws[0] + " " + j)[i])
      {
        if i < |ws[0]| {
          assert (ws[0] + " " + j)[i] == ws[0][i];
          assert ws[0][i] in ws[0];
        } else if i > |ws[0]| {
          assert (ws[0] + " " + j)[i] == j[i - |ws[0]| - 1];
        }
      }
    } else if |ws| == 1 {
      assert forall i :: 0 <= i < |ws[0]| ==> ws[0][i] in ws[0];
    }
  }

  /** Collapsed text holds no newline, tab or other whitespace but single spaces. */
  lemma CollapsedIsSingleLine(text: string)
    ensures SingleLine(Text.CollapseSpaces(text))
    ensures '\n' !in Text.CollapseSpaces(text)
  {
    JoinWordsSingleLine(Text.Words(text));
    var c := Text.CollapseSpaces(text);
    assert forall i :: 0 <= i < |c| ==> c[i] != '\n';
  }

  /** `_format_tool_input`: the short description shown next to a tool call. */
  function FormatToolInput(tool: string, input: Option<Object>, maxLen: int): (r: string)
    ensures input == None || input == Some(map[]) ==> r == ""
    ensures input.Some? && input.value != map[] && tool == "TodoWrite" ==> r == "(updating task list)"
    ensures input.Some? && input.value != map[] && tool == "Glob" && maxLen >= 3 ==>
              var p := GetText(input.value, "pattern");
              if |p| <= maxLen then r == p else r == p[..maxLen - 3] + "..." && |r| == maxLen
    ensures input.Some? && input.value != map[] && tool == "Bash" && maxLen >= 0 ==>
              r == Abbreviate(GetText(input.value, "command"), maxLen) &&
              SingleLine(r[..if |r| <= maxLen then |r| else maxLen]) && |r| <= maxLen + 3
    ensures input.Some? && input.value != map[] && tool in {"Read", "Write", "Edit"} ==>
              r == TruncatePath(GetText(input.value, "file_path"), maxLen)
    ensures input.Some? && input.value != map[] && tool == "Grep" && maxLen >= 4 ==>
              var p := GetText(input.value, "pattern");
              (if |p| > maxLen - 2 then r == "\"" + p[..maxLen - 4] + "...\"" else r == "\"" + p + "\"") &&
              |r| <= maxLen + 1 && Text.StartsWith(r, "\"") && r[|r| - 1] == '"'
    ensures input.Some? && input.value != map[] && tool !in {"Read", "Write", "Edit", "Bash", "Glob", "Grep", "TodoWrite"} ==>
              r == ""
  {
    if input == None || input.value == map[] then ""
    else
      var d := input.value;
      if tool == "Read" || tool == "Write" || tool == "Edit" then TruncatePath(GetText(d, "file_path"), maxLen)
      else if tool == "Bash" then
        var cmd := Text.CollapseSpaces(GetText(d, "command"));
        CollapsedIsSingleLine(GetText(d, "command"));
        if |cmd| > maxLen then Text.Prefix(cmd, maxLen) + "..." else cmd
      else if tool == "Glob" then
        var p := GetText(d, "pattern");
        if |p| <= maxLen then Text.Prefix(p, maxLen) else Text.Prefix(p, maxLen - 3) + "..."
      else if tool == "Grep" then
        var p := GetText(d, "pattern");
        if |p| > maxLen - 2 then "\"" + Text.Prefix(p, maxLen - 4) + "...\"" else "\"" + p + "\""
      else if tool == "TodoWrite" then "(updating task list)"
      else ""
  }

  /** One activity entry (its timestamp is not modelled). */
  datatype Activity = Activity(icon: string, message: string, detail: string)

  /** The log after `entry` is appended and all but the newest `MAX_ACTIVITIES` dropped. */
  function Logged(log: seq<Activity>, entry: Activity): (r: seq<Activity>)
    ensures |r| <= MAX_ACTIVITIES
    ensures 0 < |r| <= |log| + 1 && r[|r| - 1] == entry
    ensures r[..|r| - 1] == log[|log| + 1 - |r|..]
    ensures |log| < MAX_ACTIVITIES ==> r == log + [entry]
  {
    var all := log + [entry];
    if |all| > MAX_ACTIVITIES then all[|all| - MAX_ACTIVITIES..] else all
  }

  /** The log keeps the newest `MAX_ACTIVITIES` entries: all of them while there are fewer. */
  lemma LoggedCount(log: seq<Activity>, entry: Activity)
    ensures |Logged(log, entry)| == if |log| + 1 <= MAX_ACTIVITIES then |log| + 1 else MAX_ACTIVITIES
  {
  }

  /** The four operator latches. */
  datatype Latches = Latches(pause: bool, stop: bool, gutter: bool, intervene: bool)

  /** The `AgentStats` counters the core reads and writes. */
  datatype Stats = Stats(
    iteration: int,
    totalIterations: int,
    inputTokens: int,
    outputTokens: int,
    durationMs: int,
    numTurns: int,
    currentTask: string,
    currentTaskId: string,
    status: string,
    contextLimit: int,
    contextUsedTokens: int,
    cumulativeInputTokens: int,
    cumulativeOutputTokens: int,
    cumulativeDurationMs: int,
    sessionTurns: int,
    planMessagesLimit: int)

  function InitialStats(totalIterations: int, planLimit: int): Stats {
    Stats(0, totalIterations, 0, 0, 0, 0, "", "", "idle", 200000, 0, 0, 0, 0, 0, planLimit)
  }

  /** The stats after `update_stats`: a `None` argument leaves its field as it was. */
  function Updated(s: Stats, inputTokens: Option<int>, outputTokens: Option<int>, durationMs: Option<int>,
                   numTurns: Option<int>, contextUsedTokens: Option<int>, contextLimit: Option<int>): (r: Stats)
    ensures r.inputTokens == inputTokens.GetOr(s.inputTokens)
    ensures r.outputTokens == outputTokens.GetOr(s.outputTokens)
    ensures r.durationMs == durationMs.GetOr(s.durationMs)
    ensures r.numTurns == numTurns.GetOr(s.numTurns)
    ensures r.contextLimit == contextLimit.GetOr(s.contextLimit)
    ensures contextUsedTokens.Some? ==> r.contextUsedTokens == contextUsedTokens.value
    ensures contextUsedTokens.None? && inputTokens.Some? ==> r.contextUsedTokens == inputTokens.value
    ensures contextUsedTokens.None? && inputTokens.None? ==> r.contextUsedTokens == s.contextUsedTokens
    ensures r.(inputTokens := s.inputTokens, outputTokens := s.outputTokens, durationMs := s.durationMs,
               numTurns := s.numTurns, contextLimit := s.contextLimit, contextUsedTokens := s.contextUsedTokens) == s
  {
    s.(inputTokens := inputTokens.GetOr(s.inputTokens),
       outputTokens := outputTokens.GetOr(s.outputTokens),
       durationMs := durationMs.GetOr(s.durationMs),
       numTurns := numTurns.GetOr(s.numTurns),
       contextUsedTokens := if contextUsedTokens.Some? then contextUsedTokens.value
                            else inputTokens.GetOr(s.contextUsedTokens),
       contextLimit := contextLimit.GetOr(s.contextLimit))
  }

  /** The stats after `finish_iteration`: this iteration's counts move into the totals. */
  function Finished(s: Stats): (r: Stats)
    ensures r.cumulativeInputTokens == s.cumulativeInputTokens + s.inputTokens
    ensures r.cumulativeOutputTokens == s.cumulativeOutputTokens + s.outputTokens
    ensures r.cumulativeDurationMs == s.cumulativeDurationMs + s.durationMs
    ensures r.(cumulativeInputTokens := s.cumulativeInputTokens, cumulativeOutputTokens := s.cumulativeOutputTokens,
               cumulativeDurationMs := s.cumulativeDurationMs) == s
  {
    s.(cumulativeInputTokens := s.cumulativeInputTokens + s.inputTokens,
       cumulativeOutputTokens := s.cumulativeOutputTokens + s.outputTokens,
       cumulativeDurationMs := s.cumulativeDurationMs + s.durationMs)
  }

  /**
    * The cumulative totals after iterations that each start with
    * `set_iteration`, report their final counts once and finish.
    */
  function Totals(s: Stats, reports: seq<(int, int, int)>): (r: Stats)
    decreases |reports|
  {
    if reports == [] then s
    else
      var (i, o, d) := reports[0];
      Totals(Finished(Updated(s.(inputTokens := 0, outputTokens := 0, durationMs := 0),
                              Some(i), Some(o), Some(d), None, None, None)), reports[1..])
  }

  function SumInputs(reports: seq<(int, int, int)>): int {
    if reports == [] then 0 else reports[0].0 + SumInputs(reports[1..])
  }

  /** Per-iteration counts are reset, so the cumulative input total is the sum of the reports. */
  lemma {:induction false} TotalsSumInputs(s: Stats, reports: seq<(int, int, int)>)
    ensures Totals(s, reports).cumulativeInputTokens == s.cumulativeInputTokens + SumInputs(reports)
    decreases |reports|
  {
    if reports != [] {
      var (i, o, d) := reports[0];
      var s' := Finished(Updated(s.(inputTokens := 0, outputTokens := 0, durationMs := 0),
                                 Some(i), Some(o), Some(d), None, None, None));
      TotalsSumInputs(s', reports[1..]);
    }
  }

  /** `AgentDisplay`: the latches, statistics and activity log of one run. */
  class AgentDisplay {
    var stats: Stats
    var activities: seq<Activity>
    var paused: bool
    var stopRequested: bool
    var gutterRequested: bool
    /** The intervene latch the agent loop and keyboard handler rely on. */
    var interveneRequested: bool
    const mode: string
    const panelWidth: int

    ghost predicate Valid()
      reads this
    {
      MIN_PANEL_WIDTH <= panelWidth <= MAX_PANEL_WIDTH && |activities| <= MAX_ACTIVITIES
    }

    function Flags(): Latches
      reads this
    {
      Latches(paused, stopRequested, gutterRequested, interveneRequested)
    }

    /** `AgentDisplay(total_iterations, mode, plan_limit)` on a terminal `termWidth` columns wide. */
    constructor(totalIterations: int, mode: string, planLimit: int, termWidth: int)
      ensures Valid()
      ensures Flags() == Latches(false, false, false, false)
      ensures stats == InitialStats(totalIterations, planLimit) && activities == []
      ensures this.mode == mode && panelWidth == PanelWidth(termWidth)
    {
      stats := InitialStats(totalIterations, planLimit);
      activities := [];
      paused := false;
      stopRequested := false;
      gutterRequested := false;
      interveneRequested := false;
      this.mode := mode;
      panelWidth := PanelWidth(termWidth);
    }

    /** `log_activity(icon_key, message, detail)`. */
    method LogActivity(iconKey: string, message: string, detail: string)
      requires Valid()
      modifies this
      ensures Valid()
      ensures activities == Logged(old(activities), Activity(IconFor(iconKey), message, detail))
      ensures stats == old(stats) && Flags() == old(Flags())
    {
      ghost var log := activities;
      var entry := Activity(IconFor(iconKey), message, detail);
      activities := activities + [entry];
      if |activities| > MAX_ACTIVITIES {
        activities := activities[|activities| - MAX_ACTIVITIES..];
      }
      assert activities == Logged(log, entry);
    }

    method RequestPause()
      requires Valid()
      modifies this
      ensures Valid()
      ensures Flags() == old(Flags()).(pause := true)
      ensures activities == Logged(old(activities), Activity("||", "Pause requested - will pause after current iteration", ""))
      ensures stats == old(stats)
    {
      paused := true;
      LogActivity("pause", "Pause requested - will pause after current iteration", "");
    }

    method RequestStop()
      requires Valid()
      modifies this
      ensures Valid()
      ensures Flags() == old(Flags()).(stop := true)
      ensures activities == Logged(old(activities), Activity("x", "Stop requested - will stop after current iteration", ""))
      ensures stats == old(stats)
    {
      stopRequested := true;
      LogActivity("stop", "Stop requested - will stop after current iteration", "");
    }

    method RequestGutter()
      requires Valid()
      modifies this
      ensures Valid()
      ensures Flags() == old(Flags()).(gutter := true)
      ensures activities == Logged(old(activities), Activity("!", "GUTTER requested - will start fresh iteration", ""))
      ensures stats == old(stats)
    {
      gutterRequested := true;
      LogActivity("warning", "GUTTER requested - will start fresh iteration", "");
    }

    /** Sets the intervene latch; it writes no log entry. */
    method RequestIntervene()
      modifies this
      ensures Flags() == old(Flags()).(intervene := true)
      ensures activities == old(activities) && stats == old(stats)
    {
      interveneRequested := true;
    }

    predicate IsPauseRequested() reads this { paused }
    predicate IsStopRequested() reads this { stopRequested }
    predicate IsGutterRequested() reads this { gutterRequested }
    predicate IsInterveneRequested() reads this { interveneRequested }

    method ClearPause()
      modifies this
      ensures Flags() == old(Flags()).(pause := false)
      ensures activities == old(activities) && stats == old(stats)
    {
      paused := false;
    }

    method ClearStop()
      modifies this
      ensures Flags() == old(Flags()).(stop := false)
      ensures activities == old(activities) && stats == old(stats)
    {
      stopRequested := false;
    }

    method ClearGutter()
      modifies this
      ensures Flags() == old(Flags()).(gutter := false)
      ensures activities == old(activities) && stats == old(stats)
    {
      gutterRequested := false;
    }

    method ClearIntervene()
      modifies this
      ensures Flags() == old(Flags()).(intervene := false)
      ensures activities == old(activities) && stats == old(stats)
    {
      interveneRequested := false;
    }

    /** `set_iteration(i)`: a new iteration starts with zero per-iteration counts. */
    method SetIteration(i: int)
      modifies this
      ensures stats == old(stats).(iteration := i, inputTokens := 0, outputTokens := 0, durationMs := 0)
      ensures activities == old(activities) && Flags() == old(Flags())
    {
      stats := stats.(iteration := i, inputTokens := 0, outputTokens := 0, durationMs := 0);
    }

    method SetTask(task: string, taskId: string)
      modifies this
      ensures stats == old(stats).(currentTask := task, currentTaskId := taskId)
      ensures activities == old(activities) && Flags() == old(Flags())
    {
      stats := stats.(currentTask := task, currentTaskId := taskId);
    }

    method SetStatus(status: string)
      modifies this
      ensures stats == old(stats).(status := status)
      ensures activities == old(activities) && Flags() == old(Flags())
    {
      stats := stats.(status := status);
    }

    /** `update_stats(...)` without the cost argument. */
    method UpdateStats(inputTokens: Option<int>, outputTokens: Option<int>, durationMs: Option<int>,
                       numTurns: Option<int>, contextUsedTokens: Option<int>, contextLimit: Option<int>)
      modifies this
      ensures stats == Updated(old(stats), inputTokens, outputTokens, durationMs, numTurns, contextUsedTokens, contextLimit)
      ensures activities == old(activities) && Flags() == old(Flags())
    {
      if inputTokens.Some? {
        stats := stats.(inputTokens := inputTokens.value);
      }
      if outputTokens.Some? {
        stats := stats.(outputTokens := outputTokens.value);
      }
      if durationMs.Some? {
        stats := stats.(durationMs := durationMs.value);
      }
      if numTurns.Some? {
        stats := stats.(numTurns := numTurns.value);
      }
      if contextUsedTokens.Some? {
        stats := stats.(contextUsedTokens := contextUsedTokens.value);
      } else if inputTokens.Some? {
        stats := stats.(contextUsedTokens := inputTokens.value);
      }
      if contextLimit.Some? {
        stats := stats.(contextLimit := contextLimit.value);
      }
    }

    /** `finish_iteration()`. */
    method FinishIteration()
      modifies this
      ensures stats == Finished(old(stats))
      ensures activities == old(activities) && Flags() == old(Flags())
    {
      stats := stats.(cumulativeInputTokens := stats.cumulativeInputTokens + stats.inputTokens);
      stats := stats.(cumulativeOutputTokens := stats.cumulativeOutputTokens + stats.outputTokens);
      stats := stats.(cumulativeDurationMs := stats.cumulativeDurationMs + stats.durationMs);
    }

    /** `log_tool_use(tool, input)`. */
    method LogToolUse(tool: string, input: Option<Object>)
      requires Valid()
      modifies this
      ensures Valid()
      ensures activities == Logged(old(activities),
                Activity(IconFor(ToolIcon(tool)), tool, FormatToolInput(tool, input, MaxDetailLen(panelWidth))))
      ensures stats == old(stats) && Flags() == old(Flags())
    {
      LogActivity(ToolIcon(tool), tool, FormatToolInput(tool, input, MaxDetailLen(panelWidth)));
    }

    /** `log_thinking(text)`: collapsed and cut at 120 characters. */
    method LogThinking(text: string)
      requires Valid()
      modifies this
      ensures Valid()
      ensures activities == Logged(old(activities), Activity("·", Abbreviate(text, 120), ""))
      ensures stats == old(stats) && Flags() == old(Flags())
    {
      LogActivity("thinking", Abbreviate(text, 120), "");
    }

    /** `log_text(text)`: collapsed and cut at 150 characters. */
    method LogText(text: string)
      requires Valid()
      modifies this
      ensures Valid()
      ensures activities == Logged(old(activities), Activity("i", Abbreviate(text, 150), ""))
      ensures stats == old(stats) && Flags() == old(Flags())
    {
      LogActivity("info", Abbreviate(text, 150), "");
    }
  }
}

=== FILE: json.dfy ===
/**
  * JSON-shaped values: the tool inputs the engine hands to the permission
  * handlers and the display, and the contents of the settings file.
  * Numbers are exact rationals; Python's int/float distinction is not kept.
  */
module Json {

  datatype Json =
    | JNull
    | JBool(b: bool)
    | JNum(n: real)
    | JStr(s: string)
    | JArr(items: seq<Json>)
    | JObj(fields: map<string, Json>)

  /** A tool input or any other JSON object: a dictionary from keys to values. */
  type Object = map<string, Json>

  /** Python truthiness: `None`, `False`, `0`, `""`, `[]` and `{}` are false. */
  predicate Truthy(v: Json) {
    match v
    case JNull => false
    case JBool(b) => b
    case JNum(n) => n != 0.0
    case JStr(s) => s != ""
    case JArr(xs) => |xs| != 0
    case JObj(m) => |m| != 0
  }

  /** `d.get(key, default)` */
  function Get(d: Object, key: string, default: Json): (v: Json)
    ensures key in d ==> v == d[key]
    ensures key !in d ==> v == default
  {
    if key in d then d[key] else default
  }

  /** `d.get(key) or default`: the value when it is truthy, otherwise `default`. */
  function GetOrElse(d: Object, key: string, default: Json): (v: Json)
    ensures key in d && Truthy(d[key]) ==> v == d[key]
    ensures !(key in d && Truthy(d[key])) ==> v == default
  {
    var x := Get(d, key, JNull);
    if Truthy(x) then x else default
  }

  /**
    * `d.get(key, "")` read as text. A present value that is not a string is
    * read as "" (the display helpers only ever receive strings there).
    */
  function GetText(d: Object, key: string): (s: string)
    ensures key in d && d[key].JStr? ==> s == d[key].s
    ensures !(key in d && d[key].JStr?) ==> s == ""
  {
    if key in d && d[key].JStr? then d[key].s else ""
  }
}

=== FILE: paths.dfy ===
/**
  * Filesystem paths as the permission handlers see them: `pathlib.Path`
  * parsing, `resolve()` as normalisation over an abstract symlink table, and
  * `relative_to` as a component-wise prefix test.
  *
  * An absolute path is its sequence of components below the root `/`.
  * A symlink table maps the absolute path of a link to the fully resolved
  * path it points at.
  */
module Paths {
  import Text

  /** A `pathlib.PurePosixPath`: whether it starts at `/`, and its components. */
  datatype Path = Path(absolute: bool, parts: seq<string>)

  /** A component that names a directory entry: not empty, not `.` or `..`, no `/`. */
  predicate Name(x: string) {
    x != "" && x != "." && x != ".." && '/' !in x
  }

  predicate AllNames(parts: seq<string>) {
    forall i :: 0 <= i < |parts| ==> Name(parts[i])
  }

  /** What `Path(s).parts` can hold below the root: names and `..`. */
  predicate Parsed(parts: seq<string>) {
    forall i :: 0 <= i < |parts| ==> parts[i] == ".." || Name(parts[i])
  }

  /** Drops the empty and `.` components that `pathlib` collapses when parsing. */
  function Clean(parts: seq<string>): (r: seq<string>)
    requires forall i :: 0 <= i < |parts| ==> '/' !in parts[i]
    ensures Parsed(r)
    ensures |r| <= |parts|
  {
    if parts == [] then []
    else if parts[0] == "" || parts[0] == "." then Clean(parts[1..])
    else [parts[0]] + Clean(parts[1..])
  }

  lemma {:induction false} CleanNames(parts: seq<string>)
    requires AllNames(parts)
    ensures Clean(parts) == parts
  {
    if parts != [] {
      CleanNames(parts[1..]);
      assert [parts[0]] + parts[1..] == parts;
    }
  }

  /** `Path(s)`: absolute iff `s` starts with `/`; repeated `/` and `.` components vanish. */
  function Parse(s: string): (p: Path)
    ensures p.absolute <==> (|s| > 0 && s[0] == '/')
    ensures Parsed(p.parts)
  {
    Path(|s| > 0 && s[0] == '/', Clean(Text.Split(s, '/')))
  }

  /** `str(p)` for an absolute path. */
  function Render(parts: seq<string>): string {
    "/" + Text.Join(parts, "/")
  }

  /** Printing a path of plain names and parsing it back gives the same path. */
  lemma {:induction false} ParseRender(parts: seq<string>)
    requires AllNames(parts)
    ensures Parse(Render(parts)) == Path(true, parts)
  {
    var s := Render(parts);
    assert s[1..] == Text.Join(parts, "/");
    if parts == [] {
      assert Text.Split(s, '/') == [""] + [""];
      assert Clean([""] + [""]) == Clean([""]) == [];
    } else {
      Text.SplitJoin(parts, '/');
      assert Text.Split(s, '/') == [""] + parts;
      assert Clean([""] + parts) == Clean(parts);
      CleanNames(parts);
    }
  }

  /** The symlink table: absolute link path to the resolved path it points at. */
  type Links = map<seq<string>, seq<string>>

  /** A resolved path: plain names, and no prefix of it is a symlink. */
  predicate Real(links: Links, p: seq<string>) {
    AllNames(p) && forall k :: 0 <= k <= |p| ==> p[..k] !in links
  }

  /** The process's view of the filesystem: its working directory and its symlinks. */
  datatype FileSystem = FileSystem(cwd: seq<string>, links: Links)

  predicate ValidFs(fs: FileSystem) {
    Real(fs.links, fs.cwd) && forall l :: l in fs.links ==> Real(fs.links, fs.links[l])
  }

  /**
    * Walks the components `rest` from the resolved directory `cur`: `..`
    * drops the last component but never goes above the root, a name is
    * appended and, when the result is a symlink, replaced by its target.
    */
  function Walk(links: Links, cur: seq<string>, rest: seq<string>): seq<string>
    decreases |rest|
  {
    if rest == [] then cur
    else if rest[0] == ".." then Walk(links, if cur == [] then [] else cur[..|cur| - 1], rest[1..])
    else
      var next := cur + [rest[0]];
      Walk(links, if next in links then links[next] else next, rest[1..])
  }

  /** `p.resolve()`: a relative path is taken from the working directory. */
  function Resolve(fs: FileSystem, p: Path): seq<string> {
    Walk(fs.links, [], if p.absolute then p.parts else fs.cwd + p.parts)
  }

  /** `base / p`: an absolute `p` replaces the base. */
  function JoinPath(base: seq<string>, p: Path): Path {
    if p.absolute then p else Path(true, base + p.parts)
  }

  /** `p.relative_to(root)` succeeds: `root`'s components are a prefix of `p`'s. */
  predicate IsWithin(p: seq<string>, root: seq<string>) {
    |root| <= |p| && p[..|root|] == root
  }

  lemma IsWithinIff(p: seq<string>, root: seq<string>)
    ensures IsWithin(p, root) <==> exists suffix :: p == root + suffix
  {
    if IsWithin(p, root) {
      assert p == root + p[|root|..];
    }
  }

  /** Walking from a resolved directory always ends in a resolved path. */
  lemma {:induction false} WalkReal(links: Links, cur: seq<string>, rest: seq<string>)
    requires forall l :: l in links ==> Real(links, links[l])
    requires Real(links, cur) && Parsed(rest)
    ensures Real(links, Walk(links, cur, rest))
    decreases |rest|
  {
    if rest != [] {
      if rest[0] == ".." {
        var up := if cur == [] then [] else cur[..|cur| - 1];
        assert forall k :: 0 <= k <= |up| ==> up[..k] == cur[..k];
        WalkReal(links, up, rest[1..]);
      } else {
        var next := cur + [rest[0]];
        if next !in links {
          assert forall k :: 0 <= k < |next| ==> next[..k] == cur[..k];
          assert next[..|next|] == next;
        }
        WalkReal(links, if next in links then links[next] else next, rest[1..]);
      }
    }
  }

  /** Names whose every extension of `pre` is not a symlink are simply appended. */
  lemma {:induction false} WalkNames(links: Links, pre: seq<string>, p: seq<string>, rest: seq<string>)
    requires AllNames(p)
    requires forall k :: 0 < k <= |p| ==> pre + p[..k] !in links
    ensures Walk(links, pre, p + rest) == Walk(links, pre + p, rest)
    decreases |p|
  {
    if p != [] {
      assert (p + rest)[0] == p[0];
      assert (p + rest)[1..] == p[1..] + rest;
      assert pre + p[..1] == pre + [p[0]];
      var pre' := pre + [p[0]];
      assert pre' !in links;
      assert Walk(links, pre, p + rest) == Walk(links, pre', p[1..] + rest);
      forall k | 0 < k <= |p[1..]|
        ensures pre' + p[1..][..k] !in links
      {
        assert pre' + p[1..][..k] == pre + p[..k + 1];
      }
      WalkNames(links, pre', p[1..], rest);
      assert pre' + p[1..] == pre + p;
    } else {
      assert p + rest == rest && pre + p == pre;
    }
  }

  /** Resolving the working directory plus `parts` is walking `parts` from it. */
  lemma ResolveRelative(fs: FileSystem, parts: seq<string>)
    requires ValidFs(fs)
    ensures Resolve(fs, Path(false, parts)) == Walk(fs.links, fs.cwd, parts)
  {
    forall k | 0 < k <= |fs.cwd|
      ensures [] + fs.cwd[..k] !in fs.links
    {
      assert [] + fs.cwd[..k] == fs.cwd[..k];
    }
    WalkNames(fs.links, [], fs.cwd, parts);
    assert [] + fs.cwd == fs.cwd;
  }

  /** `resolve()` only returns resolved paths. */
  lemma ResolveIsReal(fs: FileSystem, p: Path)
    requires ValidFs(fs) && Parsed(p.parts)
    ensures Real(fs.links, Resolve(fs, p))
  {
    var parts := if p.absolute then p.parts else fs.cwd + p.parts;
    assert Parsed(parts) by {
      if !p.absolute {
        assert forall i :: 0 <= i < |fs.cwd| ==> parts[i] == fs.cwd[i];
        assert forall i :: |fs.cwd| <= i < |parts| ==> parts[i] == p.parts[i - |fs.cwd|];
      }
    }
    assert fs.cwd[..0] == [];
    WalkReal(fs.links, [], parts);
  }

  /** A resolved absolute path resolves to itself. */
  lemma ResolveRealIdentity(fs: FileSystem, r: seq<string>)
    requires Real(fs.links, r)
    ensures Resolve(fs, Path(true, r)) == r
  {
    forall k | 0 < k <= |r|
      ensures [] + r[..k] !in fs.links
    {
      assert [] + r[..k] == r[..k];
    }
    WalkNames(fs.links, [], r, []);
    assert r + [] == r && [] + r == r;
  }

  /** No symlink lives at or below `root`. */
  predicate NoLinksUnder(links: Links, root: seq<string>) {
    forall l :: l in links ==> !IsWithin(l, root)
  }

  /**
    * Below a directory free of symlinks, a path without `..` only appends
    * its names, so it never leaves that directory.
    */
  lemma {:induction false} WalkNamesUnder(links: Links, root: seq<string>, cur: seq<string>, rest: seq<string>)
    requires NoLinksUnder(links, root) && IsWithin(cur, root) && AllNames(rest)
    ensures Walk(links, cur, rest) == cur + rest
    ensures IsWithin(cur + rest, root)
    decreases |rest|
  {
    if rest != [] {
      var next := cur + [rest[0]];
      assert next[..|root|] == cur[..|root|];
      assert IsWithin(next, root);
      WalkNamesUnder(links, root, next, rest[1..]);
      assert next + rest[1..] == cur + rest;
    } else {
      assert cur + rest == cur;
    }
  }
}

=== FILE: permissions.dfy ===
/**
  * The four permission handlers the engine consults before every tool call.
  * Each is a pure decision from the tool name and its input object, given
  * the roots the handler was created with and the filesystem's symlinks.
  */
module Permissions {
  import opened Json
  import opened Paths
  import Text

  /**
    * The handler's answer. `Raises` stands for the `TypeError` that
    * `Path(file_path)` throws when the path argument is truthy but not a string.
    */
  datatype Decision =
    | Allow(updatedInput: Object)
    | Deny(message: string, interrupt: bool)
    | Raises

  const FILE_TOOLS: set<string> := {"Read", "Write", "Edit", "Glob", "Grep"}
  const READ_TOOLS: set<string> := {"Read", "Glob", "Grep"}
  const WRITE_TOOLS: set<string> := {"Write", "Edit"}

  /** The path a file tool names: `file_path`, or for Glob and Grep `path` defaulting to the root. */
  function PathArgument(tool: string, input: Object, root: seq<string>): (fp: Json)
    ensures (tool == "Glob" || tool == "Grep") && !(("path" in input) && Truthy(input["path"])) ==>
              fp == JStr(Render(root))
    ensures tool != "Glob" && tool != "Grep" && "file_path" !in input ==> fp == JNull
  {
    if tool == "Glob" || tool == "Grep" then GetOrElse(input, "path", JStr(Render(root)))
    else Get(input, "file_path", JNull)
  }

  /** Where a path argument lands: joined onto `base` when relative, then resolved. */
  function Target(fs: FileSystem, base: seq<string>, s: string): seq<string> {
    Resolve(fs, JoinPath(base, Parse(s)))
  }

  /**
    * The containment check shared by the project, read-only and interactive
    * handlers: a falsy path is not checked, any other must resolve inside `root`.
    */
  function Confine(fs: FileSystem, root: seq<string>, input: Object, fp: Json, suffix: string): (d: Decision)
    ensures d.Allow? ==> d.updatedInput == input
    ensures d.Deny? ==> !d.interrupt
    ensures d.Allow? <==> !Truthy(fp) || (fp.JStr? && IsWithin(Target(fs, root, fp.s), root))
    ensures d.Raises? <==> Truthy(fp) && !fp.JStr?
  {
    if !Truthy(fp) then Allow(input)
    else if !fp.JStr? then Raises
    else if IsWithin(Target(fs, root, fp.s), root) then Allow(input)
    else Deny("Access denied: " + fp.s + " is outside project directory" + suffix, false)
  }

  /** `create_project_permission_handler(project_path)` applied to one tool call. */
  function ProjectHandler(fs: FileSystem, projectPath: Path, tool: string, input: Object): (d: Decision)
    ensures tool !in FILE_TOOLS ==> d == Allow(input)
    ensures d.Allow? ==> d.updatedInput == input
    ensures d.Deny? ==> !d.interrupt
  {
    var root := Resolve(fs, projectPath);
    if tool !in FILE_TOOLS then Allow(input)
    else Confine(fs, root, input, PathArgument(tool, input, root), " (" + Render(root) + ")")
  }

  /** `create_readonly_permission_handler(project_path)` applied to one tool call. */
  function ReadOnlyHandler(fs: FileSystem, projectPath: Path, tool: string, input: Object): (d: Decision)
    ensures tool !in READ_TOOLS ==> d == Deny("Tool '" + tool + "' not allowed in read-only mode", false)
    ensures d.Allow? ==> d.updatedInput == input
    ensures d.Deny? ==> !d.interrupt
  {
    var root := Resolve(fs, projectPath);
    if tool !in READ_TOOLS then Deny("Tool '" + tool + "' not allowed in read-only mode", false)
    else Confine(fs, root, input, PathArgument(tool, input, root), "")
  }

  /**
    * `create_interactive_permission_handler(project_path, question_handler)`
    * applied to one tool call; `ask` is the question handler.
    */
  function InteractiveHandler(fs: FileSystem, projectPath: Path, ask: Json -> Json, tool: string, input: Object): (d: Decision)
    ensures tool == "AskUserQuestion" ==> d.Allow?
    ensures tool != "AskUserQuestion" && tool !in READ_TOOLS ==> d == Deny("Tool '" + tool + "' not allowed in spec mode", false)
    ensures d.Deny? ==> !d.interrupt
  {
    if tool == "AskUserQuestion" then
      var questions := Get(input, "questions", JArr([]));
      if Truthy(questions) then Allow(input["answers" := ask(questions)]) else Allow(input)
    else if tool !in READ_TOOLS then Deny("Tool '" + tool + "' not allowed in spec mode", false)
    else
      var root := Resolve(fs, projectPath);
      Confine(fs, root, input, PathArgument(tool, input, root), "")
  }

  const SPEC_TOOL_DENIAL_TAIL :=
    "' is not allowed during spec discovery. Only Read, Glob, Grep, Write (to workspace), and Edit (workspace) are allowed."

  /**
    * `create_spec_permission_handler(target_dir, workspace_dir)` applied to
    * one tool call: reads from the project or the workspace, writes only
    * into the workspace, with the written path made absolute.
    */
  function SpecHandler(fs: FileSystem, targetDir: Path, workspaceDir: Path, tool: string, input: Object): (d: Decision)
    ensures tool !in READ_TOOLS && tool !in WRITE_TOOLS ==> d == Deny("Tool '" + tool + SPEC_TOOL_DENIAL_TAIL, false)
    ensures tool in WRITE_TOOLS && !("file_path" in input && Truthy(input["file_path"])) ==>
              d == Deny("Write denied: No file path specified", false)
    ensures tool in READ_TOOLS && d.Allow? ==> d.updatedInput == input
    ensures d.Deny? ==> !d.interrupt
  {
    var target := Resolve(fs, targetDir);
    var workspace := Resolve(fs, workspaceDir);
    if tool in READ_TOOLS then
      var fp := PathArgument(tool, input, target);
      if !Truthy(fp) then Allow(input)
      else if !fp.JStr? then Raises
      else
        var p := Target(fs, target, fp.s);
        if IsWithin(p, target) || IsWithin(p, workspace) then Allow(input)
        else Deny("Read access denied: " + fp.s + " is outside allowed directories", false)
    else if tool in WRITE_TOOLS then
      var fp := Get(input, "file_path", JNull);
      if !Truthy(fp) then Deny("Write denied: No file path specified", false)
      else if !fp.JStr? then Raises
      else
        var p := Target(fs, workspace, fp.s);
        if IsWithin(p, workspace) then Allow(input["file_path" := JStr(Render(p))])
        else Deny("Write denied: During spec discovery, files can only be written to the Ralph workspace. Target: "
                  + fp.s + ". Allowed: " + Render(workspace), false)
    else Deny("Tool '" + tool + SPEC_TOOL_DENIAL_TAIL, false)
  }

  // ---------------------------------------------------------------------
  // Containment
  // ---------------------------------------------------------------------

  /**
    * A file tool with a string path is allowed by the project handler exactly
    * when the resolved path is the project root or lies below it; otherwise
    * it is denied with a message naming the path and the root.
    */
  lemma ProjectContainment(fs: FileSystem, projectPath: Path, tool: string, input: Object, s: string)
    requires tool in FILE_TOOLS && s != ""
    requires PathArgument(tool, input, Resolve(fs, projectPath)) == JStr(s)
    ensures var root := Resolve(fs, projectPath);
            var d := ProjectHandler(fs, projectPath, tool, input);
            (d.Allow? <==> IsWithin(Target(fs, root, s), root)) &&
            (!d.Allow? ==> d == Deny("Access denied: " + s + " is outside project directory (" + Render(root) + ")", false))
  {
  }

  /**
    * With no symlink under the project root, a relative path without `..`
    * lands at the root's path plus its own names, so it is allowed.
    */
  lemma {:induction false} ProjectAllowsPlainRelative(fs: FileSystem, projectPath: Path, tool: string, input: Object, s: string)
    requires ValidFs(fs) && Parsed(projectPath.parts)
    requires tool in FILE_TOOLS
    requires PathArgument(tool, input, Resolve(fs, projectPath)) == JStr(s)
    requires s != "" && s[0] != '/' && AllNames(Parse(s).parts)
    requires NoLinksUnder(fs.links, Resolve(fs, projectPath))
    ensures var root := Resolve(fs, projectPath);
            Target(fs, root, s) == root + Parse(s).parts
    ensures ProjectHandler(fs, projectPath, tool, input) == Allow(input)
  {
    var root := Resolve(fs, projectPath);
    ResolveIsReal(fs, projectPath);
    LandsBelow(fs, root, Parse(s).parts);
  }

  /** Joining plain names onto a resolved, symlink-free root and resolving appends them. */
  lemma {:induction false} LandsBelow(fs: FileSystem, root: seq<string>, parts: seq<string>)
    requires Real(fs.links, root) && NoLinksUnder(fs.links, root) && AllNames(parts)
    ensures Resolve(fs, Path(true, root + parts)) == root + parts
    ensures IsWithin(root + parts, root)
  {
    forall k | 0 < k <= |root|
      ensures [] + root[..k] !in fs.links
    {
      assert [] + root[..k] == root[..k];
    }
    WalkNames(fs.links, [], root, parts);
    assert [] + root == root;
    assert root[..|root|] == root;
    WalkNamesUnder(fs.links, root, root, parts);
  }

  /** The root, printed and parsed back, resolves to itself. */
  lemma RootRoundTrip(fs: FileSystem, root: seq<string>)
    requires Real(fs.links, root)
    ensures Target(fs, root, Render(root)) == root
  {
    ParseRender(root);
    ResolveRealIdentity(fs, root);
  }

  /**
    * Glob and Grep without a usable `path` search the project root, which is
    * always allowed; Read, Write and Edit without `file_path` are not checked.
    */
  lemma ProjectDefaults(fs: FileSystem, projectPath: Path, tool: string, input: Object)
    requires ValidFs(fs) && Parsed(projectPath.parts)
    requires ((tool == "Glob" || tool == "Grep") && !("path" in input && Truthy(input["path"])))
          || ((tool == "Read" || tool == "Write" || tool == "Edit") && !("file_path" in input && Truthy(input["file_path"])))
    ensures ProjectHandler(fs, projectPath, tool, input) == Allow(input)
  {
    var root := Resolve(fs, projectPath);
    ResolveIsReal(fs, projectPath);
    RootRoundTrip(fs, root);
    assert root[..|root|] == root;
  }

  /** Whatever the read-only handler allows, the project handler allows too. */
  lemma ReadOnlyWithinProject(fs: FileSystem, projectPath: Path, tool: string, input: Object)
    ensures ReadOnlyHandler(fs, projectPath, tool, input).Allow? ==> ProjectHandler(fs, projectPath, tool, input).Allow?
    ensures ReadOnlyHandler(fs, projectPath, tool, input).Allow? <==> tool in READ_TOOLS && ProjectHandler(fs, projectPath, tool, input).Allow?
  {
  }

  /** Outside AskUserQuestion the interactive handler allows exactly what the read-only one allows. */
  lemma InteractiveMatchesReadOnly(fs: FileSystem, projectPath: Path, ask: Json -> Json, tool: string, input: Object)
    requires tool != "AskUserQuestion"
    ensures InteractiveHandler(fs, projectPath, ask, tool, input).Allow? <==> ReadOnlyHandler(fs, projectPath, tool, input).Allow?
    ensures InteractiveHandler(fs, projectPath, ask, tool, input).Raises? <==> ReadOnlyHandler(fs, projectPath, tool, input).Raises?
  {
  }

  /**
    * AskUserQuestion with questions is allowed with the question handler's
    * answers added under `answers` and every other key kept; without
    * questions its input passes through.
    */
  lemma AskUserQuestionAnswers(fs: FileSystem, projectPath: Path, ask: Json -> Json, input: Object)
    ensures var d := InteractiveHandler(fs, projectPath, ask, "AskUserQuestion", input);
            var questions := if "questions" in input then input["questions"] else JArr([]);
            if Truthy(questions) then
              d.Allow? && d.updatedInput.Keys == input.Keys + {"answers"} &&
              d.updatedInput["answers"] == ask(questions) &&
              (forall k :: k in input && k != "answers" ==> d.updatedInput[k] == input[k])
            else d == Allow(input)
  {
  }

  // ---------------------------------------------------------------------
  // Spec discovery
  // ---------------------------------------------------------------------

  /** A read with a string path is allowed exactly when it lands in the project or in the workspace. */
  lemma SpecReadScope(fs: FileSystem, targetDir: Path, workspaceDir: Path, tool: string, input: Object, s: string)
    requires tool in READ_TOOLS && s != ""
    requires PathArgument(tool, input, Resolve(fs, targetDir)) == JStr(s)
    ensures var target := Resolve(fs, targetDir);
            var p := Target(fs, target, s);
            var d := SpecHandler(fs, targetDir, workspaceDir, tool, input);
            (d.Allow? <==> IsWithin(p, target) || IsWithin(p, Resolve(fs, workspaceDir))) &&
            (!d.Allow? ==> d == Deny("Read access denied: " + s + " is outside allowed directories", false))
  {
  }

  /**
    * An allowed write names a resolved path inside the workspace; the input
    * changes only in `file_path`, which now holds that absolute path.
    */
  lemma SpecWriteConfined(fs: FileSystem, targetDir: Path, workspaceDir: Path, tool: string, input: Object)
    requires ValidFs(fs) && Parsed(workspaceDir.parts)
    requires tool in WRITE_TOOLS
    ensures var d := SpecHandler(fs, targetDir, workspaceDir, tool, input);
            d.Allow? ==>
              "file_path" in input && input["file_path"].JStr? &&
              var p := Target(fs, Resolve(fs, workspaceDir), input["file_path"].s);
              IsWithin(p, Resolve(fs, workspaceDir)) && Real(fs.links, p) &&
              d.updatedInput == input["file_path" := JStr(Render(p))]
  {
    var d := SpecHandler(fs, targetDir, workspaceDir, tool, input);
    if d.Allow? {
      var workspace := Resolve(fs, workspaceDir);
      ResolveIsReal(fs, workspaceDir);
      var s := input["file_path"].s;
      var q := JoinPath(workspace, Parse(s));
      assert Parsed(q.parts) by {
        if !Parse(s).absolute {
          assert forall i :: 0 <= i < |workspace| ==> q.parts[i] == workspace[i];
          assert forall i :: |workspace| <= i < |q.parts| ==> q.parts[i] == Parse(s).parts[i - |workspace|];
        }
      }
      ResolveIsReal(fs, q);
    }
  }

  /** Feeding an allowed, rewritten write back to the handler allows it again unchanged. */
  lemma SpecWriteRewriteStable(fs: FileSystem, targetDir: Path, workspaceDir: Path, tool: string, input: Object)
    requires ValidFs(fs) && Parsed(workspaceDir.parts)
    requires tool in WRITE_TOOLS
    requires SpecHandler(fs, targetDir, workspaceDir, tool, input).Allow?
    ensures var rewritten := SpecHandler(fs, targetDir, workspaceDir, tool, input).updatedInput;
            SpecHandler(fs, targetDir, workspaceDir, tool, rewritten) == Allow(rewritten)
  {
    SpecWriteConfined(fs, targetDir, workspaceDir, tool, input);
    var workspace := Resolve(fs, workspaceDir);
    var p := Target(fs, workspace, input["file_path"].s);
    RootRoundTrip(fs, p);
    var rewritten := input["file_path" := JStr(Render(p))];
    assert rewritten["file_path" := JStr(Render(p))] == rewritten;
  }

  /**
    * With no symlink under the workspace, a relative write path without `..`
    * is placed inside the workspace and rewritten to the workspace's path plus its names.
    */
  lemma SpecRelativeWriteGoesToWorkspace(fs: FileSystem, targetDir: Path, workspaceDir: Path, tool: string, input: Object, s: string)
    requires ValidFs(fs) && Parsed(workspaceDir.parts)
    requires tool in WRITE_TOOLS && "file_path" in input && input["file_path"] == JStr(s)
    requires s != "" && s[0] != '/' && AllNames(Parse(s).parts)
    requires NoLinksUnder(fs.links, Resolve(fs, workspaceDir))
    ensures SpecHandler(fs, targetDir, workspaceDir, tool, input)
         == Allow(input["file_path" := JStr(Render(Resolve(fs, workspaceDir) + Parse(s).parts))])
  {
    ResolveIsReal(fs, workspaceDir);
    LandsBelow(fs, Resolve(fs, workspaceDir), Parse(s).parts);
  }

  // ---------------------------------------------------------------------
  // Worked examples: project `/P`, working directory `/home`
  // ---------------------------------------------------------------------

  function Read(path: string): Object {
    map["file_path" := JStr(path)]
  }

  /** Parses a literal path by way of the segments it is joined from. */
  lemma ParseVia(s: string, segs: seq<string>, parts: seq<string>)
    requires |segs| >= 1 && (forall i :: 0 <= i < |segs| ==> '/' !in segs[i])
    requires Text.Join(segs, "/") == s && Clean(segs) == parts
    ensures Parse(s) == Path(|s| > 0 && s[0] == '/', parts)
  {
    Text.SplitJoin(segs, '/');
  }

  // How the example paths below parse.

  lemma ParseExampleInside()
    ensures Parse("/P/a.txt") == Path(true, ["P", "a.txt"])
  {
    ParseVia("/P/a.txt", ["", "P", "a.txt"], ["P", "a.txt"]);
  }

  lemma ParseExampleDotDotInside()
    ensures Parse("/P/sub/../a.txt") == Path(true, ["P", "sub", "..", "a.txt"])
  {
    ParseVia("/P/sub/../a.txt", ["", "P", "sub", "..", "a.txt"], ["P", "sub", "..", "a.txt"]);
  }

  lemma ParseExampleDotDotEscape()
    ensures Parse("/P/../x.txt") == Path(true, ["P", "..", "x.txt"])
  {
    ParseVia("/P/../x.txt", ["", "P", "..", "x.txt"], ["P", "..", "x.txt"]);
  }

  lemma ParseExampleSibling()
    ensures Parse("/P2/x") == Path(true, ["P2", "x"])
  {
    ParseVia("/P2/x", ["", "P2", "x"], ["P2", "x"]);
  }

  lemma ParseExampleRelative()
    ensures Parse("evil/passwd") == Path(false, ["evil", "passwd"])
  {
    ParseVia("evil/passwd", ["evil", "passwd"], ["evil", "passwd"]);
  }

  const EXAMPLE_FS := FileSystem(["home"], map[])
  const EXAMPLE_ROOT := Path(true, ["P"])

  /** A path such as `/P/a.txt` is inside `/P`. */
  lemma ProjectExampleInside(s: string)
    requires Parse(s) == Path(true, ["P", "a.txt"])
    ensures ProjectHandler(EXAMPLE_FS, EXAMPLE_ROOT, "Read", Read(s)) == Allow(Read(s))
  {
  }

  /** A path such as `/P/sub/../a.txt` comes back into `/P`. */
  lemma ProjectExampleDotDotInside(s: string)
    requires Parse(s) == Path(true, ["P", "sub", "..", "a.txt"])
    ensures ProjectHandler(EXAMPLE_FS, EXAMPLE_ROOT, "Read", Read(s)) == Allow(Read(s))
  {
    assert Walk(map[], [], ["P", "sub", "..", "a.txt"]) == ["P", "a.txt"];
  }

  /** A path such as `/P/../x.txt` starts with the root's text but leaves it. */
  lemma ProjectExampleDotDotEscape(s: string)
    requires s != "" && Parse(s) == Path(true, ["P", "..", "x.txt"])
    ensures ProjectHandler(EXAMPLE_FS, EXAMPLE_ROOT, "Read", Read(s))
         == Deny("Access denied: " + s + " is outside project directory (/P)", false)
  {
    assert Walk(map[], [], ["P", "..", "x.txt"]) == ["x.txt"];
    assert Render(["P"]) == "/P";
  }

  /** A path such as `/P2/x` shares a text prefix with `/P` but is not below it. */
  lemma ProjectExampleSiblingPrefix(s: string)
    requires s != "" && Parse(s) == Path(true, ["P2", "x"])
    ensures ProjectHandler(EXAMPLE_FS, EXAMPLE_ROOT, "Read", Read(s)).Deny?
  {
  }

  /** A symlink inside the project that points outside it is followed, and the read is denied. */
  lemma ProjectExampleSymlinkEscape(s: string)
    requires s != "" && Parse(s) == Path(false, ["evil", "passwd"])
    ensures var fs := FileSystem(["home"], map[["P", "evil"] := ["etc"]]);
            ProjectHandler(fs, EXAMPLE_ROOT, "Read", Read(s)).Deny?
  {
    var links := map[["P", "evil"] := ["etc"]];
    assert ["P"] !in links && ["P", "evil"] in links && ["etc", "passwd"] !in links;
    assert [] + ["P"] == ["P"] && ["P"] + ["evil"] == ["P", "evil"] && ["etc"] + ["passwd"] == ["etc", "passwd"];
    assert ["P", "evil", "passwd"][1..] == ["evil", "passwd"] && ["evil", "passwd"][1..] == ["passwd"];
    assert Walk(links, [], ["P", "evil", "passwd"]) == Walk(links, ["P"], ["evil", "passwd"]);
    assert Walk(links, ["P"], ["evil", "passwd"]) == Walk(links, ["etc"], ["passwd"]);
    assert Walk(links, [], ["P", "evil", "passwd"]) == ["etc", "passwd"];
  }
}

=== FILE: prompts.dfy ===
/**
  * The agent's prompts: a template per loop type with the workspace file
  * placeholders filled in, behind a header naming those files, and the
  * spec discovery prompt assembled around the chosen context.
  *
  * Reading a template from disk is a parameter `load`: it maps a template
  * name to the template's text with surrounding whitespace removed.
  */
module Prompts {
  import Text

  /** The loop types and the template each one uses. */
  const LOOP_TYPES: map<string, string> := map[
    "default" := "loop",
    "test-coverage" := "loop_test_coverage",
    "linting" := "loop_linting",
    "duplication" := "loop_duplication",
    "entropy" := "loop_entropy"
  ]

  /** The template of a loop type; an unknown type uses the default loop's. */
  function PromptName(loopType: string): (name: string)
    ensures loopType in LOOP_TYPES ==> name == LOOP_TYPES[loopType]
    ensures loopType !in LOOP_TYPES ==> name == LOOP_TYPES["default"]
    ensures name in LOOP_TYPES.Values
  {
    assert LOOP_TYPES["default"] == "loop";
    if loopType in LOOP_TYPES then LOOP_TYPES[loopType] else "loop"
  }

  // ---------------------------------------------------------------------
  // Workspace placeholders
  // ---------------------------------------------------------------------

  /** The three workspace files a template can name. */
  datatype Hole = PrdPath | ProgressPath | FailuresPath

  /** How a template writes each placeholder. */
  function Mark(h: Hole): (m: string)
    ensures m != [] && m[0] == '{' && '{' !in m[1..]
  {
    match h
    case PrdPath => "{prd_path}"
    case ProgressPath => "{progress_path}"
    case FailuresPath => "{failures_path}"
  }

  /** The workspace file each placeholder stands for. */
  function FileIn(ws: string, h: Hole): string {
    match h
    case PrdPath => ws + "/PRD.json"
    case ProgressPath => ws + "/progress.txt"
    case FailuresPath => ws + "/failures.md"
  }

  /** Every occurrence of each placeholder replaced by its file, in the order the source applies them. */
  function FillPlaceholders(template: string, ws: string): string {
    var p := Text.Replace(template, Mark(PrdPath), FileIn(ws, PrdPath));
    var p' := Text.Replace(p, Mark(ProgressPath), FileIn(ws, ProgressPath));
    Text.Replace(p', Mark(FailuresPath), FileIn(ws, FailuresPath))
  }

  /** A template seen as literal text interleaved with placeholders. */
  datatype Segment = Lit(text: string) | Slot(hole: Hole)

  /** The template text the segments spell. */
  function Spelled(segs: seq<Segment>): string {
    if segs == [] then ""
    else (match segs[0] case Lit(t) => t case Slot(h) => Mark(h)) + Spelled(segs[1..])
  }

  /** The text with every placeholder standing for the file it names. */
  function Meant(segs: seq<Segment>, ws: string): string {
    if segs == [] then ""
    else (match segs[0] case Lit(t) => t case Slot(h) => FileIn(ws, h)) + Meant(segs[1..], ws)
  }

  /** The literal text holds no `{`: every brace in the template opens a placeholder. */
  predicate BraceFree(segs: seq<Segment>) {
    forall i :: 0 <= i < |segs| ==> segs[i].Lit? ==> '{' !in segs[i].text
  }

  /** The segments with the placeholder `h` written out as its file. */
  function Filled(segs: seq<Segment>, ws: string, h: Hole): (r: seq<Segment>)
    ensures |r| == |segs|
    ensures forall i :: 0 <= i < |segs| ==> r[i] == if segs[i] == Slot(h) then Lit(FileIn(ws, h)) else segs[i]
  {
    seq(|segs|, i requires 0 <= i < |segs| => if segs[i] == Slot(h) then Lit(FileIn(ws, h)) else segs[i])
  }

  /** Brace-free text in front never starts a match of a placeholder. */
  lemma {:induction false} FreeFront(p: string, pat: string, rep: string, rest: string)
    requires pat != [] && pat[0] == '{' && '{' !in p
    ensures Text.Replace(p + rest, pat, rep) == p + Text.Replace(rest, pat, rep)
    decreases |p|
  {
    if p != [] {
      var s := p + rest;
      if |s| >= |pat| {
        assert s[..|pat|][0] == p[0] != pat[0];
        assert s[1..] == p[1..] + rest;
        FreeFront(p[1..], pat, rep, rest);
        assert [p[0]] + p[1..] == p;
      } else {
        ShortReplace(rest, pat, rep);
      }
    } else {
      assert p + rest == rest;
    }
  }

  lemma ShortReplace(s: string, pat: string, rep: string)
    requires pat != [] && |s| < |pat|
    ensures Text.Replace(s, pat, rep) == s
  {
  }

  /** A position where two different placeholders differ. */
  function Apart(k: Hole, h: Hole): (d: nat)
    requires k != h
    ensures 0 < d < |Mark(k)| && d < |Mark(h)| && Mark(k)[d] != Mark(h)[d]
  {
    if k == FailuresPath || h == FailuresPath then 1 else 3
  }

  /** One placeholder of another kind is passed over. */
  lemma OtherMark(k: Hole, h: Hole, rep: string, rest: string)
    requires k != h
    ensures Text.Replace(Mark(k) + rest, Mark(h), rep) == Mark(k) + Text.Replace(rest, Mark(h), rep)
  {
    PassOver(Mark(k), Mark(h), rep, rest, Apart(k, h));
  }

  /** A brace-led text that differs from `pat` at `d` and holds no other brace is passed over. */
  lemma PassOver(m: string, pat: string, rep: string, rest: string, d: nat)
    requires m != [] && pat != [] && pat[0] == '{' && '{' !in m[1..]
    requires d < |m| && d < |pat| && m[d] != pat[d]
    ensures Text.Replace(m + rest, pat, rep) == m + Text.Replace(rest, pat, rep)
  {
    var s := m + rest;
    if |s| >= |pat| {
      NoMarkAt(m, pat, rest, d);
      assert Text.Replace(s, pat, rep) == [s[0]] + Text.Replace(s[1..], pat, rep);
      assert s[1..] == m[1..] + rest;
      FreeFront(m[1..], pat, rep, rest);
      assert [m[0]] + (m[1..] + Text.Replace(rest, pat, rep)) == m + Text.Replace(rest, pat, rep);
    } else {
      ShortReplace(rest, pat, rep);
      ShortReplace(s, pat, rep);
    }
  }

  lemma NoMarkAt(m: string, pat: string, rest: string, d: nat)
    requires d < |m| && d < |pat| && m[d] != pat[d] && |m + rest| >= |pat|
    ensures (m + rest)[..|pat|] != pat
  {
    assert (m + rest)[..|pat|][d] == m[d];
  }

  /** Replacing one placeholder writes out exactly its slots. */
  lemma {:induction false} ReplaceSlot(segs: seq<Segment>, ws: string, h: Hole)
    requires BraceFree(segs) && '{' !in ws
    ensures BraceFree(Filled(segs, ws, h))
    ensures Text.Replace(Spelled(segs), Mark(h), FileIn(ws, h)) == Spelled(Filled(segs, ws, h))
  {
    var f := Filled(segs, ws, h);
    assert '{' !in FileIn(ws, h);
    if segs != [] {
      ReplaceSlot(segs[1..], ws, h);
      assert Filled(segs[1..], ws, h) == f[1..];
      var rest := Spelled(segs[1..]);
      match segs[0]
      case Lit(t) =>
        FreeFront(t, Mark(h), FileIn(ws, h), rest);
      case Slot(k) =>
        if k == h {
          assert (Mark(h) + rest)[..|Mark(h)|] == Mark(h);
          assert (Mark(h) + rest)[|Mark(h)|..] == rest;
        } else {
          OtherMark(k, h, FileIn(ws, h), rest);
        }
    }
  }

  lemma {:induction false} MeantFilled(segs: seq<Segment>, ws: string)
    ensures Spelled(Filled(Filled(Filled(segs, ws, PrdPath), ws, ProgressPath), ws, FailuresPath)) == Meant(segs, ws)
  {
    if segs != [] {
      MeantFilled(segs[1..], ws);
      var f := Filled(Filled(Filled(segs, ws, PrdPath), ws, ProgressPath), ws, FailuresPath);
      assert f[1..] == Filled(Filled(Filled(segs[1..], ws, PrdPath), ws, ProgressPath), ws, FailuresPath);
    }
  }

  /**
    * In a template whose only braces open placeholders, and a workspace
    * path without braces, filling the placeholders puts each file's path
    * exactly where its placeholder was and changes nothing else.
    */
  lemma FillMeans(segs: seq<Segment>, ws: string)
    requires BraceFree(segs) && '{' !in ws
    ensures FillPlaceholders(Spelled(segs), ws) == Meant(segs, ws)
  {
    var f1 := Filled(segs, ws, PrdPath);
    var f2 := Filled(f1, ws, ProgressPath);
    ReplaceSlot(segs, ws, PrdPath);
    ReplaceSlot(f1, ws, ProgressPath);
    ReplaceSlot(f2, ws, FailuresPath);
    MeantFilled(segs, ws);
  }

  // ---------------------------------------------------------------------
  // Loop and single-iteration prompts
  // ---------------------------------------------------------------------

  /** The header line that attaches the task list and the progress log. */
  function Attachments(ws: string): string {
    "@" + FileIn(ws, PrdPath) + " @" + FileIn(ws, ProgressPath) + "\n\n"
  }

  // The fixed wording of the workspace context block, between the paths it names.
  const LOCATIONS_HEAD := "\n## File Locations (CRITICAL - USE THESE EXACT PATHS)\n\n- **Ralph Workspace**: "
  const PRD_LINE := "\n  - PRD: "
  const PROGRESS_LINE := "\n  - Progress: "
  const FAILURES_LINE := "\n  - Failures: "
  const TARGET_LINE := "\n  \n- **Target Project**: "
  const TARGET_RULES := "\n  - This is where you make CODE CHANGES ONLY\n  - NEVER create PRD.json, progress.txt, or any Ralph files here\n  - NEVER read PRD.json from this directory\n\n**NEVER use relative paths like \"PRD.json\" - always use the full paths above.**\n"

  /** The block telling the agent where the workspace files and the target project are. */
  function WorkspaceContext(ws: string, target: string): string {
    LOCATIONS_HEAD + ws + PRD_LINE + FileIn(ws, PrdPath) + PROGRESS_LINE + FileIn(ws, ProgressPath) +
    FAILURES_LINE + FileIn(ws, FailuresPath) + TARGET_LINE + target + TARGET_RULES
  }

  lemma Prefixed(a: string, b: string)
    ensures Text.StartsWith(a + b, a) && (a + b)[|a|..] == b
  {
  }

  /** A loop or single-iteration prompt built around the template `template`. */
  function Framed(template: string, ws: string, target: string): (r: string)
    ensures Text.StartsWith(r, Attachments(ws))
    ensures r[|Attachments(ws)|..] == WorkspaceContext(ws, target) + "\n\n" + FillPlaceholders(template, ws)
  {
    var rest := WorkspaceContext(ws, target) + "\n\n" + FillPlaceholders(template, ws);
    Prefixed(Attachments(ws), rest);
    Attachments(ws) + rest
  }

  /** `get_loop_prompt`: the loop type's template, framed. */
  function LoopPrompt(loopType: string, ws: string, target: string, load: string -> string): (r: string)
    ensures r == Framed(load(PromptName(loopType)), ws, target)
    ensures loopType !in LOOP_TYPES ==> r == Framed(load(LOOP_TYPES["default"]), ws, target)
  {
    Framed(load(PromptName(loopType)), ws, target)
  }

  /** `get_once_prompt`: the single-iteration template, framed the same way. */
  function OncePrompt(ws: string, target: string, load: string -> string): (r: string)
    ensures r == Framed(load("once"), ws, target)
  {
    Framed(load("once"), ws, target)
  }

  // ---------------------------------------------------------------------
  // Spec discovery prompt
  // ---------------------------------------------------------------------

  /** The spec context template: an existing codebase first, then a requirements file, else a new project. */
  function SpecContextName(existing: bool, hasRequirementsFile: bool): (name: string)
    ensures existing ==> name == "spec_context_existing"
    ensures !existing && hasRequirementsFile ==> name == "spec_context_file"
    ensures !existing && !hasRequirementsFile ==> name == "spec_context_new"
  {
    if existing then "spec_context_existing"
    else if hasRequirementsFile then "spec_context_file"
    else "spec_context_new"
  }

  // The fixed wording of the write restriction notice, between the paths it names.
  const RESTRICTION_HEAD := "\n**IMPORTANT - WRITE RESTRICTIONS**:\nDuring spec discovery, you are in READ-ONLY mode for the target project.\n- You CAN read files from the target project to understand context\n- You can ONLY write to the Ralph workspace: "
  const RESTRICTION_RULES := "\n- DO NOT create any files or directories in the target project\n- DO NOT use Bash to create files, mkdir, or modify the target project\n\n**Files you can write to:**\n- "
  const SPEC_NOTES_LINE := " - Update as you learn requirements\n- "
  const PRD_NOTE := " - Write the final PRD.json here when complete\n\nFocus on having a conversation with the user to understand requirements.\nDo not start implementing or creating files - that happens in the coding loop phase.\n"

  /** The spec session notes in the workspace. */
  function SpecNotes(ws: string): string {
    ws + "/spec-session.md"
  }

  /** The notice that only the workspace may be written during spec discovery. */
  function WriteRestriction(ws: string): string {
    RESTRICTION_HEAD + ws + RESTRICTION_RULES + SpecNotes(ws) + SPEC_NOTES_LINE + FileIn(ws, PrdPath) + PRD_NOTE
  }

  lemma JoinThree(a: string, b: string, c: string, sep: string)
    ensures Text.Join([a, b, c], sep) == a + sep + b + sep + c
  {
    assert [a, b, c][1..] == [b, c];
    assert [b, c][1..] == [c];
    assert Text.Join([b, c], sep) == b + sep + c;
    assert Text.Join([a, b, c], sep) == a + sep + (b + sep + c);
  }

  /** Three parts, blank-line separated. */
  function Sectioned(a: string, b: string, c: string): (s: string)
    ensures s == Text.Join([a, b, c], "\n\n")
    ensures Text.StartsWith(s, a + "\n\n" + b)
  {
    JoinThree(a, b, c, "\n\n");
    Prefixed(a + "\n\n" + b, "\n\n" + c);
    Text.Join([a, b, c], "\n\n")
  }

  /** The context section: the topic, the chosen context, the write restriction, blank-line separated. */
  function ContextSection(topic: string, existing: bool, hasRequirementsFile: bool, ws: string,
                          load: string -> string): (section: string)
    ensures Text.StartsWith(section, "**Topic**: " + topic + "\n\n" + load(SpecContextName(existing, hasRequirementsFile)))
  {
    Sectioned("**Topic**: " + topic, load(SpecContextName(existing, hasRequirementsFile)), WriteRestriction(ws))
  }

  /**
    * `get_spec_prompt`: the spec template with the context section put in
    * and its instructions to produce the task list pointed at the
    * workspace, behind a line attaching the spec session notes.
    */
  function SpecPrompt(topic: string, existing: bool, hasRequirementsFile: bool, ws: string,
                      load: string -> string): (r: string)
    ensures Text.StartsWith(r, "@" + SpecNotes(ws) + "\n\n")
    ensures r[|"@" + SpecNotes(ws) + "\n\n"|..] ==
              Text.Replace(Text.Replace(
                Text.Replace(load("spec"), "{context_section}", ContextSection(topic, existing, hasRequirementsFile, ws, load)),
                "generate PRD.json", "generate " + FileIn(ws, PrdPath)),
                "Write PRD.json", "Write " + FileIn(ws, PrdPath))
  {
    var placed := Text.Replace(load("spec"), "{context_section}", ContextSection(topic, existing, hasRequirementsFile, ws, load));
    var generated := Text.Replace(placed, "generate PRD.json", "generate " + FileIn(ws, PrdPath));
    var prompt := Text.Replace(generated, "Write PRD.json", "Write " + FileIn(ws, PrdPath));
    var head := "@" + SpecNotes(ws) + "\n\n";
    Prefixed(head, prompt);
    head + prompt
  }

  /** A spec template with one context placeholder and no other brace gets the section at that spot. */
  lemma SpecSectionPlaced(before: string, after: string, section: string)
    requires '{' !in before && '{' !in after
    ensures Text.Replace(before + "{context_section}" + after, "{context_section}", section) == before + section + after
  {
    var pat := "{context_section}";
    FreeFront(before, pat, section, pat + after);
    assert before + pat + after == before + (pat + after);
    assert (pat + after)[..|pat|] == pat && (pat + after)[|pat|..] == after;
    FreeFront(after, pat, section, "");
    assert after + "" == after;
  }
}

=== FILE: registry.dfy ===
/**
  * The project registry: a JSON file mapping the resolved path of each
  * registered project to its record, with an optional saved loop state.
  * Every operation loads the file, changes the map and writes it back.
  */
module Registry {
  import opened Wrappers
  import Text
  import Paths

  /** The `loop_state` record a paused run leaves behind. */
  datatype LoopState = LoopState(iteration: int, totalIterations: int, loopType: string, status: string,
                                 currentTaskId: string, currentTask: string, savedAt: string)

  /** A project record; `lastRun` is `None` until the project is run. */
  datatype Project = Project(name: string, path: string, registered: string, lastRun: Option<string>,
                             loopState: Option<LoopState>)

  type Projects = map<string, Project>

  /** The registry file as `load_registry` finds it. */
  datatype File = Missing | Corrupt | Stored(projects: Projects)

  /** `load_registry`: a missing file or invalid JSON reads as no projects. */
  function Load(f: File): Projects {
    if f.Stored? then f.projects else map[]
  }

  /** The registry key of a project: its resolved path as a string. */
  function Key(fs: Paths.FileSystem, p: Paths.Path): string {
    Paths.Render(Paths.Resolve(fs, p))
  }

  /** `Path.name`: the last component, empty for the root. */
  function BaseName(parts: seq<string>): string {
    if parts == [] then "" else parts[|parts| - 1]
  }

  /** Every record sits under its own path. */
  predicate Keyed(m: Projects) {
    forall k :: k in m ==> m[k].path == k
  }

  // ---------------------------------------------------------------------
  // Loop state as map operations
  // ---------------------------------------------------------------------

  /** `save_loop_state` on the map: only the project's `loop_state` is set; unregistered paths are ignored. */
  function SaveState(m: Projects, k: string, st: LoopState): (r: Projects)
    ensures r.Keys == m.Keys
    ensures forall j :: j in m && j != k ==> r[j] == m[j]
    ensures k in m ==> r[k] == m[k].(loopState := Some(st))
  {
    if k in m then m[k := m[k].(loopState := Some(st))] else m
  }

  /** `get_loop_state` on the map. */
  function StateOf(m: Projects, k: string): (st: Option<LoopState>)
    ensures st.Some? ==> k in m && m[k].loopState == st
    ensures st.None? ==> k !in m || m[k].loopState.None?
  {
    if k in m then m[k].loopState else None
  }

  /** `clear_loop_state` on the map: only the project's `loop_state` goes. */
  function ClearState(m: Projects, k: string): (r: Projects)
    ensures r.Keys == m.Keys
    ensures forall j :: j in m && j != k ==> r[j] == m[j]
    ensures k in m ==> r[k] == m[k].(loopState := None)
  {
    if k in m then m[k := m[k].(loopState := None)] else m
  }

  /** `has_saved_loop_state`: a state is saved and it is paused. */
  predicate HasSaved(m: Projects, k: string) {
    StateOf(m, k).Some? && StateOf(m, k).value.status == "paused"
  }

  /** A saved state reads back; saving for an unregistered path leaves nothing. */
  lemma SaveThenGet(m: Projects, k: string, st: LoopState)
    ensures k in m ==> StateOf(SaveState(m, k, st), k) == Some(st)
    ensures k !in m ==> SaveState(m, k, st) == m && StateOf(SaveState(m, k, st), k).None?
    ensures forall j :: j != k ==> StateOf(SaveState(m, k, st), j) == StateOf(m, j)
  {
  }

  /** A cleared state is gone, and the saved-and-paused test fails. */
  lemma ClearThenGet(m: Projects, k: string)
    ensures StateOf(ClearState(m, k), k).None? && !HasSaved(ClearState(m, k), k)
    ensures forall j :: j != k ==> StateOf(ClearState(m, k), j) == StateOf(m, j)
  {
  }

  /** Saving with status "paused" is what makes a path resumable. */
  lemma SavedPausedIsResumable(m: Projects, k: string, st: LoopState)
    ensures HasSaved(SaveState(m, k, st), k) <==> k in m && st.status == "paused"
  {
  }

  // ---------------------------------------------------------------------
  // Ordering by last run
  // ---------------------------------------------------------------------

  /** The sort key of `get_all_projects`: the last run, with never-run (or empty) as "0000". */
  function RunKey(p: Project): string {
    if p.lastRun.Some? && p.lastRun.value != "" then p.lastRun.value else "0000"
  }

  /** Most recent first: no later entry has a greater key. */
  predicate Descending(ps: seq<Project>) {
    forall i, j :: 0 <= i < j < |ps| ==> !Text.Less(RunKey(ps[i]), RunKey(ps[j]))
  }

  /** Places `p` before the first entry whose key is not greater. */
  function Insert(p: Project, ps: seq<Project>): (r: seq<Project>)
    requires Descending(ps)
    ensures Descending(r)
    ensures multiset(r) == multiset(ps) + multiset{p}
  {
    if ps == [] then [p]
    else if !Text.Less(RunKey(p), RunKey(ps[0])) then
      InsertFront(p, ps);
      [p] + ps
    else
      assert ps == [ps[0]] + ps[1..];
      var rest := Insert(p, ps[1..]);
      Text.LessTotal(RunKey(p), RunKey(ps[0]));
      KeepHead(ps[0], ps[1..], p, rest);
      [ps[0]] + rest
  }

  /** An entry whose key is not below the first one's can go in front. */
  lemma InsertFront(p: Project, ps: seq<Project>)
    requires Descending(ps) && ps != [] && !Text.Less(RunKey(p), RunKey(ps[0]))
    ensures Descending([p] + ps)
  {
    forall j | 0 <= j < |ps|
      ensures !Text.Less(RunKey(p), RunKey(ps[j]))
    {
      if j > 0 {
        Text.AtLeastTransitive(RunKey(p), RunKey(ps[0]), RunKey(ps[j]));
      }
    }
    var r := [p] + ps;
    assert forall i, j :: 0 < i < j < |r| ==> r[i] == ps[i - 1] && r[j] == ps[j - 1];
  }

  /** The head stays in front of the tail with `p` inserted when `p`'s key is below it. */
  lemma KeepHead(h: Project, tail: seq<Project>, p: Project, rest: seq<Project>)
    requires Descending([h] + tail) && Descending(rest)
    requires multiset(rest) == multiset(tail) + multiset{p}
    requires !Text.Less(RunKey(h), RunKey(p))
    ensures Descending([h] + rest)
  {
    forall j | 0 <= j < |rest|
      ensures !Text.Less(RunKey(h), RunKey(rest[j]))
    {
      assert rest[j] in multiset(tail) + multiset{p};
      if rest[j] != p {
        assert rest[j] in multiset(tail);
        assert rest[j] in tail;
        var t :| 0 <= t < |tail| && tail[t] == rest[j];
        var ht := [h] + tail;
        assert ht[0] == h && ht[t + 1] == tail[t];
        assert !Text.Less(RunKey(ht[0]), RunKey(ht[t + 1]));
      }
    }
    var r := [h] + rest;
    assert forall i, j :: 0 < i < j < |r| ==> r[i] == rest[i - 1] && r[j] == rest[j - 1];
  }

  /** `sort(key=RunKey, reverse=True)`: the same entries, most recent first. */
  function SortByRun(ps: seq<Project>): (r: seq<Project>)
    ensures Descending(r)
    ensures multiset(r) == multiset(ps)
  {
    if ps == [] then [] else
      assert ps == [ps[0]] + ps[1..];
      Insert(ps[0], SortByRun(ps[1..]))
  }

  /** A project never run sorts after every project run at a time later than "0000". */
  lemma NeverRunLast(ps: seq<Project>, i: int, j: int)
    requires Descending(ps) && 0 <= i < |ps| && 0 <= j < |ps|
    requires ps[i].lastRun.None? && Text.Less("0000", RunKey(ps[j]))
    ensures j < i
  {
    if i == j {
      Text.LessTotal("0000", "0000");
    }
  }

  // ---------------------------------------------------------------------
  // Workspace names
  // ---------------------------------------------------------------------

  /** A character `get_workspace_dir` keeps in a workspace name. */
  predicate SafeChar(c: char) {
    Text.IsAlnum(c) || c == '-' || c == '_'
  }

  /** `name` with each character other than a letter, digit, `-` or `_` replaced by `-`. */
  function Mapped(name: string): (m: string)
    ensures |m| == |name|
    ensures forall k :: 0 <= k < |name| ==> m[k] == (if SafeChar(name[k]) then name[k] else '-') && SafeChar(m[k])
    ensures forall k :: 0 <= k < |name| ==> (m[k] in {'-', '_'} <==> !Text.IsAlnum(name[k]))
  {
    seq(|name|, k requires 0 <= k < |name| => if SafeChar(name[k]) then name[k] else '-')
  }

  /** `name[i]` and `name[j]` are the first and the last letter or digit of `name`. */
  predicate AlnumSpan(name: string, i: int, j: int) {
    0 <= i <= j < |name| && Text.IsAlnum(name[i]) && Text.IsAlnum(name[j]) &&
    (forall k :: 0 <= k < i ==> !Text.IsAlnum(name[k])) &&
    (forall k :: j < k < |name| ==> !Text.IsAlnum(name[k]))
  }

  /** A name that holds a letter or digit has a first and a last one. */
  lemma AlnumSpanExists(name: string, k: int)
    requires 0 <= k < |name| && Text.IsAlnum(name[k])
    ensures exists i, j :: AlnumSpan(name, i, j)
  {
    var i := k;
    while exists t :: 0 <= t < i && Text.IsAlnum(name[t])
      invariant 0 <= i <= k && Text.IsAlnum(name[i])
      decreases i
    {
      var t :| 0 <= t < i && Text.IsAlnum(name[t]);
      i := t;
    }
    var j := k;
    while exists t :: j < t < |name| && Text.IsAlnum(name[t])
      invariant k <= j < |name| && Text.IsAlnum(name[j])
      decreases |name| - j
    {
      var t :| j < t < |name| && Text.IsAlnum(name[t]);
      j := t;
    }
    assert AlnumSpan(name, i, j);
  }

  /**
    * `t` is the part of `name` from its first to its last letter or digit,
    * with each character other than a letter, digit, `-` or `_` mapped to `-`.
    */
  ghost predicate Spans(name: string, t: string) {
    forall i, j {:trigger AlnumSpan(name, i, j)} :: AlnumSpan(name, i, j) ==>
      |t| == j + 1 - i && forall k :: 0 <= k < |t| ==> t[k] == (if SafeChar(name[i + k]) then name[i + k] else '-')
  }

  /** Stripping `-` and `_` from the mapped name keeps the part from `name[i]` to `name[j]`. */
  lemma MappedWindow(name: string, i: int, j: int)
    requires AlnumSpan(name, i, j)
    ensures var t := Text.Strip(Mapped(name), {'-', '_'});
            |t| == j + 1 - i && forall k :: 0 <= k < |t| ==> t[k] == (if SafeChar(name[i + k]) then name[i + k] else '-')
  {
    var m := Mapped(name);
    Text.StripWindow(m, {'-', '_'}, i, j);
    var t := Text.Strip(m, {'-', '_'});
    forall k | 0 <= k < |t|
      ensures t[k] == (if SafeChar(name[i + k]) then name[i + k] else '-')
    {
      assert t[k] == m[i + k];
    }
  }

  /** Stripping `-` and `_` from the mapped name keeps the part from its first to its last letter or digit. */
  lemma MappedStrip(name: string)
    ensures (forall k :: 0 <= k < |name| ==> !Text.IsAlnum(name[k])) ==> Text.Strip(Mapped(name), {'-', '_'}) == []
    ensures Spans(name, Text.Strip(Mapped(name), {'-', '_'}))
  {
    if forall k :: 0 <= k < |name| ==> !Text.IsAlnum(name[k]) {
      Text.StripAll(Mapped(name), {'-', '_'});
    }
    forall i, j | AlnumSpan(name, i, j)
      ensures var t := Text.Strip(Mapped(name), {'-', '_'});
              |t| == j + 1 - i && forall k :: 0 <= k < |t| ==> t[k] == (if SafeChar(name[i + k]) then name[i + k] else '-')
    {
      MappedWindow(name, i, j);
    }
  }

  /** What stripping `-` and `_` from the mapped name leaves. */
  lemma StrippedName(name: string)
    ensures var t := Text.Strip(Mapped(name), {'-', '_'});
      && (t == [] || (t[0] !in {'-', '_'} && t[|t| - 1] !in {'-', '_'}))
      && (forall c :: c in t ==> SafeChar(c))
      && ((forall k :: 0 <= k < |name| ==> !Text.IsAlnum(name[k])) ==> t == [])
      && Spans(name, t)
      && (t == [] ==> forall u :: Spans(name, u))
  {
    var mapped := Mapped(name);
    var t := Text.Strip(mapped, {'-', '_'});
    Text.StripEnds(mapped, {'-', '_'});
    assert forall c :: c in t ==> c in mapped;
    MappedStrip(name);
  }

  /**
    * The workspace name for `name`: each character other than a letter,
    * digit, `-` or `_` becomes `-`, then `-` and `_` are stripped from both
    * ends; an empty result falls back to the generated name `fallback`.
    */
  function SafeName(name: string, fallback: string): (r: string)
    ensures r == fallback || (r != "" && forall c :: c in r ==> SafeChar(c))
    ensures r != fallback ==> r[0] !in {'-', '_'} && r[|r| - 1] !in {'-', '_'}
    ensures (forall k :: 0 <= k < |name| ==> !Text.IsAlnum(name[k])) ==> r == fallback
    ensures Spans(name, r)
  {
    var stripped := Text.Strip(Mapped(name), {'-', '_'});
    StrippedName(name);
    if stripped == [] then fallback else stripped
  }

  /** A name that is already safe and starts and ends with a letter or digit is used as it is. */
  lemma SafeNameKeeps(name: string, fallback: string)
    requires name != [] && forall c :: c in name ==> SafeChar(c)
    requires name[0] !in {'-', '_'} && name[|name| - 1] !in {'-', '_'}
    ensures SafeName(name, fallback) == name
  {
    var mapped := Mapped(name);
    assert mapped == name by {
      forall i | 0 <= i < |name|
        ensures mapped[i] == name[i]
      {
        assert name[i] in name;
      }
    }
    Text.StripIdentity(name, {'-', '_'});
  }

  // ---------------------------------------------------------------------
  // The registry file
  // ---------------------------------------------------------------------

  /** The registry file; `Valid` says every record sits under its own path. */
  class ProjectRegistry {
    var file: File

    ghost predicate Valid()
      reads this
    {
      Keyed(Load(file))
    }

    constructor(file: File)
      requires Keyed(Load(file))
      ensures Valid() && this.file == file
    {
      this.file := file;
    }

    /**
      * `register_project`: the record for the resolved path is replaced
      * whole, never run and with no loop state; the name defaults to the
      * directory name when absent or empty.
      */
    method Register(fs: Paths.FileSystem, p: Paths.Path, name: Option<string>, now: string)
      requires Valid()
      modifies this
      ensures Valid()
      ensures var k := Key(fs, p);
              file == Stored(Load(old(file))[k := Project(if name.Some? && name.value != "" then name.value
                                                          else BaseName(Paths.Resolve(fs, p)), k, now, None, None)])
    {
      var m := Load(file);
      var k := Key(fs, p);
      var n := if name.Some? && name.value != "" then name.value else BaseName(Paths.Resolve(fs, p));
      m := m[k := Project(n, k, now, None, None)];
      file := Stored(m);
    }

    /** `unregister_project`: true iff the path was registered; only its entry goes, and the file is written only then. */
    method Unregister(fs: Paths.FileSystem, p: Paths.Path) returns (found: bool)
      requires Valid()
      modifies this
      ensures Valid()
      ensures found <==> Key(fs, p) in Load(old(file))
      ensures file == if found then Stored(Load(old(file)) - {Key(fs, p)}) else old(file)
    {
      var m := Load(file);
      var k := Key(fs, p);
      found := k in m;
      if found {
        file := Stored(m - {k});
      }
    }

    /** `update_last_run`: a registered project's last run becomes `now`; nothing else changes. */
    method UpdateLastRun(fs: Paths.FileSystem, p: Paths.Path, now: string)
      requires Valid()
      modifies this
      ensures Valid()
      ensures var k := Key(fs, p);
              file == if k in Load(old(file)) then Stored(Load(old(file))[k := Load(old(file))[k].(lastRun := Some(now))])
                      else old(file)
    {
      var m := Load(file);
      var k := Key(fs, p);
      if k in m {
        file := Stored(m[k := m[k].(lastRun := Some(now))]);
      }
    }

    /** `get_project` and `is_registered`. */
    method GetProject(fs: Paths.FileSystem, p: Paths.Path) returns (r: Option<Project>)
      ensures r.Some? <==> Key(fs, p) in Load(file)
      ensures r.Some? ==> r.value == Load(file)[Key(fs, p)]
    {
      var m := Load(file);
      var k := Key(fs, p);
      r := if k in m then Some(m[k]) else None;
    }

    /** `clear_registry`: returns how many projects there were and leaves none. */
    method ClearAll() returns (count: nat)
      requires Valid()
      modifies this
      ensures Valid()
      ensures count == |Load(old(file))| && file == Stored(map[])
    {
      count := |Load(file)|;
      file := Stored(map[]);
    }

    /**
      * `get_all_projects`: the registered projects whose path exists, each
      * once, most recently run first. `present` says which paths exist.
      */
    method AllProjects(present: string -> bool) returns (r: seq<Project>)
      requires Valid()
      ensures Descending(r)
      ensures forall q :: q in r <==> q.path in Load(file) && Load(file)[q.path] == q && present(q.path)
      ensures forall i, j :: 0 <= i < j < |r| ==> r[i].path != r[j].path
    {
      var m := Load(file);
      var keys := m.Keys;
      var valid: seq<Project> := [];
      while keys != {}
        invariant keys <= m.Keys
        invariant forall q :: q in valid <==> q.path in m && q.path !in keys && m[q.path] == q && present(q.path)
        invariant forall i, j :: 0 <= i < j < |valid| ==> valid[i].path != valid[j].path
        decreases keys
      {
        var k :| k in keys;
        if present(m[k].path) {
          valid := valid + [m[k]];
        }
        keys := keys - {k};
      }
      r := SortByRun(valid);
      assert forall q :: q in r <==> q in valid by {
        forall q
          ensures q in r <==> q in valid
        {
          assert q in r <==> q in multiset(r);
          assert q in valid <==> q in multiset(valid);
        }
      }
      DistinctPermutation(valid, r);
    }

    /** `save_loop_state`: only the project's `loop_state` is set; an unregistered path leaves the file alone. */
    method SaveLoopState(fs: Paths.FileSystem, p: Paths.Path, st: LoopState)
      requires Valid()
      modifies this
      ensures Valid()
      ensures file == if Key(fs, p) in Load(old(file)) then Stored(SaveState(Load(old(file)), Key(fs, p), st)) else old(file)
    {
      var m := Load(file);
      var k := Key(fs, p);
      if k !in m {
        return;
      }
      file := Stored(SaveState(m, k, st));
    }

    /** `get_loop_state`. */
    method GetLoopState(fs: Paths.FileSystem, p: Paths.Path) returns (st: Option<LoopState>)
      ensures st == StateOf(Load(file), Key(fs, p))
    {
      var m := Load(file);
      var k := Key(fs, p);
      if k !in m {
        return None;
      }
      st := m[k].loopState;
    }

    /** `clear_loop_state`: true iff a state was saved; only it goes, and the file is written only then. */
    method ClearLoopState(fs: Paths.FileSystem, p: Paths.Path) returns (cleared: bool)
      requires Valid()
      modifies this
      ensures Valid()
      ensures cleared <==> StateOf(Load(old(file)), Key(fs, p)).Some?
      ensures file == if cleared then Stored(ClearState(Load(old(file)), Key(fs, p))) else old(file)
    {
      var m := Load(file);
      var k := Key(fs, p);
      if k !in m {
        return false;
      }
      if m[k].loopState.Some? {
        file := Stored(ClearState(m, k));
        return true;
      }
      return false;
    }

    /** `has_saved_loop_state`: a state is saved and its status is "paused". */
    method HasSavedLoopState(fs: Paths.FileSystem, p: Paths.Path) returns (b: bool)
      ensures b <==> StateOf(Load(file), Key(fs, p)).Some? && StateOf(Load(file), Key(fs, p)).value.status == "paused"
    {
      var st := GetLoopState(fs, p);
      b := st.Some? && st.value.status == "paused";
    }
  }

  /** In entries with distinct paths, each entry occurs once. */
  lemma DistinctOnce(a: seq<Project>, x: int)
    requires 0 <= x < |a|
    requires forall i, j :: 0 <= i < j < |a| ==> a[i].path != a[j].path
    ensures multiset(a)[a[x]] == 1
  {
    assert a == a[..x] + [a[x]] + a[x + 1..];
    assert a[x] !in a[..x] && a[x] !in a[x + 1..];
  }

  /** A permutation of entries with distinct paths has distinct paths. */
  lemma DistinctPermutation(a: seq<Project>, b: seq<Project>)
    requires multiset(a) == multiset(b)
    requires forall i, j :: 0 <= i < j < |a| ==> a[i].path != a[j].path
    ensures forall i, j :: 0 <= i < j < |b| ==> b[i].path != b[j].path
  {
    forall i, j | 0 <= i < j < |b|
      ensures b[i].path != b[j].path
    {
      assert b[i] in multiset(a) && b[j] in multiset(a);
      var x :| 0 <= x < |a| && a[x] == b[i];
      var y :| 0 <= y < |a| && a[y] == b[j];
      if b[i] == b[j] {
        assert multiset(b)[b[i]] >= 2 by {
          assert b == b[..i] + [b[i]] + b[i + 1..j] + [b[j]] + b[j + 1..];
        }
        DistinctOnce(a, x);
      }
    }
  }
}

=== FILE: spec_session.dfy ===
/**
  * The spec conversation: one engine session kept open across exchanges,
  * the conversation transcript, running token and cost totals, and a
  * completion flag that, once set, stays set.
  *
  * Each exchange sees the engine's reply as a sequence of messages, with
  * `Raise(e)` marking the point where the engine raises an exception whose
  * text is `e`. `repr` gives Python's `str(d)` of a tool input.
  */
module SpecChat {
  import opened Wrappers
  import opened Json
  import Text
  import opened Agent

  /** What the session streams to its caller. */
  datatype Chunk =
    | TextChunk(content: string)
    | ThinkingChunk(content: string)
    | ToolChunk(name: string, input: string)
    | CompleteChunk(content: string)
    | ErrorChunk(content: string)
    | ResponseDone

  /** One transcript entry. */
  datatype ChatMessage = ChatMessage(role: string, content: string, timestamp: string)

  /** The tools the session offers; writes are confined to the workspace by the spec permission handler. */
  const SPEC_TOOLS: seq<string> := ["Read", "Glob", "Grep", "Write", "Edit"]

  /** `_format_tool_input`: the file for file tools, the pattern for searches, the command cut at 80 characters. */
  function FormatToolInput(tool: string, input: Object, repr: string): (r: string)
    ensures input == map[] ==> r == ""
    ensures input != map[] && (tool == "Read" || tool == "Write" || tool == "Edit") ==> r == GetText(input, "file_path")
    ensures input != map[] && (tool == "Glob" || tool == "Grep") ==> r == GetText(input, "pattern")
    ensures input != map[] && tool == "Bash" ==>
              var cmd := GetText(input, "command");
              (|cmd| <= 80 ==> r == cmd) && (|cmd| > 80 ==> |r| == 83 && r == cmd[..80] + "...")
    ensures input != map[] && tool !in {"Read", "Write", "Edit", "Bash", "Glob", "Grep"} ==>
              (|repr| <= 80 ==> r == repr) && (|repr| > 80 ==> r == repr[..80])
  {
    if input == map[] then ""
    else if tool == "Read" then GetText(input, "file_path")
    else if tool == "Write" || tool == "Edit" then GetText(input, "file_path")
    else if tool == "Bash" then
      var cmd := GetText(input, "command");
      if |cmd| > 80 then Text.Prefix(cmd, 80) + "..." else cmd
    else if tool == "Glob" then GetText(input, "pattern")
    else if tool == "Grep" then GetText(input, "pattern")
    else Text.Prefix(repr, 80)
  }

  // ---------------------------------------------------------------------
  // One reply
  // ---------------------------------------------------------------------

  /**
    * What `_query` has produced so far: the reply text, the chunks
    * streamed, the texts stored as assistant messages, the token and cost
    * increments, and the exception, if one was raised.
    */
  datatype Reply = Reply(text: string, chunks: seq<Chunk>, said: seq<string>,
                         inputTokens: nat, outputTokens: nat, cost: real, raised: Option<string>)

  const NO_REPLY := Reply("", [], [], 0, 0, 0.0, None)

  /** One content block of an assistant message. */
  function BlockStep(r: Reply, b: Block, repr: Object -> string): Reply {
    match b
    case TextBlock(t) =>
      if t != "" then r.(text := r.text + t, chunks := r.chunks + [TextChunk(t)], said := r.said + [t]) else r
    case ThinkingBlock(t) => r.(chunks := r.chunks + [ThinkingChunk(t)])
    case ToolUseBlock(name, input) => r.(chunks := r.chunks + [ToolChunk(name, FormatToolInput(name, input, repr(input)))])
    case ToolResultBlock(_, _) => r
  }

  function Blocks(r: Reply, bs: seq<Block>, repr: Object -> string): Reply {
    if bs == [] then r else BlockStep(Blocks(r, bs[..|bs| - 1], repr), bs[|bs| - 1], repr)
  }

  /**
    * One message of the reply: assistant content is streamed block by
    * block; a result adds its input and output tokens (cached tokens
    * excluded) and its cost when non-zero; after an exception nothing more
    * is looked at.
    */
  function MessageStep(r: Reply, m: Message, repr: Object -> string): Reply {
    if r.raised.Some? then r
    else
      match m
      case Assistant(content, _) => Blocks(r, content, repr)
      case Result(_, _, _, usage, cost, _) =>
        r.(inputTokens := r.inputTokens + (if usage.Some? then usage.value.inputTokens else 0),
           outputTokens := r.outputTokens + (if usage.Some? then usage.value.outputTokens else 0),
           cost := if cost != 0.0 then r.cost + cost else r.cost)
      case Other => r
      case Raise(e) => r.(raised := Some(e))
  }

  function Replied(r: Reply, ms: seq<Message>, repr: Object -> string): Reply {
    if ms == [] then r else MessageStep(Replied(r, ms[..|ms| - 1], repr), ms[|ms| - 1], repr)
  }

  /** The contents of the text chunks, in order. */
  function TextsOf(cs: seq<Chunk>): seq<string> {
    if cs == [] then []
    else TextsOf(cs[..|cs| - 1]) + (if cs[|cs| - 1].TextChunk? then [cs[|cs| - 1].content] else [])
  }

  function Concat(ts: seq<string>): string {
    if ts == [] then "" else Concat(ts[..|ts| - 1]) + ts[|ts| - 1]
  }

  /** The reply text, the text chunks and the stored assistant texts are the same texts. */
  predicate Agrees(r: Reply) {
    TextsOf(r.chunks) == r.said && r.text == Concat(r.said) && forall i :: 0 <= i < |r.said| ==> r.said[i] != ""
  }

  lemma {:induction false} BlocksAgree(r: Reply, bs: seq<Block>, repr: Object -> string)
    requires Agrees(r)
    ensures Agrees(Blocks(r, bs, repr))
  {
    if bs != [] {
      BlocksAgree(r, bs[..|bs| - 1], repr);
      StepAgrees(Blocks(r, bs[..|bs| - 1], repr), bs[|bs| - 1], repr);
    }
  }

  lemma StepAgrees(r: Reply, b: Block, repr: Object -> string)
    requires Agrees(r)
    ensures Agrees(BlockStep(r, b, repr))
  {
    match b
    case TextBlock(t) =>
      if t != "" {
        TextAgrees(r, t);
      }
    case ThinkingBlock(t) =>
      OtherChunkAgrees(r, ThinkingChunk(t));
    case ToolUseBlock(name, input) =>
      OtherChunkAgrees(r, ToolChunk(name, FormatToolInput(name, input, repr(input))));
    case ToolResultBlock(_, _) =>
  }

  lemma TextAgrees(r: Reply, t: string)
    requires Agrees(r) && t != ""
    ensures Agrees(r.(text := r.text + t, chunks := r.chunks + [TextChunk(t)], said := r.said + [t]))
  {
    var cs := r.chunks + [TextChunk(t)];
    assert cs[..|cs| - 1] == r.chunks;
    var ts := r.said + [t];
    assert ts[..|ts| - 1] == r.said;
  }

  lemma OtherChunkAgrees(r: Reply, c: Chunk)
    requires Agrees(r) && !c.TextChunk?
    ensures Agrees(r.(chunks := r.chunks + [c]))
  {
    var cs := r.chunks + [c];
    assert cs[..|cs| - 1] == r.chunks;
  }

  /**
    * Each non-empty text block of the reply, in order, is appended to the
    * reply text, streamed as a text chunk and stored as an assistant
    * message; nothing else is.
    */
  lemma {:induction false} RepliedAgrees(ms: seq<Message>, repr: Object -> string)
    ensures Agrees(Replied(NO_REPLY, ms, repr))
  {
    if ms != [] {
      RepliedAgrees(ms[..|ms| - 1], repr);
      var r0 := Replied(NO_REPLY, ms[..|ms| - 1], repr);
      if r0.raised.None? && ms[|ms| - 1].Assistant? {
        BlocksAgree(r0, ms[|ms| - 1].content, repr);
      }
    }
  }

  /** The input tokens of the results in `ms`, without the cached ones. */
  function ResultInputs(ms: seq<Message>): nat {
    if ms == [] then 0
    else ResultInputs(ms[..|ms| - 1]) +
         (if ms[|ms| - 1].Result? && ms[|ms| - 1].usage.Some? then ms[|ms| - 1].usage.value.inputTokens else 0)
  }

  lemma {:induction false} BlocksKeepTotals(r: Reply, bs: seq<Block>, repr: Object -> string)
    ensures var r' := Blocks(r, bs, repr);
            r'.inputTokens == r.inputTokens && r'.outputTokens == r.outputTokens && r'.cost == r.cost && r'.raised == r.raised
  {
    if bs != [] {
      BlocksKeepTotals(r, bs[..|bs| - 1], repr);
    }
  }

  /** Without an exception, a reply adds exactly the results' uncached input tokens. */
  lemma {:induction false} RepliedInputs(ms: seq<Message>, repr: Object -> string)
    requires forall i :: 0 <= i < |ms| ==> !ms[i].Raise?
    ensures Replied(NO_REPLY, ms, repr).inputTokens == ResultInputs(ms)
    ensures Replied(NO_REPLY, ms, repr).raised.None?
  {
    if ms != [] {
      RepliedInputs(ms[..|ms| - 1], repr);
      var r0 := Replied(NO_REPLY, ms[..|ms| - 1], repr);
      if ms[|ms| - 1].Assistant? {
        BlocksKeepTotals(r0, ms[|ms| - 1].content, repr);
      }
    }
  }

  /** The assistant transcript entries for the stored texts. */
  function AssistantEntries(said: seq<string>, now: string): (es: seq<ChatMessage>)
    ensures |es| == |said|
    ensures forall i :: 0 <= i < |said| ==> es[i] == ChatMessage("assistant", said[i], now)
  {
    seq(|said|, i requires 0 <= i < |said| => ChatMessage("assistant", said[i], now))
  }

  lemma EntriesSplit(said: seq<string>, k: nat, now: string)
    requires k <= |said|
    ensures AssistantEntries(said, now) == AssistantEntries(said[..k], now) + AssistantEntries(said, now)[k..]
  {
    assert AssistantEntries(said, now)[..k] == AssistantEntries(said[..k], now);
  }

  /** The reply finished and its text carries the spec completion signal. */
  predicate Finished(r: Reply) {
    r.raised.None? && Text.Contains(r.text, SPEC_COMPLETE_SIGNAL)
  }

  // ---------------------------------------------------------------------
  // The session
  // ---------------------------------------------------------------------

  /**
    * `SpecSession`: `hasClient` and `hasContext` say whether the engine
    * client and its context are open.
    */
  class SpecSession {
    const projectDir: seq<string>
    const workspaceDir: seq<string>
    var hasClient: bool
    var hasContext: bool
    var messages: seq<ChatMessage>
    var complete: bool
    var totalInputTokens: nat
    var totalOutputTokens: nat
    var totalCostUsd: real
    var numExchanges: nat

    constructor(projectDir: seq<string>, workspaceDir: seq<string>)
      ensures this.projectDir == projectDir && this.workspaceDir == workspaceDir
      ensures !hasClient && !hasContext && messages == [] && !complete
      ensures totalInputTokens == 0 && totalOutputTokens == 0 && totalCostUsd == 0.0 && numExchanges == 0
    {
      this.projectDir := projectDir;
      this.workspaceDir := workspaceDir;
      hasClient := false;
      hasContext := false;
      messages := [];
      complete := false;
      totalInputTokens := 0;
      totalOutputTokens := 0;
      totalCostUsd := 0.0;
      numExchanges := 0;
    }

    /** `is_complete`. */
    predicate IsComplete()
      reads this
    {
      complete
    }

    /** `get_messages`: the transcript as a value, which later exchanges do not change. */
    method GetMessages() returns (ms: seq<ChatMessage>)
      ensures ms == messages
    {
      ms := messages;
    }

    /**
      * `_query`: streams the reply, storing each text as an assistant
      * message and adding the results' usage to the totals; a reply that
      * finishes with the completion signal in its text sets `complete`.
      */
    method Query(ms: seq<Message>, repr: Object -> string, now: string) returns (r: Reply, chunks: seq<Chunk>)
      modifies this
      ensures r == Replied(NO_REPLY, ms, repr)
      ensures chunks == r.chunks + (if Finished(r) then [CompleteChunk("Spec discovery complete!")] else [])
      ensures messages == old(messages) + AssistantEntries(r.said, now)
      ensures totalInputTokens == old(totalInputTokens) + r.inputTokens
      ensures totalOutputTokens == old(totalOutputTokens) + r.outputTokens
      ensures totalCostUsd == old(totalCostUsd) + r.cost
      ensures complete == (old(complete) || Finished(r))
      ensures hasClient == old(hasClient) && hasContext == old(hasContext) && numExchanges == old(numExchanges)
    {
      r := NO_REPLY;
      var i := 0;
      while i < |ms|
        invariant 0 <= i <= |ms|
        invariant r == Replied(NO_REPLY, ms[..i], repr)
        invariant messages == old(messages) + AssistantEntries(r.said, now)
        invariant totalInputTokens == old(totalInputTokens) + r.inputTokens
        invariant totalOutputTokens == old(totalOutputTokens) + r.outputTokens
        invariant totalCostUsd == old(totalCostUsd) + r.cost
        invariant complete == old(complete)
        invariant hasClient == old(hasClient) && hasContext == old(hasContext) && numExchanges == old(numExchanges)
      {
        assert ms[..i + 1][..i] == ms[..i];
        var r0 := r;
        r := Take(ms[i], r, repr, now);
        EntriesSplit(r.said, |r0.said|, now);
        i := i + 1;
      }
      assert ms[..|ms|] == ms;
      chunks := r.chunks;
      if r.raised.None? && Text.Contains(r.text, SPEC_COMPLETE_SIGNAL) {
        complete := true;
        chunks := chunks + [CompleteChunk("Spec discovery complete!")];
      }
    }

    /** One message of the reply. */
    method Take(m: Message, r0: Reply, repr: Object -> string, now: string) returns (r: Reply)
      modifies this
      ensures r == MessageStep(r0, m, repr)
      ensures |r0.said| <= |r.said| && r.said[..|r0.said|] == r0.said
      ensures messages == old(messages) + AssistantEntries(r.said, now)[|r0.said|..]
      ensures totalInputTokens == old(totalInputTokens) + (r.inputTokens - r0.inputTokens)
      ensures totalOutputTokens == old(totalOutputTokens) + (r.outputTokens - r0.outputTokens)
      ensures totalCostUsd == old(totalCostUsd) + (r.cost - r0.cost)
      ensures complete == old(complete)
      ensures hasClient == old(hasClient) && hasContext == old(hasContext) && numExchanges == old(numExchanges)
    {
      if r0.raised.Some? {
        // The exception left the loop; later messages are never looked at.
        return r0;
      }
      match m {
        case Assistant(content, _) =>
          r := Content(content, r0, repr, now);
          BlocksKeepTotals(r0, content, repr);
        case Result(_, _, _, usage, cost, _) =>
          if usage.Some? {
            totalInputTokens := totalInputTokens + usage.value.inputTokens;
            totalOutputTokens := totalOutputTokens + usage.value.outputTokens;
          }
          if cost != 0.0 {
            totalCostUsd := totalCostUsd + cost;
          }
          r := MessageStep(r0, m, repr);
        case Other =>
          r := r0;
        case Raise(e) =>
          r := r0.(raised := Some(e));
      }
    }

    /** The content blocks of one assistant message. */
    method Content(bs: seq<Block>, r0: Reply, repr: Object -> string, now: string) returns (r: Reply)
      modifies this
      ensures r == Blocks(r0, bs, repr)
      ensures |r0.said| <= |r.said| && r.said[..|r0.said|] == r0.said
      ensures messages == old(messages) + AssistantEntries(r.said, now)[|r0.said|..]
      ensures totalInputTokens == old(totalInputTokens) && totalOutputTokens == old(totalOutputTokens)
      ensures totalCostUsd == old(totalCostUsd) && complete == old(complete)
      ensures hasClient == old(hasClient) && hasContext == old(hasContext) && numExchanges == old(numExchanges)
    {
      r := r0;
      var j := 0;
      while j < |bs|
        invariant 0 <= j <= |bs|
        invariant r == Blocks(r0, bs[..j], repr)
        invariant |r0.said| <= |r.said| && r.said[..|r0.said|] == r0.said
        invariant messages == old(messages) + AssistantEntries(r.said, now)[|r0.said|..]
        invariant totalInputTokens == old(totalInputTokens) && totalOutputTokens == old(totalOutputTokens)
        invariant totalCostUsd == old(totalCostUsd) && complete == old(complete)
        invariant hasClient == old(hasClient) && hasContext == old(hasContext) && numExchanges == old(numExchanges)
      {
        assert bs[..j + 1][..j] == bs[..j];
        var said := r.said;
        r := BlockStep(r, bs[j], repr);
        if bs[j].TextBlock? && bs[j].text != "" {
          messages := messages + [ChatMessage("assistant", bs[j].text, now)];
          assert r.said == said + [bs[j].text];
          assert AssistantEntries(r.said, now)[|r0.said|..] ==
                 AssistantEntries(said, now)[|r0.said|..] + [ChatMessage("assistant", bs[j].text, now)];
        }
        j := j + 1;
      }
      assert bs[..|bs|] == bs;
    }

    /**
      * `send_message`: without a client, one error chunk and no change;
      * otherwise the user message is stored and counted before the reply
      * is streamed, and an exception ends the stream with an error chunk.
      */
    method SendMessage(text: string, ms: seq<Message>, repr: Object -> string, now: string) returns (chunks: seq<Chunk>)
      modifies this
      ensures !old(hasClient) ==>
                chunks == [ErrorChunk("Session not initialized. Call start() first.")] &&
                messages == old(messages) && numExchanges == old(numExchanges) && complete == old(complete) &&
                totalInputTokens == old(totalInputTokens) && totalOutputTokens == old(totalOutputTokens) &&
                totalCostUsd == old(totalCostUsd)
      ensures old(hasClient) ==>
                var r := Replied(NO_REPLY, ms, repr);
                numExchanges == old(numExchanges) + 1 &&
                messages == old(messages) + [ChatMessage("user", text, now)] + AssistantEntries(r.said, now) &&
                totalInputTokens == old(totalInputTokens) + r.inputTokens &&
                totalOutputTokens == old(totalOutputTokens) + r.outputTokens &&
                totalCostUsd == old(totalCostUsd) + r.cost &&
                complete == (old(complete) || Finished(r)) &&
                chunks == r.chunks + (if Finished(r) then [CompleteChunk("Spec discovery complete!")] else []) +
                          [if r.raised.Some? then ErrorChunk("Error: " + r.raised.value) else ResponseDone]
      ensures hasClient == old(hasClient) && hasContext == old(hasContext)
    {
      if !hasClient {
        chunks := [ErrorChunk("Session not initialized. Call start() first.")];
        return;
      }
      messages := messages + [ChatMessage("user", text, now)];
      numExchanges := numExchanges + 1;
      var r;
      r, chunks := Query(ms, repr, now);
      if r.raised.Some? {
        chunks := chunks + [ErrorChunk("Error: " + r.raised.value)];
      } else {
        chunks := chunks + [ResponseDone];
      }
    }

    /**
      * `start`: opens the client, or streams one error chunk when that
      * fails, then streams the reply to the opening prompt.
      */
    method Start(openFails: Option<string>, ms: seq<Message>, repr: Object -> string, now: string) returns (chunks: seq<Chunk>)
      modifies this
      ensures openFails.Some? ==>
                chunks == [ErrorChunk("Failed to initialize: " + openFails.value)] &&
                messages == old(messages) && complete == old(complete) && hasClient == old(hasClient) &&
                hasContext == old(hasContext) && numExchanges == old(numExchanges) &&
                totalInputTokens == old(totalInputTokens) && totalOutputTokens == old(totalOutputTokens) &&
                totalCostUsd == old(totalCostUsd)
      ensures openFails.None? ==>
                var r := Replied(NO_REPLY, ms, repr);
                hasClient && hasContext && numExchanges == old(numExchanges) &&
                messages == old(messages) + AssistantEntries(r.said, now) &&
                totalInputTokens == old(totalInputTokens) + r.inputTokens &&
                totalOutputTokens == old(totalOutputTokens) + r.outputTokens &&
                totalCostUsd == old(totalCostUsd) + r.cost &&
                complete == (old(complete) || Finished(r)) &&
                chunks == r.chunks + (if Finished(r) then [CompleteChunk("Spec discovery complete!")] else []) +
                          [if r.raised.Some? then ErrorChunk("Error starting session: " + r.raised.value) else ResponseDone]
    {
      if openFails.Some? {
        chunks := [ErrorChunk("Failed to initialize: " + openFails.value)];
        return;
      }
      hasClient := true;
      hasContext := true;
      var r;
      r, chunks := Query(ms, repr, now);
      if r.raised.Some? {
        chunks := chunks + [ErrorChunk("Error starting session: " + r.raised.value)];
      } else {
        chunks := chunks + [ResponseDone];
      }
    }

    /** `close`: an open context is left and both handles are dropped, even when leaving it fails. */
    method Close(exitFails: bool)
      modifies this
      ensures old(hasContext) ==> !hasClient && !hasContext
      ensures !old(hasContext) ==> hasClient == old(hasClient) && !hasContext
      ensures messages == old(messages) && complete == old(complete) && numExchanges == old(numExchanges)
      ensures totalInputTokens == old(totalInputTokens) && totalOutputTokens == old(totalOutputTokens) &&
              totalCostUsd == old(totalCostUsd)
    {
      if hasContext {
        // Whether or not leaving the context raises, the handles are dropped.
        hasContext := false;
        hasClient := false;
      }
    }
  }
}

=== FILE: text.dfy ===
/**
  * The parts of Python's `str` the core uses: substring search, `replace`,
  * `strip`, `split`, `join`, slicing with possibly negative bounds and
  * integer formatting. Characters are Unicode code points; letters and
  * digits are ASCII only (see README).
  */
module Text {

  /** Python's `str.isspace` for one character, by code point. */
  predicate IsSpace(c: char) {
    var n := c as int;
    (9 <= n <= 13) || (0x1c <= n <= 0x20) || n == 0x85 || n == 0xa0 || n == 0x1680 ||
    (0x2000 <= n <= 0x200a) || n == 0x2028 || n == 0x2029 || n == 0x202f || n == 0x205f ||
    n == 0x3000
  }

  predicate IsAsciiUpper(c: char) { 'A' <= c <= 'Z' }

  /** `c.isalnum()`, restricted to ASCII letters and digits. */
  predicate IsAlnum(c: char) {
    ('a' <= c <= 'z') || IsAsciiUpper(c) || ('0' <= c <= '9')
  }

  function LowerChar(c: char): (d: char)
    ensures IsAsciiUpper(c) ==> d as int == c as int + 32
    ensures !IsAsciiUpper(c) ==> d == c
  {
    if IsAsciiUpper(c) then (c as int + 32) as char else c
  }

  /** `s.lower()` on ASCII letters. */
  function Lower(s: string): (r: string)
    ensures |r| == |s|
    ensures forall i :: 0 <= i < |s| ==> r[i] == LowerChar(s[i])
  {
    if s == [] then [] else [LowerChar(s[0])] + Lower(s[1..])
  }

  predicate StartsWith(s: string, p: string) {
    |p| <= |s| && s[..|p|] == p
  }

  /** `sub in s`: plain, case-sensitive substring search. */
  predicate Contains(s: string, sub: string)
    decreases |s|
  {
    StartsWith(s, sub) || (|s| > 0 && Contains(s[1..], sub))
  }

  /** Python's `s[:k]` for any integer `k`. */
  function Prefix(s: string, k: int): (r: string)
    ensures 0 <= k <= |s| ==> r == s[..k]
    ensures k > |s| ==> r == s
    ensures |r| <= |s|
  {
    if k >= 0 then s[..if k <= |s| then k else |s|]
    else s[..if |s| + k >= 0 then |s| + k else 0]
  }

  /** Python's `s[k:]` for any integer `k`; note that `s[-0:]` is all of `s`. */
  function Suffix(s: string, k: int): (r: string)
    ensures 0 <= k <= |s| ==> r == s[k..]
    ensures -|s| <= k < 0 ==> r == s[|s| + k..] && |r| == -k
  {
    if k >= 0 then s[if k <= |s| then k else |s|..]
    else s[if |s| + k >= 0 then |s| + k else 0..]
  }

  function StripLeft(s: string, chars: set<char>): (r: string)
    ensures |r| <= |s| && r == s[|s| - |r|..]
    ensures r == [] || r[0] !in chars
  {
    if s != [] && s[0] in chars then StripLeft(s[1..], chars) else s
  }

  function StripRight(s: string, chars: set<char>): (r: string)
    ensures |r| <= |s| && r == s[..|r|]
    ensures r == [] || r[|r| - 1] !in chars
  {
    if s != [] && s[|s| - 1] in chars then StripRight(s[..|s| - 1], chars) else s
  }

  /** `s.strip(chars)`: the longest middle part of `s` with no end character in `chars`. */
  function Strip(s: string, chars: set<char>): string {
    StripRight(StripLeft(s, chars), chars)
  }

  lemma {:induction false} StripEnds(s: string, chars: set<char>)
    ensures var r := Strip(s, chars);
            r == [] || (r[0] !in chars && r[|r| - 1] !in chars)
  {
    var l := StripLeft(s, chars);
    var r := StripRight(l, chars);
    if r != [] {
      assert r[0] == l[0];
    }
  }

  /** Stripping from the left stops at the first character outside `chars`. */
  lemma {:induction false} StripLeftWindow(s: string, chars: set<char>, i: int)
    requires 0 <= i < |s| && s[i] !in chars
    requires forall k :: 0 <= k < i ==> s[k] in chars
    ensures StripLeft(s, chars) == s[i..]
    decreases i
  {
    if i > 0 {
      assert s[0] in chars;
      StripLeftWindow(s[1..], chars, i - 1);
      assert s[1..][i - 1..] == s[i..];
    }
  }

  /** Stripping from the right stops at the last character outside `chars`. */
  lemma {:induction false} StripRightWindow(s: string, chars: set<char>, j: int)
    requires 0 <= j < |s| && s[j] !in chars
    requires forall k :: j < k < |s| ==> s[k] in chars
    ensures StripRight(s, chars) == s[..j + 1]
    decreases |s| - j
  {
    if j < |s| - 1 {
      assert s[|s| - 1] in chars;
      StripRightWindow(s[..|s| - 1], chars, j);
      assert s[..|s| - 1][..j + 1] == s[..j + 1];
    }
  }

  /**
    * `s.strip(chars)` keeps exactly the part from the first to the last
    * character outside `chars`.
    */
  lemma StripWindow(s: string, chars: set<char>, i: int, j: int)
    requires 0 <= i <= j < |s| && s[i] !in chars && s[j] !in chars
    requires forall k :: 0 <= k < i ==> s[k] in chars
    requires forall k :: j < k < |s| ==> s[k] in chars
    ensures Strip(s, chars) == s[i..j + 1]
  {
    StripLeftWindow(s, chars, i);
    StripRightOfSuffix(s, chars, i, j);
  }

  /** Stripping `s[i..]` from the right stops at `s[j]`, the last character outside `chars`. */
  lemma StripRightOfSuffix(s: string, chars: set<char>, i: int, j: int)
    requires 0 <= i <= j < |s| && s[j] !in chars
    requires forall k :: j < k < |s| ==> s[k] in chars
    ensures StripRight(s[i..], chars) == s[i..j + 1]
  {
    var l := s[i..];
    forall k | j - i < k < |l|
      ensures l[k] in chars
    {
      assert l[k] == s[i + k];
    }
    StripRightWindow(l, chars, j - i);
    SliceOfSuffix(s, i, j - i + 1);
  }

  /** The first `n` characters of `s[i..]` are `s[i..i + n]`. */
  lemma SliceOfSuffix(s: string, i: int, n: int)
    requires 0 <= i && 0 <= n && i + n <= |s|
    ensures s[i..][..n] == s[i..i + n]
  {
  }

  /** A string made only of characters in `chars` strips to nothing. */
  lemma {:induction false} StripAll(s: string, chars: set<char>)
    requires forall k :: 0 <= k < |s| ==> s[k] in chars
    ensures StripLeft(s, chars) == [] && Strip(s, chars) == []
    decreases |s|
  {
    if s != [] {
      assert s[0] in chars;
      StripAll(s[1..], chars);
    }
  }

  /** A string whose ends are already outside `chars` is left as it is. */
  lemma {:induction false} StripIdentity(s: string, chars: set<char>)
    requires s == [] || (s[0] !in chars && s[|s| - 1] !in chars)
    ensures Strip(s, chars) == s
  {
  }

  /** The characters `str.strip()` removes when given no argument. */
  const WHITESPACE: set<char> :=
    {'\t', '\n', '\U{000b}', '\U{000c}', '\r', '\U{001c}', '\U{001d}', '\U{001e}', '\U{001f}',
     ' ', '\U{0085}', '\U{00a0}', '\U{1680}', '\U{2000}', '\U{2001}', '\U{2002}', '\U{2003}',
     '\U{2004}', '\U{2005}', '\U{2006}', '\U{2007}', '\U{2008}', '\U{2009}', '\U{200a}',
     '\U{2028}', '\U{2029}', '\U{202f}', '\U{205f}', '\U{3000}'}

  /** `s.replace(pat, rep)`: every non-overlapping occurrence, scanning left to right. */
  function Replace(s: string, pat: string, rep: string): string
    requires |pat| > 0
    decreases |s|
  {
    if |s| < |pat| then s
    else if s[..|pat|] == pat then rep + Replace(s[|pat|..], pat, rep)
    else [s[0]] + Replace(s[1..], pat, rep)
  }

  /** Text without an occurrence of `pat` passes through `replace` unchanged. */
  lemma {:induction false} ReplaceAbsent(s: string, pat: string, rep: string)
    requires |pat| > 0 && !Contains(s, pat)
    ensures Replace(s, pat, rep) == s
    decreases |s|
  {
    if |s| >= |pat| {
      assert !StartsWith(s, pat);
      ReplaceAbsent(s[1..], pat, rep);
    }
  }

  /** `join` with a string separator: `sep.join(parts)`. */
  function Join(parts: seq<string>, sep: string): string {
    if |parts| == 0 then ""
    else if |parts| == 1 then parts[0]
    else parts[0] + sep + Join(parts[1..], sep)
  }

  /** `s.split(sep)` for a one-character separator; never empty, empty parts kept. */
  function Split(s: string, sep: char): (parts: seq<string>)
    ensures |parts| >= 1
    ensures forall i :: 0 <= i < |parts| ==> sep !in parts[i]
  {
    if s == [] then [""]
    else if s[0] == sep then [""] + Split(s[1..], sep)
    else
      var rest := Split(s[1..], sep);
      [[s[0]] + rest[0]] + rest[1..]
  }

  /** `sep.join(s.split(sep)) == s`. */
  lemma {:induction false} JoinSplit(s: string, sep: char)
    ensures Join(Split(s, sep), [sep]) == s
  {
    if s != [] {
      JoinSplit(s[1..], sep);
      var rest := Split(s[1..], sep);
      if s[0] != sep {
        if |rest| > 1 {
          assert Join([[s[0]] + rest[0]] + rest[1..], [sep])
              == [s[0]] + rest[0] + [sep] + Join(rest[1..], [sep]);
        }
      }
    }
  }

  /** `s.split(sep)` undoes `sep.join(parts)` when no part contains the separator. */
  lemma {:induction false} SplitJoin(parts: seq<string>, sep: char)
    requires |parts| >= 1
    requires forall i :: 0 <= i < |parts| ==> sep !in parts[i]
    ensures Split(Join(parts, [sep]), sep) == parts
    decreases |parts|, |parts[0]|
  {
    var p := parts[0];
    if p == [] {
      if |parts| > 1 {
        SplitJoin(parts[1..], sep);
        assert Join(parts, [sep]) == [sep] + Join(parts[1..], [sep]);
      }
    } else {
      var parts' := [p[1..]] + parts[1..];
      assert forall i :: 0 <= i < |parts'| ==> sep !in parts'[i] by {
        assert forall c :: c in p[1..] ==> c in p;
      }
      SplitJoin(parts', sep);
      if |parts| > 1 {
        assert Join(parts, [sep]) == [p[0]] + Join(parts', [sep]);
      } else {
        assert Join(parts, [sep]) == [p[0]] + Join(parts', [sep]);
      }
      assert p[0] != sep by { assert p[0] in p; }
      assert [p[0]] + p[1..] == p;
      assert [p] + parts[1..] == parts;
    }
  }

  /** Python's `s.split()`: maximal runs of non-whitespace characters. */
  function Words(s: string): (ws: seq<string>)
    ensures forall i :: 0 <= i < |ws| ==> ws[i] != [] && forall c :: c in ws[i] ==> !IsSpace(c)
  {
    WordsFrom(s, [])
  }

  function WordsFrom(s: string, cur: string): (ws: seq<string>)
    requires forall c :: c in cur ==> !IsSpace(c)
    ensures forall i :: 0 <= i < |ws| ==> ws[i] != [] && forall c :: c in ws[i] ==> !IsSpace(c)
    decreases |s|
  {
    if s == [] then (if cur == [] then [] else [cur])
    else if IsSpace(s[0]) then (if cur == [] then [] else [cur]) + WordsFrom(s[1..], [])
    else WordsFrom(s[1..], cur + [s[0]])
  }

  /** `" ".join(s.split())`: whitespace runs collapsed to one space, ends trimmed. */
  function CollapseSpaces(s: string): string {
    Join(Words(s), " ")
  }

  /** The value of a decimal digit character. */
  function DigitValue(c: char): int {
    c as int - '0' as int
  }

  /** The character of the decimal digit `d`. */
  function DigitChar(d: nat): (c: char)
    requires d < 10
    ensures '0' <= c <= '9' && DigitValue(c) == d
  {
    ('0' as int + d) as char
  }

  /** `str(n)` for a natural number. */
  function NatToString(n: nat): (r: string)
    ensures |r| >= 1
    ensures forall i :: 0 <= i < |r| ==> '0' <= r[i] <= '9'
  {
    if n < 10 then [DigitChar(n)] else NatToString(n / 10) + [DigitChar(n % 10)]
  }

  /** `str(i)` for any integer. */
  function IntToString(i: int): string {
    if i < 0 then "-" + NatToString(-i) else NatToString(i)
  }

  /** Python's `a < b` on strings: code point by code point, a proper prefix first. */
  predicate Less(a: string, b: string)
    decreases |a|
  {
    |b| > 0 && (|a| == 0 || a[0] < b[0] || (a[0] == b[0] && Less(a[1..], b[1..])))
  }

  /** Any two strings are equal or ordered, and never both ways. */
  lemma {:induction false} LessTotal(a: string, b: string)
    ensures a == b || Less(a, b) || Less(b, a)
    ensures !(Less(a, b) && Less(b, a))
    decreases |a|
  {
    if |a| > 0 && |b| > 0 {
      LessTotal(a[1..], b[1..]);
      if a[0] == b[0] && a[1..] == b[1..] {
        assert a == [a[0]] + a[1..] && b == [b[0]] + b[1..];
      }
    }
  }

  lemma {:induction false} LessTransitive(a: string, b: string, c: string)
    requires Less(a, b) && Less(b, c)
    ensures Less(a, c)
    decreases |a|
  {
    if |a| > 0 && a[0] == b[0] && b[0] == c[0] {
      LessTransitive(a[1..], b[1..], c[1..]);
    }
  }

  /** Not below is transitive: the order is total. */
  lemma AtLeastTransitive(a: string, b: string, c: string)
    requires !Less(a, b) && !Less(b, c)
    ensures !Less(a, c)
  {
    LessTotal(a, b);
    LessTotal(b, c);
    if Less(a, c) {
      if a != b {
        LessTransitive(b, a, c);
      }
    }
  }
}

=== FILE: tui.dfy ===
/**
  * The terminal interface's output panel: a buffer that keeps only the
  * newest lines, and the panel view that pads it to a fixed minimum height.
  */
module Tui {

  /** One buffered line: text with an explicit style, or text whose markup is interpreted. */
  datatype Line = Styled(text: string, style: string) | Markup(text: string)

  /** The line `add` stores: an empty style means the text carries its own markup. */
  function NewLine(message: string, style: string): (l: Line)
    ensures l.text == message
    ensures l.Markup? <==> style == ""
  {
    if style != "" then Styled(message, style) else Markup(message)
  }

  /** Python's `s[k:]` for any integer `k`; `s[-0:]` is all of `s`. */
  function Drop<T>(s: seq<T>, k: int): (r: seq<T>)
    ensures 0 <= k <= |s| ==> r == s[k..]
    ensures -|s| <= k < 0 ==> r == s[|s| + k..] && |r| == -k
    ensures k > |s| ==> r == []
    ensures k < -|s| ==> r == s
  {
    if k >= 0 then s[if k <= |s| then k else |s|..]
    else s[if |s| + k >= 0 then |s| + k else 0..]
  }

  /** The newest `k` entries of `s` (all of them when there are fewer). */
  function Newest<T>(s: seq<T>, k: nat): (r: seq<T>)
    ensures |r| == if |s| < k then |s| else k
    ensures |s| >= k ==> r == s[|s| - k..]
  {
    if |s| <= k then s else s[|s| - k..]
  }

  /**
    * The lines after appending `l` and trimming to the newest `max`. As in
    * Python, a bound of 0 slices with `-0` and keeps everything, and a
    * negative bound drops that many of the oldest lines instead.
    */
  function Added(lines: seq<Line>, l: Line, max: int): (r: seq<Line>)
    ensures max >= 1 ==> r == Newest(lines + [l], max)
    ensures max >= 1 ==> |r| <= max && r != [] && r[|r| - 1] == l
    ensures max >= 1 && |lines| < max ==> r == lines + [l]
    ensures max == 0 ==> r == lines + [l]
    ensures max < 0 ==> r == Drop(lines + [l], -max)
  {
    var all := lines + [l];
    if |all| > max then Drop(all, -max) else all
  }

  /** The lines after adding each of `ls` in turn. */
  function AddedAll(lines: seq<Line>, ls: seq<Line>, max: int): seq<Line> {
    if ls == [] then lines else Added(AddedAll(lines, ls[..|ls| - 1], max), ls[|ls| - 1], max)
  }

  /**
    * Whatever was added, a buffer within its bound holds exactly the newest
    * `max` of all the lines it has ever been given, oldest first.
    */
  lemma {:induction false} AddedAllNewest(lines: seq<Line>, ls: seq<Line>, max: int)
    requires max >= 1 && |lines| <= max
    ensures AddedAll(lines, ls, max) == Newest(lines + ls, max)
  {
    if ls == [] {
      assert lines + ls == lines;
    } else {
      var init, x := ls[..|ls| - 1], ls[|ls| - 1];
      AddedAllNewest(lines, init, max);
      assert AddedAll(lines, ls, max) == Added(AddedAll(lines, init, max), x, max);
      AddedNewest(lines + init, x, max);
      assert lines + init + [x] == lines + ls;
    }
  }

  /** Adding to the newest entries of `s` gives the newest entries of `s` with `x` appended. */
  lemma AddedNewest(s: seq<Line>, x: Line, max: int)
    requires max >= 1
    ensures Added(Newest(s, max), x, max) == Newest(s + [x], max)
  {
    NewestSnoc(s, x, max);
  }

  /** Trimming before or after appending one entry keeps the same newest entries. */
  lemma NewestSnoc(s: seq<Line>, x: Line, k: nat)
    requires k >= 1
    ensures Newest(Newest(s, k) + [x], k) == Newest(s + [x], k)
  {
    var a := Newest(s, k);
    if |s| < k {
      assert a == s;
    } else {
      assert a == s[|s| - k..];
      assert Newest(a + [x], k) == (a + [x])[1..] == s[|s| - k + 1..] + [x];
      assert Newest(s + [x], k) == (s + [x])[|s| + 1 - k..];
    }
  }

  const DEFAULT_MAX_LINES := 50

  /** `OutputBuffer`: the styled lines collected so far, at most `maxLines` of them. */
  class OutputBuffer {
    var lines: seq<Line>
    const maxLines: int

    /** Positive bounds are kept. */
    predicate Valid()
      reads this
    {
      maxLines >= 1 ==> |lines| <= maxLines
    }

    constructor(maxLines: int)
      ensures this.maxLines == maxLines && lines == []
      ensures Valid()
    {
      this.maxLines := maxLines;
      lines := [];
    }

    /** The buffer the panel creates: room for 50 lines. */
    constructor Default()
      ensures maxLines == DEFAULT_MAX_LINES && lines == []
      ensures Valid()
    {
      maxLines := DEFAULT_MAX_LINES;
      lines := [];
    }

    /** `add`: the new line goes last and, beyond the bound, the oldest lines go first. */
    method Add(message: string, style: string)
      requires Valid()
      modifies this
      ensures Valid()
      ensures lines == Added(old(lines), NewLine(message, style), maxLines)
    {
      lines := lines + [NewLine(message, style)];
      if |lines| > maxLines {
        lines := Drop(lines, -maxLines);
      }
    }

    /** `clear`. */
    method Clear()
      modifies this
      ensures lines == [] && Valid()
    {
      lines := [];
    }
  }

  const MIN_OUTPUT_LINES := 15

  /** The line a short panel is padded with. */
  const BLANK := Markup("")

  /** `RalphTUI`, as far as its output panel goes. */
  class RalphTui {
    const title: string
    const output: OutputBuffer

    constructor(title: string)
      ensures this.title == title && fresh(output)
      ensures output.lines == [] && output.maxLines == DEFAULT_MAX_LINES
    {
      this.title := title;
      output := new OutputBuffer.Default();
    }

    /**
      * `_render`'s panel body: a copy of the buffered lines padded with
      * blank lines to at least `MIN_OUTPUT_LINES`; the buffer is untouched.
      */
    method Render() returns (panel: seq<Line>)
      ensures |panel| == if |output.lines| < MIN_OUTPUT_LINES then MIN_OUTPUT_LINES else |output.lines|
      ensures panel[..|output.lines|] == output.lines
      ensures forall i :: |output.lines| <= i < |panel| ==> panel[i] == BLANK
    {
      panel := output.lines;
      while |panel| < MIN_OUTPUT_LINES
        invariant |output.lines| <= |panel|
        invariant |panel| <= MIN_OUTPUT_LINES || panel == output.lines
        invariant panel[..|output.lines|] == output.lines
        invariant forall i :: |output.lines| <= i < |panel| ==> panel[i] == BLANK
        decreases MIN_OUTPUT_LINES - |panel|
      {
        panel := panel + [BLANK];
      }
    }

    /** `log`: the message goes into the buffer; refreshing the screen is not modelled. */
    method Log(message: string, style: string)
      requires output.Valid()
      modifies output
      ensures output.Valid()
      ensures output.lines == Added(old(output.lines), NewLine(message, style), output.maxLines)
    {
      output.Add(message, style);
    }
  }
}

=== FILE: wrappers.dfy ===
/** Optional values, standing for Python's `None` and for absent dictionary keys. */
module Wrappers {

  datatype Option<+T> = None | Some(value: T) {

    /** The value, or `default` when there is none (Python's `x or default` for values that are never falsy). */
    function GetOr(default: T): T {
      match this
      case Some(v) => v
      case None => default
    }
  }
}
